=== FILE: README.md ===
# Workspace Hub, modelled in Dafny

Workspace Hub is a VS Code extension. It finds workspaces under a set of
configured search folders. A workspace is either a `.code-workspace`
descriptor file or a folder holding a `.git` directory. The extension lists
the workspaces in a tree view and a quick-switch dialog. It also keeps
favourites, pins, groups, a recents list and open counts in the editor's
global state.

This project models the core of the extension as pure Dafny functions over
immutable data, and proves properties of that model. It covers:

- the glob matcher (`minimatch.ts`);
- the path helpers (`pathUtils.ts`, and the parts of Node's `path` module they rely on);
- the entry and group records (`WorkspaceEntry.ts`, `GroupEntry.ts`);
- the time-to-live cache (`WorkspaceCacheService.ts`);
- the sorter (`SortService.ts`);
- the preference store (`WorkspaceStateService.ts`);
- the discovery walk and its scan orchestration (`WorkspaceDiscoveryService.ts`);
- the folder tree view (`WorkspaceTreeProvider.ts`);
- the descriptor file operations (`WorkspaceCrudService.ts`);
- the quick-switch list (`QuickPickManager.ts`).

How the model stands in for the outside world:

- The file system is an immutable tree of `FsNode` values, and the disk is
  a map from path to content.
- Clocks, random suffixes, configuration values and the home directory are
  parameters.
- The dialog's selection is a parameter too.
- Events are counters on the state records.

Modules, one file each:

| file | module | models |
|---|---|---|
| util.dfy | Util | `Option`, index search, removal, slicing, decimal rendering |
| node_path.dfy | NodePath | POSIX `path.basename`, `extname`, `dirname`, `join`, `relative` |
| path_utils.dfy | PathUtils | `src/utils/pathUtils.ts` |
| workspace_entry.dfy | WorkspaceEntries | `src/models/WorkspaceEntry.ts` |
| group_entry.dfy | Groups | `src/models/GroupEntry.ts` |
| state_service.dfy | PreferenceState | `src/services/WorkspaceStateService.ts` |
| cache_service.dfy | WorkspaceCache | `src/services/WorkspaceCacheService.ts` |
| sort_service.dfy | Sorting | `src/services/SortService.ts` |
| minimatch.dfy | Minimatch | `src/utils/minimatch.ts` |
| discovery.dfy | Discovery | `src/services/WorkspaceDiscoveryService.ts` |
| tree_provider.dfy | FolderTree | `src/providers/WorkspaceTreeProvider.ts` |
| crud_service.dfy | WorkspaceCrud | `src/services/WorkspaceCrudService.ts` |
| quick_pick.dfy | QuickSwitch | `src/ui/QuickPickManager.ts` |

## Model

| member | source | states |
|---|---|---|
| Minimatch.MinimatchCached | src/utils/minimatch.ts:10-20 | The cached matcher gives the same answer as compiling the pattern afresh. The cache stays sound, gains the pattern, and forgets nothing. |
| Minimatch.MinimatchNormalizesPath | src/utils/minimatch.ts:10-11 | A path matches exactly when its backslash-normalised form matches. |
| Minimatch.NormalizeSeps | src/utils/minimatch.ts:11 | Every backslash becomes '/', and nothing else changes. |
| Minimatch.NormalizeIdempotent | src/utils/minimatch.ts:11 | Normalising separators twice is the same as normalising once. |
| Minimatch.Minimatch | src/utils/minimatch.ts:10-20 | Defines `minimatch` without its cache: the pattern's tokens must accept the whole backslash-normalised path. `MinimatchCached` shows the cache changes no answer, and the token lemmas below state what is accepted. |
| Minimatch.Translate | src/utils/minimatch.ts:41-81 | The translation loop from a position on yields no token exactly when it starts at the end of the pattern, and never more tokens than characters remain, since every round consumes at least one. |
| Minimatch.Compile | src/utils/minimatch.ts:15 | A pattern compiles to no tokens iff it is empty, and never to more tokens than it has characters. |
| Minimatch.TokenAccepts | src/utils/minimatch.ts:48-77 | Defines what each regex piece matches. A literal matches one character up to ASCII case, `?` one character other than '/', and `*` a run without '/'. `**` matches a run without a line terminator, `**/` nothing or a run ending in '/', and a brace one of its terms. The per-token lemmas state each case as an iff. |
| Minimatch.Matches | src/utils/minimatch.ts:80-84 | Defines the anchored `^…$` test: the text splits into consecutive pieces, each accepted by the next token. `MatchesConcat` and `LitsMatch` state how it composes. |
| Minimatch.IsExcluded | src/utils/minimatch.ts:34-39 | Defines `isExcludedByCompiledRegex`: with no patterns nothing is excluded; otherwise a path is excluded iff one pattern's tokens accept its normalised form. `CombinedIsDisjunction` relates it to the single patterns. |
| Minimatch.CompileExcludePatterns | src/utils/minimatch.ts:26-32 | No patterns compile to nothing. Otherwise there is one compiled member per pattern, in order. |
| Minimatch.CombinedIsDisjunction | src/utils/minimatch.ts:26-39 | The combined exclude matcher rejects a path iff some single pattern matches it. An empty list excludes nothing. |
| Minimatch.Step | src/utils/minimatch.ts:45-78 | Each round of the translation loop consumes at least one character and stays within the pattern. |
| Minimatch.StarStaysInSegment | src/utils/minimatch.ts:57-60 | `*` matches exactly the paths without a '/'. |
| Minimatch.GlobStarCrossesSegments | src/utils/minimatch.ts:53-56 | `**` matches exactly the paths without a line terminator, '/' included. |
| Minimatch.QuestionIsOneChar | src/utils/minimatch.ts:61-63 | `?` matches exactly the one-character paths other than '/'. |
| Minimatch.BraceIsAlternation | src/utils/minimatch.ts:64-69 | A closed brace becomes one alternation of its comma-separated terms, and translation resumes after the '}'. |
| Minimatch.UnterminatedBraceIsLiteral | src/utils/minimatch.ts:70-73 | An unclosed '{' is a literal character. |
| Minimatch.AlternationPicksATerm | src/utils/minimatch.ts:64-69 | An alternation accepts a text iff one of its terms equals it, ignoring ASCII case. |
| Minimatch.TranslatePlain | src/utils/minimatch.ts:74-77 | A stretch without glob characters translates into one literal per character. |
| Minimatch.PlainPatternIsLiteral | src/utils/minimatch.ts:74-80 | A pattern without glob characters matches exactly the equal path, ignoring ASCII case: the match is anchored at both ends. |
| Minimatch.LitsMatch | src/utils/minimatch.ts:74-80 | A run of literal tokens accepts a text iff the two are equal, ignoring case. |
| Minimatch.MatchesConcat | src/utils/minimatch.ts:41-81 | Concatenated token lists accept a text iff it splits into two parts, each accepted by its own list. |
| Minimatch.MatchesIgnoresCase | src/utils/minimatch.ts:84 | The `i` flag: texts that differ only in ASCII case are accepted alike. |
| Minimatch.DirPatternTokens | src/utils/minimatch.ts:49-56 | `**/NAME/**` compiles to a leading-segments token, the literal `NAME/`, and a match-all token. |
| Minimatch.DirPatternSemantics | src/utils/minimatch.ts:49-56 | A path matches `**/NAME/**` iff `NAME/` occurs in it, at the start or right after a '/', with no line break before or after. |
| Minimatch.EscapeRegex | src/utils/minimatch.ts:87-89 | Escaping never shortens a string. |
| Minimatch.EscapeRoundTrip | src/utils/minimatch.ts:87-89 | Reading the escaped string back, with a backslash standing for the next character, gives the original. |
| Minimatch.EscapeProtectsSpecials | src/utils/minimatch.ts:87-89 | Every special character of the result is preceded by a protecting backslash. |
| NodePath.BasenameOfJoin | src/models/WorkspaceEntry.ts:51-59 | The base name of `join(dir, NAME)` is NAME. |
| NodePath.DirnameOfJoin | src/models/WorkspaceEntry.ts:19-21 | The directory of `join(dir, NAME)` is `dir`. |
| NodePath.SplitJoin | src/models/WorkspaceEntry.ts:32-38 | Splitting a '/'-joined list of separator-free parts on '/' gives the parts back. |
| NodePath.RelativeBelow | src/models/WorkspaceEntry.ts:32-38 | The relative path from a folder to a folder below it is the extra segments. |
| NodePath.CommonPrefix | src/models/WorkspaceEntry.ts:33 | The shared leading segments of two paths: equal up to the returned length, different right after it. |
| NodePath.Basename | src/models/WorkspaceEntry.ts:23-25 | `path.basename`: the last component, with trailing separators ignored. It never holds a '/'. `BasenameOfJoin` gives back the name a path was joined from. |
| NodePath.Dirname | src/models/WorkspaceEntry.ts:19-21 | `path.dirname` never returns the empty string. `DirnameOfJoin` gives back the folder a name was joined to. |
| NodePath.Join | src/services/WorkspaceDiscoveryService.ts:154 | `path.join` never returns the empty string. `BasenameOfJoin` and `DirnameOfJoin` recover both parts of a folder joined with a name; the separator collapse that is not modelled is listed under Left out. |
| NodePath.Extname | src/models/WorkspaceEntry.ts:27-29 | `path.extname` is empty, or a proper ending of the base name that starts with '.' and holds no '/'. |
| NodePath.Relative | src/models/WorkspaceEntry.ts:33 | Defines `path.relative` as its component list joined with '/'. `RelativeBelow` gives the components for a folder below the start, and `SplitJoin` splits them back. |
| PathUtils.DisplayPath | src/utils/pathUtils.ts:13-19 | A path under the home directory, by character prefix, is shown with '~' in place of home. Putting home back in front gives the original path. Any other path is unchanged. |
| PathUtils.CondensePathSegments | src/utils/pathUtils.ts:25-40 | The result equals the input for every list: this helper condenses nothing. |
| PathUtils.ExtnameIsWorkspaceExt | src/utils/pathUtils.ts:46-47 | `extname` is `.code-workspace` iff the base name ends with it and has something before it. |
| PathUtils.WorkspaceNameFromPath | src/utils/pathUtils.ts:45-51 | The base name with `.code-workspace` cut off when it carries that extension, otherwise the whole base name. |
| WorkspaceEntries.FromData | src/models/WorkspaceEntry.ts:11-17 | Every field is copied, and a missing folder list becomes empty. |
| WorkspaceEntries.DataRoundTrip | src/models/WorkspaceEntry.ts:11-17 | Rebuilding an entry from its own data gives the same entry. Data with a folder list survives the round trip. |
| WorkspaceEntries.ToData | src/models/WorkspaceEntry.ts:4-9 | Defines the `WorkspaceData` an entry exposes, with its folder list always present. `DataRoundTrip` proves that `FromData` undoes it. |
| WorkspaceEntries.Directory | src/models/WorkspaceEntry.ts:19-21 | Defines `directory` as `path.dirname` of the entry's path. `DescriptorInFolder` and `GitFolderInFolder` state which folder each kind of record lands in. |
| WorkspaceEntries.GetRelativeSegments | src/models/WorkspaceEntry.ts:32-38 | Defines the segments from a root to the entry's folder: the relative path split on '/', with "" and "." read as none. `RelativeSegmentsAgree`, `SegmentsBelowRoot` and `SegmentsAtRoot` state its results. |
| WorkspaceEntries.RelativeSegmentsAgree | src/models/WorkspaceEntry.ts:32-38 | The segments are the relative path's components, and a relative path of "." gives none. |
| WorkspaceEntries.SegmentsBelowRoot | src/models/WorkspaceEntry.ts:32-38 | An entry whose folder lies below the root gets exactly the extra components as segments. |
| WorkspaceEntries.SegmentsAtRoot | src/models/WorkspaceEntry.ts:32-38 | An entry whose folder is the root gets no segments. |
| WorkspaceEntries.FromWorkspaceFile | src/models/WorkspaceEntry.ts:40-49 | A descriptor record: it keeps the path, modification time and folders, and is named by the base name without the extension. |
| WorkspaceEntries.FromGitFolder | src/models/WorkspaceEntry.ts:51-59 | A git-folder record: it is named by the folder's base name and has no folders. |
| WorkspaceEntries.NameAgreesWithHelper | src/models/WorkspaceEntry.ts:40-49 | A descriptor record's name agrees with the display-name helper for every path except the bare extension. |
| WorkspaceEntries.DescriptorInFolder | src/models/WorkspaceEntry.ts:19-21 | A descriptor written as `dir/NAME.code-workspace` is listed as NAME in folder `dir`. |
| WorkspaceEntries.DescriptorFileParts | src/models/WorkspaceEntry.ts:23-29 | That descriptor's file name is `NAME.code-workspace` and its extension is `.code-workspace`. |
| WorkspaceEntries.GitFolderInFolder | src/models/WorkspaceEntry.ts:51-59 | A git folder `dir/NAME` is listed as NAME in folder `dir`. |
| Groups.FromData | src/models/GroupEntry.ts:9-14 | Every field is copied. |
| Groups.ToJSON | src/models/GroupEntry.ts:25-32 | Every field is exported. |
| Groups.JSONRoundTrip | src/models/GroupEntry.ts:9-32 | Exporting and re-importing a group, or importing and re-exporting its data, is the identity. |
| Groups.Create | src/models/GroupEntry.ts:16-23 | A new group is empty and keeps the name and colour. Its id is `group_`, the clock reading in decimal, '_', then the suffix. |
| Groups.CreateIdsDiffer | src/models/GroupEntry.ts:18 | Groups created at different clock readings get different ids, whatever the suffixes. |
| PreferenceState.SaveList | src/services/WorkspaceStateService.ts:31-33 | The list is stored and its context flag says whether the list is non-empty. The other list and other keys are untouched. There is one write and one notification. |
| PreferenceState.Toggle | src/services/WorkspaceStateService.ts:23-35 | Reports "added" iff the path was absent. An absent path is appended; otherwise its first occurrence is dropped. One write and one notification either way. |
| PreferenceState.Remove | src/services/WorkspaceStateService.ts:37-46 | An absent path leaves the store untouched, with no write or notification. Otherwise the first occurrence is dropped, with one write and one notification. The list's context flag then says whether the list is non-empty. The other list, its flag, the groups, the recents and the open counts stay as they were. |
| PreferenceState.ToggleKeepsOtherList | src/services/WorkspaceStateService.ts:58-70 | Toggling a pin leaves favourites, groups, recents and counts alone, and toggling a favourite leaves pins alone. |
| PreferenceState.ToggleTwice | src/services/WorkspaceStateService.ts:23-35 | Toggling twice restores the list's contents and reports opposite results. An absent path leaves the exact list. |
| PreferenceState.ToggleReports | src/services/WorkspaceStateService.ts:34 | After a toggle, the path is listed iff the toggle reported it added. |
| PreferenceState.RemoveOnce | src/services/WorkspaceStateService.ts:72-81 | Removing a path listed once leaves it unlisted. |
| PreferenceState.GroupIndex | src/services/WorkspaceStateService.ts:108 | Finds the first group with the id, or reports that none has it. |
| PreferenceState.GroupById | src/services/WorkspaceStateService.ts:90-92 | None iff no group has the id. Otherwise the first stored group with that id, as `find` returns it. |
| PreferenceState.GroupsForWorkspace | src/services/WorkspaceStateService.ts:94-96 | Exactly the groups that list the path, in stored order: a subsequence of the groups holding each such group as often as the store does. |
| PreferenceState.SaveGroups | src/services/WorkspaceStateService.ts:147-150 | Stores the groups with one write and one notification, and touches nothing else. |
| PreferenceState.CreateGroup | src/services/WorkspaceStateService.ts:98-104 | A new, empty, `group_`-prefixed group is appended and returned. |
| PreferenceState.UpdateFirst | src/services/WorkspaceStateService.ts:106-127 | An unknown id changes nothing and writes nothing. |
| PreferenceState.RenameGroup | src/services/WorkspaceStateService.ts:106-113 | Only the first group with the id is renamed, keeping its id, colour and paths, and every other group stays as it was. A found id costs one write and one notification. An unknown id changes nothing. The lists, recents, open counts and context flags stay as they were. |
| PreferenceState.SetGroupColor | src/services/WorkspaceStateService.ts:120-127 | Only the first group with the id is recoloured, keeping its id, name and paths, and every other group stays as it was. A found id costs one write and one notification. An unknown id changes nothing. The lists, recents, open counts and context flags stay as they were. |
| PreferenceState.DeleteGroup | src/services/WorkspaceStateService.ts:115-118 | Every group with the id goes. The others stay in their order, each as often as before. It writes even when nothing matched, and leaves favourites, pins, recents, open counts and context flags untouched. |
| PreferenceState.WithoutId | src/services/WorkspaceStateService.ts:116 | The filter `g.id !== id`: no group left has the id. Every other group stays, as often as it was stored and in its order, and nothing else enters. |
| PreferenceState.WithoutAbsentId | src/services/WorkspaceStateService.ts:116 | With no group of the id, the filter keeps the groups as they are. |
| PreferenceState.WithoutIdConcat | src/services/WorkspaceStateService.ts:116 | Filtering a concatenation filters each part. |
| PreferenceState.DeleteUndoesCreate | src/services/WorkspaceStateService.ts:98-118 | Deleting a group just created under an id no other group has gives back the groups as they were, and then no group has the id. |
| PreferenceState.AddToGroup | src/services/WorkspaceStateService.ts:129-136 | The path is appended to the first group with the id, which otherwise keeps its id, name, colour and paths, with one write and one notification. Nothing changes when the id is unknown or the path is already listed. Other groups, the lists, recents, open counts and context flags stay as they were. |
| PreferenceState.AddToGroupKeepsDistinct | src/services/WorkspaceStateService.ts:132-133 | Groups whose path lists have no repeats keep that property. |
| PreferenceState.AddedIsFound | src/services/WorkspaceStateService.ts:94-96 | After adding a path to a known group, that group is among the path's groups. |
| PreferenceState.RemoveFromGroup | src/services/WorkspaceStateService.ts:138-145 | Every occurrence of the path leaves the first group with the id, which keeps its id, name and colour. Its other paths stay in their order, each as often as before. A found id costs one write and one notification. Other groups and keys are untouched. An unknown id changes nothing. |
| PreferenceState.WithoutPath | src/services/WorkspaceStateService.ts:160 | The recents for the path go. Those for other paths remain in their order, each as often as before. |
| PreferenceState.WithoutAbsentPath | src/services/WorkspaceStateService.ts:160 | With no entry for the path, the filter keeps the recents as they are. |
| PreferenceState.AddRecent | src/services/WorkspaceStateService.ts:158-165 | A positive bound gives the new entry, with the current time, followed by the first `maxCount - 1` entries for other paths in their old order. A zero bound gives an empty list. A negative bound drops that many entries from the end of the new entry plus the others, as `slice` does. Other keys are untouched. |
| PreferenceState.AddRecentKeepsDistinct | src/services/WorkspaceStateService.ts:158-165 | A recents list without repeated paths keeps that property. |
| PreferenceState.AddRecentKeepsOthers | src/services/WorkspaceStateService.ts:158-165 | When the bound exceeds the list's length, every entry for another path survives behind the new entry. |
| PreferenceState.AddRecentTwice | src/services/WorkspaceStateService.ts:158-165 | With a bound of zero or more, recording the same opening twice gives the same recents as recording it once. |
| PreferenceState.ClearRecents | src/services/WorkspaceStateService.ts:167-170 | The recents become empty with one write and one notification. |
| PreferenceState.OpenCount | src/services/WorkspaceStateService.ts:178-180 | Defines `getOpenCount`: a missing count reads as 0. `IncrementOpenCount` and `IncrementTimesCounts` state how counts move. |
| PreferenceState.IncrementOpenCount | src/services/WorkspaceStateService.ts:178-186 | The path's count, read as 0 when missing, goes up by one and no other count moves. There is a write and no notification. The lists, groups, recents and context flags stay as they were. |
| PreferenceState.IncrementTimesCounts | src/services/WorkspaceStateService.ts:182-186 | Opening a path n times raises its count by n and notifies nobody. |
| PreferenceState.InitContext | src/services/WorkspaceStateService.ts:190-193 | Both context flags agree with the stored lists, and nothing is written. |
| PreferenceState.ListOperationsKeepFlags | src/services/WorkspaceStateService.ts:23-81 | Once the flags agree with the lists, toggling and removing keep them in agreement. |
| WorkspaceCache.Get | src/services/WorkspaceCacheService.ts:12-26 | An empty slot gives nothing. A fresh snapshot is returned unchanged. A stale one is dropped silently. |
| WorkspaceCache.Set | src/services/WorkspaceCacheService.ts:28-31 | Holds the snapshot stamped with the current time. |
| WorkspaceCache.Invalidate | src/services/WorkspaceCacheService.ts:34-38 | Empties the slot and notifies exactly once. |
| WorkspaceCache.Clear | src/services/WorkspaceCacheService.ts:41-44 | Empties the slot without notifying. |
| WorkspaceCache.SetThenGet | src/services/WorkspaceCacheService.ts:12-31 | A snapshot just stored is returned, an empty list included. |
| WorkspaceCache.FreshnessWindow | src/services/WorkspaceCacheService.ts:17-18 | A stored snapshot is served iff the TTL is not positive or at most TTL milliseconds have passed. |
| WorkspaceCache.ExpiredStaysEmpty | src/services/WorkspaceCacheService.ts:17-22 | Once expired, every later read misses. |
| WorkspaceCache.OnlyInvalidateNotifies | src/services/WorkspaceCacheService.ts:12-44 | Over any sequence of operations, the expiry event fires once per invalidate and never otherwise. |
| WorkspaceCache.ReadsDoNotDisturb | src/services/WorkspaceCacheService.ts:12-26 | Reads inside the freshness window leave the cache exactly as it was. |
| WorkspaceCache.Apply | src/services/WorkspaceCacheService.ts:12-44 | Defines one cache call of a trace: `get`, `set`, `invalidate` or `clear`. `OnlyInvalidateNotifies` and `ReadsDoNotDisturb` state what traces of calls do. |
| WorkspaceCache.Invalidations | src/services/WorkspaceCacheService.ts:34-38 | The number of `invalidate` calls in a trace: zero iff there is none, and the trace's length iff every call is one. |
| WorkspaceCache.Reads | src/services/WorkspaceCacheService.ts:12-26 | One `get` per clock reading, in the readings' order, all with the same expiry setting. |
| Sorting.LexCmp | src/services/SortService.ts:15-17 | A three-way string comparison that reports 0 iff the strings are equal. |
| Sorting.LexCmpAntisym | src/services/SortService.ts:15-17 | Swapping the arguments negates the result. |
| Sorting.LexCmpTrans | src/services/SortService.ts:15-17 | The comparison is transitive. |
| Sorting.RecentTime | src/services/SortService.ts:21-27 | The timestamp of the path's first recents entry, or 0 when it has none. |
| Sorting.Compare | src/services/SortService.ts:12-38 | Defines the comparator: the field's difference times 1 ascending or -1 descending, and 0 for an unknown field. `CompareAntisym` and `CompareTrans` prove it a total preorder. |
| Sorting.CompareAntisym | src/services/SortService.ts:12-38 | Every field's comparator, in either direction, is antisymmetric. |
| Sorting.CompareTrans | src/services/SortService.ts:12-38 | Every field's comparator, in either direction, is transitive. |
| Sorting.Insert | src/services/SortService.ts:12 | Inserting into a sorted list keeps it sorted and adds exactly the one element. An element that goes last is placed after its equals. |
| Sorting.Sort | src/services/SortService.ts:8-41 | The result is a permutation of the input, ordered by the comparator. |
| Sorting.SortKeepsSortedInput | src/services/SortService.ts:9-12 | An already ordered list comes back unchanged, which is the stability consequence. |
| Sorting.UnknownFieldKeepsOrder | src/services/SortService.ts:34-35 | An unrecognised field keeps the original order. |
| Sorting.SortedPermutationUnique | src/services/SortService.ts:8-41 | Two ordered permutations of a list without ties are equal. |
| Sorting.SortIsTheOrderedPermutation | src/services/SortService.ts:8-41 | The sort returns the unique ordered permutation when there are no ties. |
| Sorting.NameAscending | src/services/SortService.ts:15-17 | Sorting by name ascending puts names in non-decreasing order. |
| Sorting.KeyDescending | src/services/SortService.ts:18-37 | Sorting a numeric field descending puts its keys in non-increasing order. |
| Sorting.KeyAscending | src/services/SortService.ts:18-37 | Sorting a numeric field ascending puts its keys in non-decreasing order. |
| Discovery.SkipName | src/services/WorkspaceDiscoveryService.ts:78-85 | A recognised fast-skip name is simple and its pattern is exactly `**/NAME/**`. |
| Discovery.SkipNames | src/services/WorkspaceDiscoveryService.ts:78-85 | Every name in the fast-skip set is simple, made of `[a-zA-Z0-9_.-]` only. `SkipNamesExact` states which names are in it. |
| Discovery.SkipNameExact | src/services/WorkspaceDiscoveryService.ts:78-85 | A pattern yields a skip name iff it is `**/NAME/**` with NAME made of `[a-zA-Z0-9_.-]`. |
| Discovery.SkipNamesExact | src/services/WorkspaceDiscoveryService.ts:78-85 | The skip set holds exactly the names of patterns of that shape. |
| Discovery.SkipIsSound | src/services/WorkspaceDiscoveryService.ts:78-85 | Skipping a directory by name loses nothing. Any path through `NAME/` at a segment start is excluded by the patterns anyway. |
| Discovery.Config | src/services/WorkspaceDiscoveryService.ts:75-85 | The matcher is absent iff there are no patterns. The skip set is exactly the simple directory-pattern names. |
| Discovery.NewFiles | src/services/WorkspaceDiscoveryService.ts:169-196 | Unseen candidate files become records, and each path is recorded once. The seen set grows by exactly the level's candidates. |
| Discovery.NewFilesAreCandidates | src/services/WorkspaceDiscoveryService.ts:181-196 | Every new record is the descriptor record of a `.code-workspace` file of the listing that the patterns do not exclude. |
| Discovery.IsCandidateFile | src/services/WorkspaceDiscoveryService.ts:169-172 | Defines a candidate file: a file named `*.code-workspace` whose full path is not excluded. `NewFilesAreCandidates` and `CandidateInFileRecords` relate it to the records. |
| Discovery.Candidates | src/services/WorkspaceDiscoveryService.ts:126-214 | Defines every path a walk from a folder marks seen within the depth limit: candidate files, and git folders when included. `ScanDirectory` proves a walk adds exactly these to the seen set. |
| Discovery.Visit | src/services/WorkspaceDiscoveryService.ts:152-206 | One level extends the walk: earlier records stay, and each new path is added once. |
| Discovery.VisitRecords | src/services/WorkspaceDiscoveryService.ts:181-206 | A level adds its descriptor records, then the git record exactly when git folders are included, `.git` is present and the folder is unseen. |
| Discovery.ScanDirectory | src/services/WorkspaceDiscoveryService.ts:126-214 | Below the depth limit, or on an unreadable folder, nothing changes. Otherwise the walk grows by exactly the folder's candidates, each path once. |
| Discovery.ScanSubdirs | src/services/WorkspaceDiscoveryService.ts:208-213 | The subfolders entered are walked in listing order, one level deeper. |
| Discovery.AtMaxDepthOnlyThisLevel | src/services/WorkspaceDiscoveryService.ts:136-138 | A folder at exactly `maxDepth` is listed, but none of its subfolders is. |
| Discovery.UnenteredNeverRead | src/services/WorkspaceDiscoveryService.ts:157-167 | The contents of `.git`, hidden, skipped or excluded folders never affect the scan. |
| Discovery.StartWorkers | src/services/WorkspaceDiscoveryService.ts:235-238 | Every worker starts with the next index from the shared counter, so worker `w` runs item `w`, and all of them are busy. |
| Discovery.FinishAt | src/services/WorkspaceDiscoveryService.ts:237-239 | When a call finishes, its index joins the finished ones and the worker draws the next index, or leaves when none is left. Every drawn index stays either finished or held by exactly one worker, and the scan makes progress. |
| Discovery.FinishOne | src/services/WorkspaceDiscoveryService.ts:236-242 | Whichever busy worker's call finishes first, the pool stays consistent and makes progress. |
| Discovery.Drained | src/services/WorkspaceDiscoveryService.ts:237-242 | Once no worker is busy, every index has finished exactly once. |
| Discovery.RunPool | src/services/WorkspaceDiscoveryService.ts:235-242 | With at least one worker, every index runs exactly once, in whatever order the calls finish. No more calls than workers are ever in progress, and the pool ends idle. |
| Discovery.ParallelMap | src/services/WorkspaceDiscoveryService.ts:225-243 | Every item's call runs exactly once, whatever the order in which calls finish, and at most `limit` calls are in progress at any time. A list no longer than the limit starts every call at once. A non-positive limit with a longer list runs nothing. |
| Discovery.HomeDir | src/services/WorkspaceDiscoveryService.ts:104-110 | `HOME`, else `USERPROFILE`, else "", where an empty variable counts as missing. |
| Discovery.ResolveFolder | src/services/WorkspaceDiscoveryService.ts:104-110 | A leading '~' is replaced by joining home with the rest. Any other folder is kept. |
| Discovery.ResolveThenDisplay | src/services/WorkspaceDiscoveryService.ts:104-110 | Resolving `~/rest` and showing it home-relative gives `~/rest` back. |
| Discovery.FileRecordSource | src/services/WorkspaceDiscoveryService.ts:181-195 | Every file record of a level is the descriptor record of one of its candidate files. |
| Discovery.CandidateInFileRecords | src/services/WorkspaceDiscoveryService.ts:181-195 | Every candidate file of a level has its descriptor record among the level's file records. |
| Discovery.ScanDirectoryRecords | src/services/WorkspaceDiscoveryService.ts:126-214 | Every record a walk adds is either the descriptor record of a candidate file or the git record of a folder holding `.git`, in a level the walk enters. A descriptor record carries the name without the extension, the parsed folders and the modification time. A git record carries the folder's name and time. |
| Discovery.ScanRoots | src/services/WorkspaceDiscoveryService.ts:91-98 | All roots share one seen set, and the walk grows by exactly their candidates. |
| Discovery.ScanRootsRecords | src/services/WorkspaceDiscoveryService.ts:91-98 | Every record the roots' walks add is a descriptor or git record of one of the roots. |
| Discovery.DoScan | src/services/WorkspaceDiscoveryService.ts:64-102 | No roots give no records. Otherwise the records are sorted by name, with no path twice, and each is a descriptor or git record of one of the roots. |
| Discovery.DoScanFindsCandidates | src/services/WorkspaceDiscoveryService.ts:64-102 | A path is reported iff it is a candidate under some root. |
| Discovery.PermutationKeepsDistinctPaths | src/services/WorkspaceDiscoveryService.ts:100 | Sorting cannot create a repeated path. |
| Discovery.Request | src/services/WorkspaceDiscoveryService.ts:49-58 | A call joins the scan in flight or starts one, and waits for that scan. |
| Discovery.Settle | src/services/WorkspaceDiscoveryService.ts:52-55 | A scan settles whether it succeeded or failed. |
| Discovery.Burst | src/services/WorkspaceDiscoveryService.ts:49-58 | Any number of callers before settlement share one scan. |
| Discovery.AtMostOneScanRunning | src/services/WorkspaceDiscoveryService.ts:49-58 | Under any interleaving of calls and completions, at most one scan runs at a time. |
| Discovery.GetWorkspaces | src/services/WorkspaceDiscoveryService.ts:25-36 | A held snapshot is served without scanning unless a refresh is forced. Otherwise a scan runs and a success is stored. No change event fires. |
| Discovery.Refresh | src/services/WorkspaceDiscoveryService.ts:38-43 | The cache is cleared silently and a scan runs. A success is stored and fires exactly one change event. A failure leaves the cache empty. |
| Discovery.RefreshThenGet | src/services/WorkspaceDiscoveryService.ts:25-43 | Reads inside the window after a successful refresh get its records without a new scan. |
| FolderTree.ToggleViewMode | src/providers/WorkspaceTreeProvider.ts:44-47 | The view mode always changes. |
| FolderTree.ToggleTwice | src/providers/WorkspaceTreeProvider.ts:44-47 | Toggling twice restores the mode. |
| FolderTree.KeyIndex | src/providers/WorkspaceTreeProvider.ts:139 | The child `Map` lookup: the first pair with the key, or none. |
| FolderTree.Insert | src/providers/WorkspaceTreeProvider.ts:132-150 | Only the child under the first segment changes, and a missing child is added at the end. With no segments left, the entry is appended to the folder's workspaces. |
| FolderTree.InsertEntries | src/providers/WorkspaceTreeProvider.ts:132-150 | Insertion adds exactly the one entry to the tree: nothing is lost or duplicated. |
| FolderTree.InsertReaches | src/providers/WorkspaceTreeProvider.ts:132-150 | After insertion, the node reached by the segments holds the entry last. |
| FolderTree.InsertWellFormed | src/providers/WorkspaceTreeProvider.ts:138-148 | Insertion keeps child keys distinct, each child named by its key and placed at `join(parent, key)`. |
| FolderTree.Condense | src/providers/WorkspaceTreeProvider.ts:186-198 | A single-child chain without workspaces collapses into one node named by its names joined with '/'. That node carries the last node's path and contents; other nodes are kept. The entries are preserved. |
| FolderTree.CondenseIdempotent | src/providers/WorkspaceTreeProvider.ts:186-198 | Condensing twice is condensing once. |
| FolderTree.FolderItems | src/providers/WorkspaceTreeProvider.ts:156-176 | Only folder items are produced, at most one per child. `FolderItemsFollowShown` gives the exact list. |
| FolderTree.ShownChildListed | src/providers/WorkspaceTreeProvider.ts:156-176 | Every child with contents, condensed when enabled, is listed. |
| FolderTree.ListedIsShownChild | src/providers/WorkspaceTreeProvider.ts:156-176 | Every listed folder is a child with contents. |
| FolderTree.AllShownInOrder | src/providers/WorkspaceTreeProvider.ts:156-176 | When every child has contents, all are listed in insertion order. |
| FolderTree.ShownIndices | src/providers/WorkspaceTreeProvider.ts:156-176 | The positions of the children with contents, in strictly increasing order, each holding a child with contents. |
| FolderTree.ShownIndexListed | src/providers/WorkspaceTreeProvider.ts:156-176 | No child with contents is missing from those positions. |
| FolderTree.FolderItemsFollowShown | src/providers/WorkspaceTreeProvider.ts:156-176 | The folder items are the items of exactly those positions, in order. There is one per child with contents, hidden children are skipped, and nothing is reordered or repeated. |
| FolderTree.FolderNodeToItems | src/providers/WorkspaceTreeProvider.ts:152-184 | Child folders come first, then the folder's own workspaces in stored order. |
| FolderTree.FolderNodeToItemsListsShown | src/providers/WorkspaceTreeProvider.ts:152-184 | The folder items are exactly the children with contents. |
| FolderTree.NonEmptyIsShown | src/providers/WorkspaceTreeProvider.ts:158-170 | A child holding a workspace anywhere below it is always listed. |
| FolderTree.Find | src/providers/WorkspaceTreeProvider.ts:219-237 | A node found has the requested path. |
| FolderTree.FindComplete | src/providers/WorkspaceTreeProvider.ts:219-237 | The search succeeds iff some node of the tree has the path. |
| FolderTree.FindIsRaw | src/providers/WorkspaceTreeProvider.ts:229-235 | The condensed-path check never decides the answer: the search over the children already found that node. |
| FolderTree.FindNode | src/providers/WorkspaceTreeProvider.ts:209-217 | The first root whose search succeeds. The lookup succeeds iff some root holds the path. |
| FolderTree.FolderChildren | src/providers/WorkspaceTreeProvider.ts:200-207 | An unknown folder has no children. A folder that is found gets exactly its items: child folders with contents, then its own workspaces. Every workspace shown is held by the tree. |
| FolderTree.FolderChildrenOfFound | src/providers/WorkspaceTreeProvider.ts:200-237 | When some root holds the path, the folder is found. It has that path, lies inside a root, and its items are the children listed. |
| FolderTree.UnderRoot | src/providers/WorkspaceTreeProvider.ts:100 | Defines the per-root test: the root is a character prefix of the entry's path or of its folder. `Placed` and `RootNodeContents` state which entries pass it. |
| FolderTree.Fill | src/providers/WorkspaceTreeProvider.ts:99-104 | Filling keeps the root's name and path. `FillEntries` states that the root gains exactly the entries that pass the test. |
| FolderTree.Placed | src/providers/WorkspaceTreeProvider.ts:99-100 | A root takes exactly the entries whose path or folder starts with it. |
| FolderTree.FillEntries | src/providers/WorkspaceTreeProvider.ts:99-104 | The root gains exactly those entries, each once. |
| FolderTree.Expand | src/providers/WorkspaceTreeProvider.ts:89 | A replacement text without '$' is inserted as it is. |
| FolderTree.ExpandEscaped | src/providers/WorkspaceTreeProvider.ts:89 | A text whose every '$' is doubled expands back to itself, whatever was matched. |
| FolderTree.ResolveRoot | src/providers/WorkspaceTreeProvider.ts:88-90 | A root without a leading '~' is kept. Otherwise the result ends with the root's text after the '~', behind the expanded home directory. |
| FolderTree.ResolveRootPlain | src/providers/WorkspaceTreeProvider.ts:88-90 | With a home directory free of '$', a leading '~' becomes the home directory and any other root is kept. |
| FolderTree.ResolveRootDollar | src/providers/WorkspaceTreeProvider.ts:88-90 | A home directory of `/h$$` turns `~/x` into `/h$/x`: the replacement's `$` patterns are expanded. |
| FolderTree.RootNode | src/providers/WorkspaceTreeProvider.ts:92-97 | The root node is named by the resolved path's base name and sits at that path. |
| FolderTree.RootNodeContents | src/providers/WorkspaceTreeProvider.ts:87-107 | An entry is under a root iff the root is a character prefix of its path or folder. The tree is well formed. |
| FolderTree.Distinct | src/providers/WorkspaceTreeProvider.ts:106 | The roots without repeats, in first-seen order, as a `Map` keeps them. |
| FolderTree.ShownKeys | src/providers/WorkspaceTreeProvider.ts:118-119 | A root key is kept iff it holds a child folder or a workspace. The kept keys stay in the `Map`'s order. |
| FolderTree.RootItems | src/providers/WorkspaceTreeProvider.ts:118-126 | Exactly one folder item per kept key, in key order, named by the root's base name and carrying its path. |
| FolderTree.ShownRootListed | src/providers/WorkspaceTreeProvider.ts:118-126 | Every configured root that holds anything has its folder item listed. |
| FolderTree.ListedRootShown | src/providers/WorkspaceTreeProvider.ts:118-126 | Every listed item is the folder item of a configured root that holds anything. |
| FolderTree.RootItemsOncePerKey | src/providers/WorkspaceTreeProvider.ts:106-126 | With distinct keys, as the `Map` has, no folder item is listed twice. |
| FolderTree.BuildTreeView | src/providers/WorkspaceTreeProvider.ts:79-130 | A single root shows its contents directly. Otherwise the list is exactly one folder item per root that holds anything, in the `Map`'s key order, named by the root's base name. A root is listed iff it holds anything, every item is a configured root's, and no item repeats. |
| FolderTree.SingleRootHoldsItsEntries | src/providers/WorkspaceTreeProvider.ts:112-115 | With one root, the tree holds exactly the entries under it. |
| FolderTree.RootChildren | src/providers/WorkspaceTreeProvider.ts:65-77 | List mode shows every entry once, sorted by the configured order. Tree mode builds the folder view from the sorted entries. |
| WorkspaceCrud.NewDescriptor | src/services/WorkspaceCrudService.ts:17-22 | One folder reference per given folder, or `.` when none is given, and empty settings. |
| WorkspaceCrud.Create | src/services/WorkspaceCrudService.ts:10-27 | It refuses iff the target exists, writing nothing. Otherwise it writes the new document at `location/NAME.code-workspace` and refreshes once. |
| WorkspaceCrud.CreateTwiceFails | src/services/WorkspaceCrudService.ts:13-15 | Creating the same name twice in one place fails the second time. |
| WorkspaceCrud.CreatedIsListedByName | src/services/WorkspaceCrudService.ts:10-27 | A created descriptor is discovered under the given name, in the given folder. |
| WorkspaceCrud.Delete | src/services/WorkspaceCrudService.ts:29-44 | With confirmation on, any answer but `Delete` deletes nothing and returns false. Otherwise the file goes and one refresh follows. |
| WorkspaceCrud.Rename | src/services/WorkspaceCrudService.ts:46-57 | It refuses when the new name is taken in the same folder. Otherwise the content moves and one refresh follows. |
| WorkspaceCrud.RenameMovesContent | src/services/WorkspaceCrudService.ts:46-57 | Renaming keeps the file count and removes the old path. The new path holds the content and is listed under the new name in the old folder. |
| WorkspaceCrud.CopyName | src/services/WorkspaceCrudService.ts:67 | Defines the n-th copy name, `dir/base (n)ext`. `CopyNameInjective` proves that different counters give different names. |
| WorkspaceCrud.CopyNameInjective | src/services/WorkspaceCrudService.ts:67 | Different counters give different copy names. |
| WorkspaceCrud.FirstFreeName | src/services/WorkspaceCrudService.ts:64-69 | The loop ends, at the first counter from 1 whose name is free. |
| WorkspaceCrud.Duplicate | src/services/WorkspaceCrudService.ts:59-74 | The copy goes to `dir/base (n)ext` for the first free n ≥ 1. The source and every other file stay, and one refresh follows. |
| WorkspaceCrud.CopyIsNew | src/services/WorkspaceCrudService.ts:66-71 | The copy adds a file and never overwrites one, the source included. |
| QuickSwitch.CreateItem | src/ui/QuickPickManager.ts:103-110 | The label is the icon, a space, then the name. The description is the entry's folder, home-relative. The detail tells a descriptor from a git repository. |
| QuickSwitch.Picks | src/ui/QuickPickManager.ts:31-34 | One item per entry, in order, with the section's icon. |
| QuickSwitch.RemainingPicks | src/ui/QuickPickManager.ts:57-64 | One pick per remaining entry, in order, with the star icon for a favourite and the folder icon otherwise. |
| QuickSwitch.RemainingStars | src/ui/QuickPickManager.ts:62 | A remaining item carries the star icon iff its path is a favourite. |
| QuickSwitch.Section | src/ui/QuickPickManager.ts:29-35 | An empty section adds nothing. Otherwise it adds its separator, then its items. |
| QuickSwitch.Select | src/ui/QuickPickManager.ts:28 | The pinned filter keeps exactly the discovered entries whose path is pinned, in discovery order. |
| QuickSwitch.SelectPaths | src/ui/QuickPickManager.ts:28-61 | The selected paths are the discovered paths inside the set, or outside it. |
| QuickSwitch.Find | src/ui/QuickPickManager.ts:44 | An entry with the path is found iff one was discovered. |
| QuickSwitch.RecentWalk | src/ui/QuickPickManager.ts:40-49 | Recent items are discovered entries and no path appears twice. Exactly the recent, discovered, not-yet-shown paths appear, in recents order. |
| QuickSwitch.Arrange | src/ui/QuickPickManager.ts:24-64 | Pinned, recent and remaining sections are pairwise disjoint. The recent section is empty unless it is enabled and there are recents. Every discovered path lands in exactly one section. The pinned and remaining sections keep the discovery order, and the recent section follows the recents' newest-first order. |
| QuickSwitch.Assemble | src/ui/QuickPickManager.ts:27-68 | Defines the item list as the three titled sections in order. `AssemblePicked` and `AssembleHeaded` state what it holds. |
| QuickSwitch.AssemblePicked | src/ui/QuickPickManager.ts:24-68 | The items pick pinned, then recent, then remaining entries. |
| QuickSwitch.AssembleHeaded | src/ui/QuickPickManager.ts:29-67 | Every item is a pick or a separator followed by a pick. |
| QuickSwitch.QuickSwitchItems | src/ui/QuickPickManager.ts:18-68 | The item list picks the three sections in order, and no separator heads an empty section. |
| QuickSwitch.EveryWorkspaceOnce | src/ui/QuickPickManager.ts:18-68 | With distinct discovered paths, every workspace appears exactly once in the list. |
| QuickSwitch.StarMarksFavorites | src/ui/QuickPickManager.ts:56-68 | The list ends with the remaining items, starred exactly where the path is a favourite. |
| QuickSwitch.Accepted | src/ui/QuickPickManager.ts:76-87 | Accepting returns the workspace of the selected item. Hiding returns nothing. |
| QuickSwitch.QuickSwitchReturnsDiscovered | src/ui/QuickPickManager.ts:18-87 | Whatever the dialog returns is a discovered workspace. |
| QuickSwitch.SearchItems | src/ui/QuickPickManager.ts:90-101 | The search list has one folder-icon item per discovered workspace, in order. |

## Left out

- File system and editor I/O are replaced by values:
  - `readdir`, `stat`, `readFile`, `writeJsonFile`, `copyFile`, `renameFile` and `deleteFile` work on the immutable file tree or the disk map;
  - `parseWorkspaceFile` becomes the folder list stored with each file. The parse itself is not modelled, including its rejection. A `folders` member without a string `path` (for example one that gives a `uri`) makes it throw. That rejection passes through `Promise.all` and `parallelMap` and fails the whole scan, while the model's `DoScan` always returns records;
  - the VS Code API is modelled only as far as the `globalState` store, context flags and event counts.
- Concurrency is modelled sequentially:
  - the `parallelMap` over subfolders and roots is a depth-first walk in listing order;
  - `Discovery.ParallelMap` models the worker pool on its own, with the finishing order as a parameter; the walk does not use it;
  - the order in which records are pushed can differ from the engine's interleaving. The set of records does not differ. The stable sort by name then agrees with the engine only up to records with equal names: two `app.code-workspace` files under different roots may come out in either order in the extension.
- Discovery.DoScan: roots that resolve to the same folder are walked again, and the shared seen set keeps every path to one record. This matches the source.
- Discovery.ResolveFolder uses `path.join(home, rest)`, while the tree provider uses `replace('~', home)`. There the home directory is replacement text, so its `$$`, `$&`, `` $` `` and `$'` patterns are expanded. Both are modelled as written; `FolderTree.ResolveRoot` is the second one.
- Sorting.LexCmp: `localeCompare` is modelled as code-point order, not the host's locale collation.
- Minimatch.MatchesIgnoresCase: only ASCII letters are folded for the `i` flag, not the rest of Unicode. Strings are sequences of Unicode scalars, not UTF-16 code units.
- NodePath: only the POSIX `path` functions on absolute or plain paths are modelled. There is no '.'/'..' normalisation, no `path.resolve` and no Windows separators, and `normalizePath` (src/utils/pathUtils.ts:6-8) is left out for the same reason.
- NodePath.Join: Node's `path.join` normalises the whole joined string. It collapses repeated separators anywhere in it and resolves '.' and '..' segments. The model only makes the two parts meet at one '/', and keeps the rest of each part as written:
  - `Join("/a//b", "x")` gives `/a//b/x`, where Node gives `/a/b/x`;
  - `Join("/a//", "")` gives `/a//`, where Node gives `/a/`.
  The two agree when neither part holds a repeated separator, a '.' or a '..' segment. The walk joins each listed name to its folder (src/services/WorkspaceDiscoveryService.ts:154), and `Discovery.ResolveFolder` joins the home directory to the rest of a '~' root. For a search folder written with such a segment, Node reports normalised paths and the model keeps the segment. The tree provider then tests its un-normalised root (src/providers/WorkspaceTreeProvider.ts:100) as a character prefix of those paths. With the root `/a//b`, the extension places nothing under it, while the model places every entry found below it.
- NodePath.RelativeSegments: the relative path is computed from segment lists, without the process working directory.
- WorkspaceCrud.Create, WorkspaceCrud.Rename, WorkspaceCrud.Duplicate: failures of the refresh after a successful write are not modelled. The file system's own error texts are reduced to `Missing`.
- WorkspaceCrud.Delete: the confirmation dialog is the answer parameter, and its wording is not modelled.
- QuickSwitch.Accepted: the dialog's filtering (`matchOnDescription`, `matchOnDetail`) and placeholder are not modelled. The selection is an index into the items.
- `dispose` methods, `FileWatcherService`, the status bar, the other tree providers and the commands are outside this model.
- Groups.Create: `Date.now()` and `Math.random().toString(36).slice(2, 8)` are parameters. Ids are proved distinct only across different clock readings.
- WorkspaceCache.Get: clock readings are integers in milliseconds, and the expiry setting is an integer number of seconds.

=== FILE: cache_service.dfy ===
/** The time-to-live cache holding the last scan's result. The clock and
    the configured expiry (in seconds) are parameters; `expireEvents`
    counts `onDidExpire` firings. */
module WorkspaceCache {
  import opened Util
  import opened WorkspaceEntries

  datatype Cache = Cache(slot: Option<seq<WorkspaceEntry>>, stamp: int, expireEvents: nat)

  const Empty: Cache := Cache(None, 0, 0)

  /** The configured expiry in milliseconds. */
  function TtlMillis(expirationSeconds: int): int {
    expirationSeconds * 1000
  }

  /** Whether a snapshot stored at `stamp` is stale at `now`: only a positive
      TTL expires, and only once strictly more than TTL has elapsed. */
  predicate Stale(stamp: int, now: int, expirationSeconds: int) {
    TtlMillis(expirationSeconds) > 0 && now - stamp > TtlMillis(expirationSeconds)
  }

  /** `get`: the held snapshot, unless there is none or it is stale; a stale
      snapshot is dropped without notifying anyone. An empty list is a
      snapshot like any other. */
  function Get(c: Cache, now: int, expirationSeconds: int): (r: (Option<seq<WorkspaceEntry>>, Cache))
    ensures c.slot.None? ==> r.0.None? && r.1 == c
    ensures c.slot.Some? && !Stale(c.stamp, now, expirationSeconds) ==> r.0 == c.slot && r.1 == c
    ensures c.slot.Some? && Stale(c.stamp, now, expirationSeconds) ==> r.0.None? && r.1.slot.None?
    ensures r.1.expireEvents == c.expireEvents
    ensures r.0.Some? ==> r.0 == c.slot
  {
    if c.slot.None? then (None, c)
    else if Stale(c.stamp, now, expirationSeconds) then (None, Clear(c))
    else (c.slot, c)
  }

  /** `set`: hold the snapshot, stamped with the current time. */
  function Set(c: Cache, entries: seq<WorkspaceEntry>, now: int): (r: Cache)
    ensures r.slot == Some(entries) && r.stamp == now && r.expireEvents == c.expireEvents
  {
    c.(slot := Some(entries), stamp := now)
  }

  /** `invalidate`: empty the slot and notify exactly once. */
  function Invalidate(c: Cache): (r: Cache)
    ensures r.slot.None? && r.stamp == 0 && r.expireEvents == c.expireEvents + 1
  {
    Cache(None, 0, c.expireEvents + 1)
  }

  /** `clear`: empty the slot without notifying. */
  function Clear(c: Cache): (r: Cache)
    ensures r.slot.None? && r.stamp == 0 && r.expireEvents == c.expireEvents
  {
    Cache(None, 0, c.expireEvents)
  }

  /** A snapshot just stored is returned, whatever the TTL and whatever it holds. */
  lemma SetThenGet(c: Cache, entries: seq<WorkspaceEntry>, now: int, expirationSeconds: int)
    ensures Get(Set(c, entries, now), now, expirationSeconds) == (Some(entries), Set(c, entries, now))
  {
  }

  /** The snapshot is served for exactly TTL milliseconds and for ever when
      the TTL is not positive. */
  lemma FreshnessWindow(c: Cache, entries: seq<WorkspaceEntry>, t: int, now: int, expirationSeconds: int)
    ensures Get(Set(c, entries, t), now, expirationSeconds).0 == Some(entries)
            <==> (expirationSeconds <= 0 || now - t <= expirationSeconds * 1000)
  {
  }

  /** Once expired, the cache stays empty for every later read until the next `set`. */
  lemma ExpiredStaysEmpty(c: Cache, now: int, later: int, expirationSeconds: int)
    requires c.slot.Some? && Stale(c.stamp, now, expirationSeconds)
    ensures var c1 := Get(c, now, expirationSeconds).1;
            Get(c1, later, expirationSeconds).0.None?
  {
  }

  /** The cache operations, as a trace. */
  datatype Op = GetOp(now: int, expirationSeconds: int)
              | SetOp(entries: seq<WorkspaceEntry>, at: int)
              | InvalidateOp
              | ClearOp

  function Apply(c: Cache, op: Op): Cache {
    match op
    case GetOp(now, secs) => Get(c, now, secs).1
    case SetOp(entries, at) => Set(c, entries, at)
    case InvalidateOp => Invalidate(c)
    case ClearOp => Clear(c)
  }

  function Run(c: Cache, ops: seq<Op>): Cache
    decreases |ops|
  {
    if ops == [] then c else Run(Apply(c, ops[0]), ops[1..])
  }

  /** How many of the operations are `invalidate` calls. */
  function Invalidations(ops: seq<Op>): (n: nat)
    ensures n <= |ops|
    ensures n == 0 <==> forall i :: 0 <= i < |ops| ==> !ops[i].InvalidateOp?
    ensures n == |ops| <==> forall i :: 0 <= i < |ops| ==> ops[i].InvalidateOp?
  {
    if ops == [] then 0 else (if ops[0].InvalidateOp? then 1 else 0) + Invalidations(ops[1..])
  }

  /** Over any sequence of operations, `onDidExpire` fires once per
      `invalidate` and never otherwise: expiry in `get` and `clear` are silent. */
  lemma {:induction false} OnlyInvalidateNotifies(c: Cache, ops: seq<Op>)
    ensures Run(c, ops).expireEvents == c.expireEvents + Invalidations(ops)
    decreases |ops|
  {
    if ops != [] {
      OnlyInvalidateNotifies(Apply(c, ops[0]), ops[1..]);
    }
  }

  /** One `get` per clock reading. */
  function Reads(times: seq<int>, expirationSeconds: int): (ops: seq<Op>)
    ensures |ops| == |times|
    ensures forall i :: 0 <= i < |times| ==> ops[i] == GetOp(times[i], expirationSeconds)
  {
    if times == [] then [] else [GetOp(times[0], expirationSeconds)] + Reads(times[1..], expirationSeconds)
  }

  /** Reads that all fall inside the freshness window leave a stored
      snapshot exactly as it was. */
  lemma {:induction false} ReadsDoNotDisturb(c: Cache, entries: seq<WorkspaceEntry>, t: int, times: seq<int>, expirationSeconds: int)
    requires forall i :: 0 <= i < |times| ==> !Stale(t, times[i], expirationSeconds)
    ensures Run(Set(c, entries, t), Reads(times, expirationSeconds)) == Set(c, entries, t)
    decreases |times|
  {
    if times != [] {
      ReadsDoNotDisturb(c, entries, t, times[1..], expirationSeconds);
    }
  }
}

=== FILE: crud_service.dfy ===
/** The naming rules of the descriptor file operations: where a new, renamed
    or duplicated descriptor goes, what a new one contains, and when an
    operation refuses. The disk is a map from path to content; every
    successful operation asks the discovery service for one refresh. */
module WorkspaceCrud {
  import opened Util
  import opened NodePath
  import opened WorkspaceEntries
  import PathUtils

  /** One `{ path }` member of a descriptor's `folders`. */
  datatype FolderRef = FolderRef(path: string)

  /** The JSON document `createWorkspace` writes; `settings` is an object of
      string-valued members, always written empty. */
  datatype DescriptorJson = DescriptorJson(folders: seq<FolderRef>, settings: map<string, string>)

  /** What a file holds: a document written here, or bytes from elsewhere. */
  datatype Content = Json(doc: DescriptorJson) | Bytes(data: string)

  /** The files on disk and the number of refreshes asked for. */
  datatype Disk = Disk(files: map<string, Content>, refreshes: nat)

  /** Why an operation throws. `Missing` stands for the file system's own
      error when the source file is not there. */
  datatype Failure = AlreadyExists(path: string) | NameTaken(newName: string) | Missing(path: string)

  datatype Result<T> = Ok(value: T) | Err(failure: Failure)

  /** The text of the errors the service raises itself. */
  function Message(f: Failure): string {
    match f
    case AlreadyExists(p) => "Workspace file already exists: " + p
    case NameTaken(n) => "A workspace named \"" + n + "\" already exists in this location."
    case Missing(p) => "ENOENT: " + p
  }

  /** `path.join(location, NAME.code-workspace)`. */
  function DescriptorPath(location: string, name: string): string {
    Join(location, name + PathUtils.WorkspaceExt)
  }

  /** The document for a new descriptor: one reference per given folder, or
      the descriptor's own folder `.` when none is given. */
  function NewDescriptor(folders: seq<string>): (d: DescriptorJson)
    ensures d.settings == map[]
    ensures |d.folders| == if folders == [] then 1 else |folders|
    ensures folders == [] ==> d.folders == [FolderRef(".")]
    ensures forall i :: 0 <= i < |folders| ==> d.folders[i] == FolderRef(folders[i])
  {
    if folders == [] then DescriptorJson([FolderRef(".")], map[])
    else DescriptorJson(seq(|folders|, i requires 0 <= i < |folders| => FolderRef(folders[i])), map[])
  }

  /** `createWorkspace`: refuses, writing nothing, when the target exists;
      otherwise writes the new document and refreshes once. */
  function Create(d: Disk, name: string, location: string, folders: seq<string>): (r: Result<(Disk, string)>)
    ensures r.Err? <==> DescriptorPath(location, name) in d.files
    ensures r.Err? ==> r.failure == AlreadyExists(DescriptorPath(location, name))
    ensures r.Ok? ==> r.value.1 == DescriptorPath(location, name)
                      && r.value.0.files == d.files[r.value.1 := Json(NewDescriptor(folders))]
                      && r.value.0.refreshes == d.refreshes + 1
  {
    var p := DescriptorPath(location, name);
    if p in d.files then Err(AlreadyExists(p))
    else Ok((Disk(d.files[p := Json(NewDescriptor(folders))], d.refreshes + 1), p))
  }

  /** Creating the same name at the same place twice fails the second time. */
  lemma CreateTwiceFails(d: Disk, name: string, location: string, f1: seq<string>, f2: seq<string>)
    ensures Create(d, name, location, f1).Ok? ==>
              Create(Create(d, name, location, f1).value.0, name, location, f2).Err?
  {
  }

  /** A created descriptor is discovered under the given name, in the given
      location. */
  lemma CreatedIsListedByName(d: Disk, name: string, location: string, folders: seq<string>, mtime: int)
    requires JoinableDir(location) && IsName(name)
    requires Create(d, name, location, folders).Ok?
    ensures var e := FromWorkspaceFile(Create(d, name, location, folders).value.1, mtime, Some(folders));
            e.name == name && Directory(e) == location
  {
    DescriptorInFolder(location, name, mtime, Some(folders));
  }

  /** `deleteWorkspace`: with confirmation on, anything but the answer
      `Delete` (including dismissing the dialog) deletes nothing and
      returns false; otherwise the file is removed, one refresh follows, and
      the result is true. */
  function Delete(d: Disk, filePath: string, confirm: bool, answer: Option<string>): (r: Result<(Disk, bool)>)
    ensures confirm && answer != Some("Delete") ==> r == Ok((d, false))
    ensures !(confirm && answer != Some("Delete")) ==>
              (r.Err? <==> filePath !in d.files)
              && (r.Ok? ==> r.value.1 && r.value.0.files == d.files - {filePath}
                            && r.value.0.refreshes == d.refreshes + 1)
  {
    if confirm && answer != Some("Delete") then Ok((d, false))
    else if filePath !in d.files then Err(Missing(filePath))
    else Ok((Disk(d.files - {filePath}, d.refreshes + 1), true))
  }

  /** `renameWorkspace`: the new name in the same directory; refuses when
      that target exists, leaving the original in place. */
  function Rename(d: Disk, filePath: string, newName: string): (r: Result<(Disk, string)>)
    ensures var target := DescriptorPath(Dirname(filePath), newName);
            && (target in d.files ==> r == Err(NameTaken(newName)))
            && (target !in d.files && filePath !in d.files ==> r == Err(Missing(filePath)))
            && (target !in d.files && filePath in d.files ==>
                  r.Ok? && r.value.1 == target && r.value.0.refreshes == d.refreshes + 1
                  && r.value.0.files == (d.files - {filePath})[target := d.files[filePath]])
  {
    var target := DescriptorPath(Dirname(filePath), newName);
    if target in d.files then Err(NameTaken(newName))
    else if filePath !in d.files then Err(Missing(filePath))
    else Ok((Disk((d.files - {filePath})[target := d.files[filePath]], d.refreshes + 1), target))
  }

  /** Renaming moves the content: the number of files stays the same, the
      old path is gone, and the new path is listed under the new name in the
      old folder. */
  lemma RenameMovesContent(d: Disk, dir: string, oldName: string, newName: string, mtime: int)
    requires JoinableDir(dir) && IsName(oldName) && IsName(newName)
    requires Rename(d, DescriptorPath(dir, oldName), newName).Ok?
    ensures var old_ := DescriptorPath(dir, oldName);
            var r := Rename(d, old_, newName).value;
            && |r.0.files| == |d.files|
            && old_ !in r.0.files
            && r.0.files[r.1] == d.files[old_]
            && FromWorkspaceFile(r.1, mtime, None).name == newName
            && Directory(FromWorkspaceFile(r.1, mtime, None)) == dir
  {
    var old_ := DescriptorPath(dir, oldName);
    DescriptorInFolder(dir, oldName, mtime, None);
    assert Dirname(old_) == dir;
    DescriptorInFolder(dir, newName, mtime, None);
    var r := Rename(d, old_, newName).value;
    assert r.1 != old_ by {
      assert r.1 !in d.files && old_ in d.files;
    }
    assert |d.files - {old_}| == |d.files| - 1;
  }

  // ---------------------------------------------------------------------
  // duplicateWorkspace

  /** The n-th copy name: `dir/base (n)ext`. */
  function CopyName(dir: string, base: string, ext: string, n: nat): string {
    Join(dir, base + " (" + NatToString(n) + ")" + ext)
  }

  /** `Join` is one-to-one on second parts that do not start with a separator. */
  lemma JoinInjective(dir: string, x: string, y: string)
    requires x != [] && x[0] != Sep && y != [] && y[0] != Sep
    requires Join(dir, x) == Join(dir, y)
    ensures x == y
  {
    assert StripLeadingSeps(x) == x && StripLeadingSeps(y) == y;
    if dir != "" {
      var pre := TrimTrailingSeps(dir) + [Sep];
      assert Join(dir, x) == pre + x && Join(dir, y) == pre + y;
      assert x == (pre + x)[|pre|..];
      assert y == (pre + y)[|pre|..];
    }
  }

  /** The counter is the run of digits before the first ')'. */
  lemma CounterInjective(base: string, ext: string, m: nat, n: nat)
    requires base + " (" + NatToString(m) + ")" + ext == base + " (" + NatToString(n) + ")" + ext
    ensures m == n
  {
    var a, b := NatToString(m), NatToString(n);
    var xm := base + " (" + a + ")" + ext;
    var xn := base + " (" + b + ")" + ext;
    var tm, tn := a + ")" + ext, b + ")" + ext;
    assert tm == xm[|base| + 2..];
    assert tn == xn[|base| + 2..];
    assert tm[..|a|] == a && tn[..|b|] == b;
    assert tm[|a|] == ')' && tn[|b|] == ')';
    assert ')' !in a by {
      forall i | 0 <= i < |a| ensures a[i] != ')' { }
    }
    assert ')' !in b by {
      forall i | 0 <= i < |b| ensures b[i] != ')' { }
    }
    IndexOfAt(tm, ')', |a|);
    IndexOfAt(tn, ')', |b|);
    NatToStringInjective(m, n);
  }

  /** Different counters give different copy names. */
  lemma CopyNameInjective(dir: string, base: string, ext: string, m: nat, n: nat)
    requires Sep !in base
    requires CopyName(dir, base, ext, m) == CopyName(dir, base, ext, n)
    ensures m == n
  {
    var xm := base + " (" + NatToString(m) + ")" + ext;
    var xn := base + " (" + NatToString(n) + ")" + ext;
    assert xm[0] != Sep && xn[0] != Sep by {
      if base != [] {
        assert xm[0] == base[0] && xn[0] == base[0] && base[0] in base;
      }
    }
    JoinInjective(dir, xm, xn);
    CounterInjective(base, ext, m, n);
  }

  /** `n` is the first counter from 1 on whose name is free. */
  predicate FirstFree(files: set<string>, name: nat -> string, n: nat) {
    n >= 1 && name(n) !in files && forall k :: 1 <= k < n ==> name(k) in files
  }

  ghost predicate Injective(name: nat -> string) {
    forall a: nat, b: nat :: name(a) == name(b) ==> a == b
  }

  /** The copy names of one source, by counter. */
  function CopyNamer(dir: string, base: string, ext: string): nat -> string {
    (k: nat) => CopyName(dir, base, ext, k)
  }

  lemma CopyNamerInjective(dir: string, base: string, ext: string)
    requires Sep !in base
    ensures Injective(CopyNamer(dir, base, ext))
  {
    var name := CopyNamer(dir, base, ext);
    forall a: nat, b: nat | name(a) == name(b) ensures a == b {
      CopyNameInjective(dir, base, ext, a, b);
    }
  }

  /** `duplicateWorkspace`: the first of `dir/base (1)ext`, `dir/base (2)ext`,
      ... that does not exist receives a copy; the source stays in place.
      The counter used is returned alongside. */
  method Duplicate(d: Disk, filePath: string) returns (r: Result<(Disk, string)>, n: nat)
    ensures var dir, ext := Dirname(filePath), Extname(filePath);
            var base := BasenameWithout(filePath, ext);
            && FirstFree(d.files.Keys, CopyNamer(dir, base, ext), n)
            && (r.Err? <==> filePath !in d.files)
            && (r.Err? ==> r.failure == Missing(filePath))
            && (r.Ok? ==> r.value.1 == CopyName(dir, base, ext, n)
                          && r.value.0.files == d.files[r.value.1 := d.files[filePath]]
                          && r.value.0.refreshes == d.refreshes + 1)
  {
    var dir := Dirname(filePath);
    var ext := Extname(filePath);
    var base := BasenameWithout(filePath, ext);
    CopyNamerInjective(dir, base, ext);
    n := FirstFreeName(d.files.Keys, CopyNamer(dir, base, ext));
    var newPath := CopyName(dir, base, ext, n);
    if filePath !in d.files {
      r := Err(Missing(filePath));
    } else {
      r := Ok((Disk(d.files[newPath := d.files[filePath]], d.refreshes + 1), newPath));
    }
  }

  /** The `do ... while (exists)` loop: try counters 1, 2, ... until a name
      is free. It ends because each failed try uses up a different existing
      file, which needs the names to be distinct. */
  method FirstFreeName(files: set<string>, name: nat -> string) returns (n: nat)
    requires Injective(name)
    ensures FirstFree(files, name, n)
  {
    n := 1;
    ghost var tried: set<string> := {};
    while name(n) in files
      invariant n >= 1
      invariant forall k :: 1 <= k < n ==> name(k) in files
      invariant tried <= files
      invariant forall q :: q in tried ==> exists k :: 1 <= k < n && q == name(k)
      decreases |files - tried|
    {
      UsesUpOne(files, tried, name(n));
      tried := tried + {name(n)};
      n := n + 1;
    }
  }

  lemma UsesUpOne(files: set<string>, tried: set<string>, x: string)
    requires x in files && x !in tried
    ensures |files - (tried + {x})| < |files - tried|
  {
    assert files - tried == (files - (tried + {x})) + {x};
  }

  /** The copy never replaces an existing file, the source included. */
  lemma CopyIsNew(d: Disk, filePath: string, target: string)
    requires filePath in d.files && target !in d.files
    ensures |d.files[target := d.files[filePath]]| == |d.files| + 1
    ensures filePath in d.files[target := d.files[filePath]]
  {
  }
}

=== FILE: discovery.dfy ===
/** The discovery engine: a depth-bounded walk over the configured roots
    that collects workspace descriptors and git folders, and the small state
    machine that serves scans through the cache and shares one running scan
    among concurrent callers. The file system is an immutable tree; the
    concurrent walk is modelled as a sequential depth-first one. */
module Discovery {
  import opened Util
  import opened NodePath
  import opened Minimatch
  import opened WorkspaceEntries
  import opened WorkspaceCache
  import PathUtils
  import Sorting

  /** The bound `parallelMap` is called with. */
  const ConcurrencyLimit: int := 16

  // ---------------------------------------------------------------------
  // The file system

  /** What `readdir` reports for one name. A file carries the outcome of
      `stat` (its modification time, if `stat` succeeds) and what parsing it
      as a descriptor yields (an empty list when that fails). A directory
      carries its listing and the outcome of `stat`. Anything else (a
      symbolic link, a socket) is `Other`. */
  datatype FsNode =
    | File(stat: Option<int>, folders: seq<string>)
    | Dir(listing: Listing, stat: Option<int>)
    | Other

  /** A directory whose `readdir` throws is `Unreadable`. */
  datatype Listing = Listed(entries: seq<(string, FsNode)>) | Unreadable

  /** `stat?.mtimeMs ?? 0`, and the `catch` that leaves 0. */
  function MtimeOrZero(stat: Option<int>): int {
    stat.GetOr(0)
  }

  // ---------------------------------------------------------------------
  // Fast-skip names

  /** The characters of `[a-zA-Z0-9_.-]`. */
  predicate NameChar(c: char) {
    ('a' <= c <= 'z') || ('A' <= c <= 'Z') || ('0' <= c <= '9') || c == '_' || c == '.' || c == '-'
  }

  predicate SimpleName(name: string) {
    name != [] && forall k :: 0 <= k < |name| ==> NameChar(name[k])
  }

  /** The NAME captured by `^\*\*\/([a-zA-Z0-9_.-]+)\/\*\*$`, if the pattern has that shape. */
  function SkipName(p: string): (r: Option<string>)
    ensures r.Some? ==> SimpleName(r.value) && p == DirPattern(r.value)
  {
    if |p| >= 7 && p[..3] == "**/" && p[|p| - 3..] == "/**" && SimpleName(p[3..|p| - 3]) then
      assert p == "**/" + p[3..|p| - 3] + "/**";
      Some(p[3..|p| - 3])
    else None
  }

  /** The pattern parser finds NAME exactly in the patterns `**` `/NAME/` `**`. */
  lemma SkipNameExact(p: string, name: string)
    ensures SkipName(p) == Some(name) <==> SimpleName(name) && p == DirPattern(name)
  {
    if SimpleName(name) && p == DirPattern(name) {
      assert p[..3] == "**/" && p[|p| - 3..] == "/**" && p[3..|p| - 3] == name;
    }
  }

  /** The set of directory names skipped before the matcher runs. */
  function SkipNames(patterns: seq<string>): (r: set<string>)
    ensures forall name :: name in r ==> SimpleName(name)
  {
    if patterns == [] then {}
    else
      var rest := SkipNames(patterns[1..]);
      match SkipName(patterns[0])
      case Some(name) => {name} + rest
      case None => rest
  }

  /** The skip set holds exactly the NAME of each pattern shaped `**` `/NAME/` `**`. */
  lemma {:induction false} SkipNamesExact(patterns: seq<string>, name: string)
    ensures name in SkipNames(patterns) <==>
            SimpleName(name) && exists i :: 0 <= i < |patterns| && patterns[i] == DirPattern(name)
  {
    if patterns != [] {
      SkipNamesExact(patterns[1..], name);
      SkipNameExact(patterns[0], name);
      if exists i :: 0 <= i < |patterns| && patterns[i] == DirPattern(name) {
        var i :| 0 <= i < |patterns| && patterns[i] == DirPattern(name);
        if i > 0 {
          assert patterns[1..][i - 1] == patterns[i];
        }
      }
      if exists i :: 0 <= i < |patterns[1..]| && patterns[1..][i] == DirPattern(name) {
        var i :| 0 <= i < |patterns[1..]| && patterns[1..][i] == DirPattern(name);
        assert patterns[i + 1] == DirPattern(name);
      }
    }
  }

  /** The fast skip agrees with the matcher on everything below the skipped
      directory: any path that continues past `NAME/` (with no line break, no
      backslash, and NAME at the start or after a '/') is excluded anyway. */
  lemma SkipIsSound(patterns: seq<string>, name: string, before: string, after: string)
    requires name in SkipNames(patterns)
    requires before == [] || before[|before| - 1] == Sep
    requires NoLineTerminator(before) && NoLineTerminator(after)
    requires '\\' !in before + name + "/" + after
    ensures IsExcluded(before + name + "/" + after, CompileExcludePatterns(patterns))
  {
    SkipNamesExact(patterns, name);
    var i :| 0 <= i < |patterns| && patterns[i] == DirPattern(name);
    var path := before + name + "/" + after;
    NormalizeKeeps(path);
    assert PlainName(name) by {
      forall m | 0 <= m < |name| ensures !IsGlobChar(name[m]) && name[m] != '\\' {
        assert NameChar(name[m]);
      }
    }
    PathMatchesAt(name, before, after);
    DirPatternSemantics(name, path);
    CombinedIsDisjunction(patterns, path);
  }

  /** `before` + NAME + "/" + `after` has its `NAME/` at position |before|. */
  lemma PathMatchesAt(name: string, before: string, after: string)
    requires before == [] || before[|before| - 1] == Sep
    requires NoLineTerminator(before) && NoLineTerminator(after)
    ensures DirMatchAt(name, before + name + "/" + after, |before|)
  {
    var path := before + name + "/" + after;
    var k := |before|;
    var w := name + "/";
    assert path[..k] == before;
    assert path[k..k + |w|] == w;
    assert path[k + |w|..] == after;
    if before != [] {
      assert before[..|before| - 1] == path[..k - 1];
    }
  }

  // ---------------------------------------------------------------------
  // One directory level

  /** What the walk reads, derived from the configuration once per scan. */
  datatype ScanConfig = ScanConfig(maxDepth: int, exclude: Option<seq<seq<Token>>>,
                                   skip: set<string>, includeGit: bool)

  /** The records found so far and the paths already emitted (`seen`). */
  datatype Walk = Walk(entries: seq<WorkspaceEntry>, seen: set<string>)

  /** A subdirectory the walk enters: not `.git`, not hidden, not a skip
      name, and not excluded by its full path. */
  predicate Descends(dir: string, name: string, c: FsNode, cfg: ScanConfig) {
    c.Dir? && name != ".git" && !StartsWith(name, ".") && name !in cfg.skip
    && !IsExcluded(Join(dir, name), cfg.exclude)
  }

  /** A file that becomes a descriptor candidate. */
  predicate IsCandidateFile(dir: string, name: string, c: FsNode, cfg: ScanConfig) {
    c.File? && EndsWith(name, PathUtils.WorkspaceExt) && !IsExcluded(Join(dir, name), cfg.exclude)
  }

  /** The listing holds a directory named `.git`. */
  predicate HasGit(es: seq<(string, FsNode)>) {
    exists k :: 0 <= k < |es| && es[k].0 == ".git" && es[k].1.Dir?
  }

  /** The record made for a candidate file. */
  function Descriptor(dir: string, name: string, c: FsNode): WorkspaceEntry
    requires c.File?
  {
    FromWorkspaceFile(Join(dir, name), MtimeOrZero(c.stat), Some(c.folders))
  }

  /** The candidate paths of the listing from position `i` on. */
  function FilesAt(dir: string, es: seq<(string, FsNode)>, i: nat, cfg: ScanConfig): set<string>
    requires i <= |es|
    decreases |es| - i
  {
    if i == |es| then {}
    else (if IsCandidateFile(dir, es[i].0, es[i].1, cfg) then {Join(dir, es[i].0)} else {})
         + FilesAt(dir, es, i + 1, cfg)
  }

  /** Everything one level contributes to `seen`: its candidate files, and
      the directory itself when git folders are included and `.git` is there. */
  function LevelCandidates(dir: string, es: seq<(string, FsNode)>, cfg: ScanConfig): set<string> {
    FilesAt(dir, es, 0, cfg) + (if cfg.includeGit && HasGit(es) then {dir} else {})
  }

  /** The paths of some records. */
  function Paths(es: seq<WorkspaceEntry>): set<string> {
    if es == [] then {} else {es[0].filePath} + Paths(es[1..])
  }

  predicate DistinctPaths(es: seq<WorkspaceEntry>) {
    forall i, j :: 0 <= i < j < |es| ==> es[i].filePath != es[j].filePath
  }

  lemma {:induction false} PathsMembership(es: seq<WorkspaceEntry>, p: string)
    ensures p in Paths(es) <==> exists i :: 0 <= i < |es| && es[i].filePath == p
  {
    if es != [] {
      PathsMembership(es[1..], p);
      if exists i :: 0 <= i < |es[1..]| && es[1..][i].filePath == p {
        var i :| 0 <= i < |es[1..]| && es[1..][i].filePath == p;
        assert es[i + 1].filePath == p;
      }
      if exists i :: 0 <= i < |es| && es[i].filePath == p {
        var i :| 0 <= i < |es| && es[i].filePath == p;
        if i > 0 {
          assert es[1..][i - 1].filePath == p;
        }
      }
    }
  }

  lemma {:induction false} PathsConcat(a: seq<WorkspaceEntry>, b: seq<WorkspaceEntry>)
    ensures Paths(a + b) == Paths(a) + Paths(b)
  {
    if a == [] {
      assert a + b == b;
    } else {
      assert (a + b)[0] == a[0];
      assert (a + b)[1..] == a[1..] + b;
      PathsConcat(a[1..], b);
    }
  }

  lemma DistinctConcat(a: seq<WorkspaceEntry>, b: seq<WorkspaceEntry>)
    requires DistinctPaths(a) && DistinctPaths(b) && Paths(a) !! Paths(b)
    ensures DistinctPaths(a + b)
  {
    forall i, j | 0 <= i < j < |a + b| ensures (a + b)[i].filePath != (a + b)[j].filePath {
      if j >= |a| && i < |a| {
        PathsMembership(a, a[i].filePath);
        PathsMembership(b, b[j - |a|].filePath);
      }
    }
  }

  /** `r` extends `w` by one record per newly seen path: the earlier records
      are kept as they are, the appended records have paths not seen before,
      no two alike, and exactly those paths join `seen`. */
  predicate Extends(w: Walk, r: Walk) {
    && |w.entries| <= |r.entries|
    && r.entries[..|w.entries|] == w.entries
    && var added := r.entries[|w.entries|..];
       w.seen !! Paths(added) && DistinctPaths(added) && r.seen == w.seen + Paths(added)
  }

  lemma ExtendsRefl(w: Walk)
    ensures Extends(w, w)
  {
    assert w.entries[|w.entries|..] == [];
  }

  lemma ExtendsTrans(a: Walk, b: Walk, c: Walk)
    requires Extends(a, b) && Extends(b, c)
    ensures Extends(a, c)
  {
    var ab, bc := b.entries[|a.entries|..], c.entries[|b.entries|..];
    assert c.entries == b.entries + bc;
    assert b.entries == a.entries + ab;
    assert c.entries[|a.entries|..] == ab + bc;
    assert c.entries[..|a.entries|] == a.entries;
    PathsConcat(ab, bc);
    DistinctConcat(ab, bc);
  }

  /** The classification loop's descriptor half: candidate files not yet
      seen become records, in listing order, each marked seen at once. */
  function NewFiles(dir: string, es: seq<(string, FsNode)>, i: nat, cfg: ScanConfig, seen: set<string>)
    : (r: (set<string>, seq<WorkspaceEntry>))
    requires i <= |es|
    ensures r.0 == seen + FilesAt(dir, es, i, cfg)
    ensures Extends(Walk([], seen), Walk(r.1, r.0))
    decreases |es| - i
  {
    if i == |es| then
      ExtendsRefl(Walk([], seen));
      (seen, [])
    else
      var name := es[i].0;
      var p := Join(dir, name);
      if IsCandidateFile(dir, name, es[i].1, cfg) && p !in seen then
        var rest := NewFiles(dir, es, i + 1, cfg, seen + {p});
        var e := Descriptor(dir, name, es[i].1);
        PrependNew(seen, p, e, rest.1, rest.0);
        (rest.0, [e] + rest.1)
      else
        NewFiles(dir, es, i + 1, cfg, seen)
  }

  lemma PrependNew(seen: set<string>, p: string, e: WorkspaceEntry, rest: seq<WorkspaceEntry>, seen2: set<string>)
    requires e.filePath == p && p !in seen
    requires Extends(Walk([], seen + {p}), Walk(rest, seen2))
    ensures Extends(Walk([], seen), Walk([e] + rest, seen2))
  {
    assert rest[0..] == rest;
    assert ([e] + rest)[0..] == [e] + rest;
    assert ([e] + rest)[1..] == rest;
    assert Paths([e] + rest) == {p} + Paths(rest);
    DistinctConcat([e], rest);
  }

  /** Every record `NewFiles` makes comes from a candidate file of the listing. */
  lemma {:induction false} NewFilesAreCandidates(dir: string, es: seq<(string, FsNode)>, i: nat, cfg: ScanConfig,
                                                 seen: set<string>, a: nat)
    requires i <= |es| && a < |NewFiles(dir, es, i, cfg, seen).1|
    ensures exists k :: i <= k < |es| && IsCandidateFile(dir, es[k].0, es[k].1, cfg)
                        && NewFiles(dir, es, i, cfg, seen).1[a] == Descriptor(dir, es[k].0, es[k].1)
    decreases |es| - i
  {
    var name := es[i].0;
    var p := Join(dir, name);
    if IsCandidateFile(dir, name, es[i].1, cfg) && p !in seen {
      if a > 0 {
        NewFilesAreCandidates(dir, es, i + 1, cfg, seen + {p}, a - 1);
      }
    } else {
      NewFilesAreCandidates(dir, es, i + 1, cfg, seen, a);
    }
  }

  /** One level of `scanDirectory` after a successful `readdir`: the new
      descriptor records in listing order, then the git record, if any. */
  function Visit(dir: string, es: seq<(string, FsNode)>, stat: Option<int>, cfg: ScanConfig, w: Walk): (r: Walk)
    ensures Extends(w, r)
    ensures r.seen == w.seen + LevelCandidates(dir, es, cfg)
  {
    var files := NewFiles(dir, es, 0, cfg, w.seen);
    var w1 := Walk(w.entries + files.1, files.0);
    assert Extends(w, w1) by {
      assert w1.entries[..|w.entries|] == w.entries;
      assert w1.entries[|w.entries|..] == files.1;
      assert files.1[0..] == files.1;
    }
    if GitRecordDue(dir, es, cfg, w1.seen) then
      var r := Walk(w1.entries + [FromGitFolder(dir, MtimeOrZero(stat))], w1.seen + {dir});
      AppendGit(w1, r, dir, MtimeOrZero(stat));
      ExtendsTrans(w, w1, r);
      r
    else
      w1
  }

  /** The git record is made when git folders are included, `.git` is
      present, and the directory's path has not been seen. */
  predicate GitRecordDue(dir: string, es: seq<(string, FsNode)>, cfg: ScanConfig, seen: set<string>) {
    cfg.includeGit && HasGit(es) && dir !in seen
  }

  lemma AppendGit(w1: Walk, r: Walk, dir: string, mtime: int)
    requires dir !in w1.seen
    requires r == Walk(w1.entries + [FromGitFolder(dir, mtime)], w1.seen + {dir})
    ensures Extends(w1, r)
  {
    assert r.entries[..|w1.entries|] == w1.entries;
    assert r.entries[|w1.entries|..] == [FromGitFolder(dir, mtime)];
    assert [FromGitFolder(dir, mtime)][1..] == [];
  }

  /** What one level adds: first a descriptor record for each new candidate
      file, then a git record exactly when one is due, and nothing else. */
  lemma VisitRecords(dir: string, es: seq<(string, FsNode)>, stat: Option<int>, cfg: ScanConfig, w: Walk)
    ensures var r := Visit(dir, es, stat, cfg, w);
            var files := NewFiles(dir, es, 0, cfg, w.seen);
            var due := GitRecordDue(dir, es, cfg, w.seen + FilesAt(dir, es, 0, cfg));
            && (due ==> r.entries == w.entries + files.1 + [FromGitFolder(dir, MtimeOrZero(stat))])
            && (!due ==> r.entries == w.entries + files.1)
            && (forall a :: 0 <= a < |files.1| ==> files.1[a].isWorkspaceFile)
  {
    var files := NewFiles(dir, es, 0, cfg, w.seen);
    forall a | 0 <= a < |files.1| ensures files.1[a].isWorkspaceFile {
      NewFilesAreCandidates(dir, es, 0, cfg, w.seen, a);
    }
  }

  // ---------------------------------------------------------------------
  // The recursive walk

  /** `scanDirectory`: nothing happens deeper than `maxDepth` or when the
      directory cannot be listed; otherwise the level is visited and then
      every entered subdirectory, in listing order, one level deeper. */
  function ScanDirectory(dir: string, n: FsNode, depth: int, cfg: ScanConfig, w: Walk): (r: Walk)
    ensures Extends(w, r)
    ensures r.seen == w.seen + Candidates(dir, n, depth, cfg)
    ensures depth > cfg.maxDepth || !n.Dir? || n.listing.Unreadable? ==> r == w
    decreases n, 2
  {
    if depth > cfg.maxDepth then
      ExtendsRefl(w);
      w
    else
      match n
      case Dir(Listed(es), stat) =>
        var w1 := Visit(dir, es, stat, cfg, w);
        var r := ScanSubdirs(dir, n, 0, depth, cfg, w1);
        ExtendsTrans(w, w1, r);
        r
      case _ =>
        ExtendsRefl(w);
        w
  }

  /** The subdirectories of `n` from position `i` on, in listing order. */
  function ScanSubdirs(dir: string, n: FsNode, i: nat, depth: int, cfg: ScanConfig, w: Walk): (r: Walk)
    requires n.Dir? && n.listing.Listed? && i <= |n.listing.entries|
    ensures Extends(w, r)
    ensures r.seen == w.seen + SubCandidates(dir, n, i, depth, cfg)
    decreases n, 1, |n.listing.entries| - i
  {
    var es := n.listing.entries;
    if i == |es| then
      ExtendsRefl(w);
      w
    else
      var w1 := if Descends(dir, es[i].0, es[i].1, cfg)
                then ScanDirectory(Join(dir, es[i].0), es[i].1, depth + 1, cfg, w)
                else (ExtendsRefl(w); w);
      var r := ScanSubdirs(dir, n, i + 1, depth, cfg, w1);
      ExtendsTrans(w, w1, r);
      r
  }

  /** Every path a walk from `dir` marks seen, whatever was seen before and
      in whatever order the subdirectories are visited. */
  function Candidates(dir: string, n: FsNode, depth: int, cfg: ScanConfig): set<string>
    decreases n, 2
  {
    if depth > cfg.maxDepth then {}
    else
      match n
      case Dir(Listed(es), _) => LevelCandidates(dir, es, cfg) + SubCandidates(dir, n, 0, depth, cfg)
      case _ => {}
  }

  function SubCandidates(dir: string, n: FsNode, i: nat, depth: int, cfg: ScanConfig): set<string>
    requires n.Dir? && n.listing.Listed? && i <= |n.listing.entries|
    decreases n, 1, |n.listing.entries| - i
  {
    var es := n.listing.entries;
    if i == |es| then {}
    else
      (if Descends(dir, es[i].0, es[i].1, cfg) then Candidates(Join(dir, es[i].0), es[i].1, depth + 1, cfg) else {})
      + SubCandidates(dir, n, i + 1, depth, cfg)
  }

  /** A directory at exactly `maxDepth` is still listed, but none of its
      subdirectories is read. */
  lemma AtMaxDepthOnlyThisLevel(dir: string, es: seq<(string, FsNode)>, stat: Option<int>, cfg: ScanConfig, w: Walk)
    ensures ScanDirectory(dir, Dir(Listed(es), stat), cfg.maxDepth, cfg, w) == Visit(dir, es, stat, cfg, w)
  {
    var n := Dir(Listed(es), stat);
    BelowMaxDepthIdle(dir, n, 0, cfg.maxDepth, cfg, Visit(dir, es, stat, cfg, w));
  }

  lemma {:induction false} BelowMaxDepthIdle(dir: string, n: FsNode, i: nat, depth: int, cfg: ScanConfig, w: Walk)
    requires n.Dir? && n.listing.Listed? && i <= |n.listing.entries| && depth >= cfg.maxDepth
    ensures ScanSubdirs(dir, n, i, depth, cfg, w) == w
    decreases |n.listing.entries| - i
  {
    if i < |n.listing.entries| {
      BelowMaxDepthIdle(dir, n, i + 1, depth, cfg, w);
    }
  }

  // ---------------------------------------------------------------------
  // What the records hold

  /** The records a walk from `dir` may report: the descriptor record of
      each candidate file (its name without the extension, its folders and
      its modification time) and the git record of each folder holding
      `.git`, over every level the walk enters. */
  function Records(dir: string, n: FsNode, depth: int, cfg: ScanConfig): set<WorkspaceEntry>
    decreases n, 2
  {
    if depth > cfg.maxDepth then {}
    else
      match n
      case Dir(Listed(es), stat) => LevelRecords(dir, es, stat, cfg) + SubRecords(dir, n, 0, depth, cfg)
      case _ => {}
  }

  function SubRecords(dir: string, n: FsNode, i: nat, depth: int, cfg: ScanConfig): set<WorkspaceEntry>
    requires n.Dir? && n.listing.Listed? && i <= |n.listing.entries|
    decreases n, 1, |n.listing.entries| - i
  {
    var es := n.listing.entries;
    if i == |es| then {}
    else
      (if Descends(dir, es[i].0, es[i].1, cfg) then Records(Join(dir, es[i].0), es[i].1, depth + 1, cfg) else {})
      + SubRecords(dir, n, i + 1, depth, cfg)
  }

  /** One level's records: its candidate files' descriptors, and its git
      record when git folders are included and `.git` is there. */
  function LevelRecords(dir: string, es: seq<(string, FsNode)>, stat: Option<int>, cfg: ScanConfig): set<WorkspaceEntry> {
    FileRecords(dir, es, 0, cfg)
    + (if cfg.includeGit && HasGit(es) then {FromGitFolder(dir, MtimeOrZero(stat))} else {})
  }

  function FileRecords(dir: string, es: seq<(string, FsNode)>, i: nat, cfg: ScanConfig): set<WorkspaceEntry>
    requires i <= |es|
    decreases |es| - i
  {
    if i == |es| then {}
    else (if IsCandidateFile(dir, es[i].0, es[i].1, cfg) then {Descriptor(dir, es[i].0, es[i].1)} else {})
         + FileRecords(dir, es, i + 1, cfg)
  }

  /** `e` is the descriptor record of the candidate file at position `k`. */
  predicate DescribesCandidate(dir: string, es: seq<(string, FsNode)>, k: int, cfg: ScanConfig, e: WorkspaceEntry) {
    0 <= k < |es| && IsCandidateFile(dir, es[k].0, es[k].1, cfg) && e == Descriptor(dir, es[k].0, es[k].1)
  }

  /** Every file record of a level is the descriptor record of one of its
      candidate files; `k` names that file. */
  lemma {:induction false} FileRecordSource(dir: string, es: seq<(string, FsNode)>, i: nat, cfg: ScanConfig,
                                            e: WorkspaceEntry) returns (k: int)
    requires i <= |es| && e in FileRecords(dir, es, i, cfg)
    ensures i <= k && DescribesCandidate(dir, es, k, cfg, e)
    decreases |es| - i
  {
    if e in FileRecords(dir, es, i + 1, cfg) {
      k := FileRecordSource(dir, es, i + 1, cfg, e);
    } else {
      k := i;
    }
  }

  /** Every candidate file of a level has its descriptor record among the
      level's file records. */
  lemma {:induction false} CandidateInFileRecords(dir: string, es: seq<(string, FsNode)>, i: nat, cfg: ScanConfig,
                                                  k: int, e: WorkspaceEntry)
    requires i <= k && DescribesCandidate(dir, es, k, cfg, e)
    ensures e in FileRecords(dir, es, i, cfg)
    decreases k - i
  {
    if i < k {
      CandidateInFileRecords(dir, es, i + 1, cfg, k, e);
    }
  }

  /** The records appended from `w` to `r` all belong to `recs`. */
  predicate AddsOnly(w: Walk, r: Walk, recs: set<WorkspaceEntry>) {
    |w.entries| <= |r.entries| && forall k :: |w.entries| <= k < |r.entries| ==> r.entries[k] in recs
  }

  lemma AddsOnlyTrans(a: Walk, b: Walk, c: Walk, s: set<WorkspaceEntry>, t: set<WorkspaceEntry>)
    requires AddsOnly(a, b, s) && AddsOnly(b, c, t) && Extends(b, c)
    ensures AddsOnly(a, c, s + t)
  {
    forall k | |a.entries| <= k < |c.entries| ensures c.entries[k] in s + t {
      if k < |b.entries| {
        assert c.entries[..|b.entries|] == b.entries;
        assert c.entries[k] == b.entries[k];
      }
    }
  }

  lemma {:induction false} NewFilesInRecords(dir: string, es: seq<(string, FsNode)>, i: nat, cfg: ScanConfig,
                                             seen: set<string>)
    requires i <= |es|
    ensures forall a :: 0 <= a < |NewFiles(dir, es, i, cfg, seen).1| ==>
              NewFiles(dir, es, i, cfg, seen).1[a] in FileRecords(dir, es, i, cfg)
    decreases |es| - i
  {
    if i < |es| {
      var p := Join(dir, es[i].0);
      NewFilesInRecords(dir, es, i + 1, cfg, seen);
      NewFilesInRecords(dir, es, i + 1, cfg, seen + {p});
    }
  }

  /** A visited level adds only its own records. */
  lemma VisitInRecords(dir: string, es: seq<(string, FsNode)>, stat: Option<int>, cfg: ScanConfig, w: Walk)
    ensures AddsOnly(w, Visit(dir, es, stat, cfg, w), LevelRecords(dir, es, stat, cfg))
  {
    var files := NewFiles(dir, es, 0, cfg, w.seen);
    NewFilesInRecords(dir, es, 0, cfg, w.seen);
    VisitRecords(dir, es, stat, cfg, w);
    var r := Visit(dir, es, stat, cfg, w);
    forall k | |w.entries| <= k < |r.entries| ensures r.entries[k] in LevelRecords(dir, es, stat, cfg) {
      if k < |w.entries| + |files.1| {
        assert r.entries[k] == files.1[k - |w.entries|];
      }
    }
  }

  /** Every record a walk reports is a descriptor record of one of the
      walk's candidate files or the git record of one of its git folders. */
  lemma {:induction false} ScanDirectoryRecords(dir: string, n: FsNode, depth: int, cfg: ScanConfig, w: Walk)
    ensures AddsOnly(w, ScanDirectory(dir, n, depth, cfg, w), Records(dir, n, depth, cfg))
    decreases n, 2
  {
    if depth <= cfg.maxDepth && n.Dir? && n.listing.Listed? {
      var es, stat := n.listing.entries, n.stat;
      var w1 := Visit(dir, es, stat, cfg, w);
      VisitInRecords(dir, es, stat, cfg, w);
      SubdirsRecords(dir, n, 0, depth, cfg, w1);
      AddsOnlyTrans(w, w1, ScanSubdirs(dir, n, 0, depth, cfg, w1),
                    LevelRecords(dir, es, stat, cfg), SubRecords(dir, n, 0, depth, cfg));
    }
  }

  lemma {:induction false} SubdirsRecords(dir: string, n: FsNode, i: nat, depth: int, cfg: ScanConfig, w: Walk)
    requires n.Dir? && n.listing.Listed? && i <= |n.listing.entries|
    ensures AddsOnly(w, ScanSubdirs(dir, n, i, depth, cfg, w), SubRecords(dir, n, i, depth, cfg))
    decreases n, 1, |n.listing.entries| - i
  {
    var es := n.listing.entries;
    if i < |es| {
      var here := if Descends(dir, es[i].0, es[i].1, cfg) then Records(Join(dir, es[i].0), es[i].1, depth + 1, cfg) else {};
      var w1 := if Descends(dir, es[i].0, es[i].1, cfg)
                then ScanDirectory(Join(dir, es[i].0), es[i].1, depth + 1, cfg, w)
                else w;
      if Descends(dir, es[i].0, es[i].1, cfg) {
        ScanDirectoryRecords(Join(dir, es[i].0), es[i].1, depth + 1, cfg, w);
      }
      assert AddsOnly(w, w1, here);
      SubdirsRecords(dir, n, i + 1, depth, cfg, w1);
      AddsOnlyTrans(w, w1, ScanSubdirs(dir, n, i + 1, depth, cfg, w1), here, SubRecords(dir, n, i + 1, depth, cfg));
    } else {
      assert ScanSubdirs(dir, n, i, depth, cfg, w) == w;
    }
  }

  // ---------------------------------------------------------------------
  // What the walk never reads

  /** `es2` is `es` with the directory at `i` replaced by another directory. */
  predicate SwapsDirAt(es: seq<(string, FsNode)>, es2: seq<(string, FsNode)>, i: nat) {
    |es2| == |es| && i < |es| && es[i].1.Dir? && es2[i].1.Dir? && es2[i].0 == es[i].0
    && forall k :: 0 <= k < |es| && k != i ==> es2[k] == es[k]
  }

  lemma {:induction false} NewFilesIgnoresDirs(dir: string, es: seq<(string, FsNode)>, es2: seq<(string, FsNode)>,
                                               i: nat, j: nat, cfg: ScanConfig, seen: set<string>)
    requires SwapsDirAt(es, es2, i) && j <= |es|
    ensures NewFiles(dir, es, j, cfg, seen) == NewFiles(dir, es2, j, cfg, seen)
    decreases |es| - j
  {
    if j < |es| {
      NewFilesIgnoresDirs(dir, es, es2, i, j + 1, cfg, seen);
      var p := Join(dir, es[j].0);
      NewFilesIgnoresDirs(dir, es, es2, i, j + 1, cfg, seen + {p});
    }
  }

  lemma HasGitSameNames(es: seq<(string, FsNode)>, es2: seq<(string, FsNode)>, i: nat)
    requires SwapsDirAt(es, es2, i)
    ensures HasGit(es) == HasGit(es2)
  {
    if HasGit(es) {
      var k :| 0 <= k < |es| && es[k].0 == ".git" && es[k].1.Dir?;
      assert es2[k].0 == ".git" && es2[k].1.Dir?;
    }
    if HasGit(es2) {
      var k :| 0 <= k < |es2| && es2[k].0 == ".git" && es2[k].1.Dir?;
      assert es[k].0 == ".git" && es[k].1.Dir?;
    }
  }

  lemma {:induction false} SubdirsIgnoreUnentered(dir: string, n: FsNode, n2: FsNode, i: nat, j: nat,
                                                  depth: int, cfg: ScanConfig, w: Walk)
    requires n.Dir? && n.listing.Listed? && n2.Dir? && n2.listing.Listed?
    requires SwapsDirAt(n.listing.entries, n2.listing.entries, i)
    requires !Descends(dir, n.listing.entries[i].0, n.listing.entries[i].1, cfg)
    requires j <= |n.listing.entries|
    ensures ScanSubdirs(dir, n, j, depth, cfg, w) == ScanSubdirs(dir, n2, j, depth, cfg, w)
    decreases |n.listing.entries| - j
  {
    var es, es2 := n.listing.entries, n2.listing.entries;
    if j < |es| {
      var w1 := if Descends(dir, es[j].0, es[j].1, cfg)
                then ScanDirectory(Join(dir, es[j].0), es[j].1, depth + 1, cfg, w)
                else w;
      var w2 := if Descends(dir, es2[j].0, es2[j].1, cfg)
                then ScanDirectory(Join(dir, es2[j].0), es2[j].1, depth + 1, cfg, w)
                else w;
      if j == i {
        assert !Descends(dir, es2[i].0, es2[i].1, cfg);
      } else {
        assert es2[j] == es[j];
      }
      assert w1 == w2;
      assert ScanSubdirs(dir, n, j, depth, cfg, w) == ScanSubdirs(dir, n, j + 1, depth, cfg, w1);
      assert ScanSubdirs(dir, n2, j, depth, cfg, w) == ScanSubdirs(dir, n2, j + 1, depth, cfg, w2);
      SubdirsIgnoreUnentered(dir, n, n2, i, j + 1, depth, cfg, w1);
    }
  }

  /** The contents of a directory the walk does not enter (`.git`, a hidden
      directory, a skip name, an excluded path) are never read: replacing
      that directory by any other directory leaves the scan unchanged. */
  lemma UnenteredNeverRead(dir: string, es: seq<(string, FsNode)>, es2: seq<(string, FsNode)>, i: nat,
                           stat: Option<int>, depth: int, cfg: ScanConfig, w: Walk)
    requires SwapsDirAt(es, es2, i)
    requires !Descends(dir, es[i].0, es[i].1, cfg)
    ensures ScanDirectory(dir, Dir(Listed(es), stat), depth, cfg, w)
            == ScanDirectory(dir, Dir(Listed(es2), stat), depth, cfg, w)
  {
    if depth <= cfg.maxDepth {
      NewFilesIgnoresDirs(dir, es, es2, i, 0, cfg, w.seen);
      HasGitSameNames(es, es2, i);
      assert FilesAt(dir, es, 0, cfg) == FilesAt(dir, es2, 0, cfg) by {
        assert NewFiles(dir, es, 0, cfg, w.seen).0 == NewFiles(dir, es2, 0, cfg, w.seen).0;
        FilesAtIgnoresDirs(dir, es, es2, i, 0, cfg);
      }
      var w1 := Visit(dir, es, stat, cfg, w);
      assert w1 == Visit(dir, es2, stat, cfg, w);
      SubdirsIgnoreUnentered(dir, Dir(Listed(es), stat), Dir(Listed(es2), stat), i, 0, depth, cfg, w1);
    }
  }

  lemma {:induction false} FilesAtIgnoresDirs(dir: string, es: seq<(string, FsNode)>, es2: seq<(string, FsNode)>,
                                              i: nat, j: nat, cfg: ScanConfig)
    requires SwapsDirAt(es, es2, i) && j <= |es|
    ensures FilesAt(dir, es, j, cfg) == FilesAt(dir, es2, j, cfg)
    decreases |es| - j
  {
    if j < |es| {
      FilesAtIgnoresDirs(dir, es, es2, i, j + 1, cfg);
    }
  }

  // ---------------------------------------------------------------------
  // `parallelMap`

  /** The number of workers with a call in progress. */
  function BusyCount(busy: seq<Option<nat>>): (c: nat)
    ensures c <= |busy|
    ensures c == 0 <==> forall w :: 0 <= w < |busy| ==> busy[w].None?
    ensures c == |busy| <==> forall w :: 0 <= w < |busy| ==> busy[w].Some?
  {
    if busy == [] then 0
    else
      var rest := BusyCount(busy[1..]);
      assert forall w :: 1 <= w < |busy| ==> busy[w] == busy[1..][w - 1];
      (if busy[0].Some? then 1 else 0) + rest
  }

  /** Replacing one worker's slot changes the count by that slot alone. */
  lemma {:induction false} BusyCountUpdate(busy: seq<Option<nat>>, w: nat, v: Option<nat>)
    requires w < |busy|
    ensures BusyCount(busy[w := v]) == BusyCount(busy) - (if busy[w].Some? then 1 else 0) + (if v.Some? then 1 else 0)
  {
    if w > 0 {
      assert busy[w := v][1..] == busy[1..][w - 1 := v];
      BusyCountUpdate(busy[1..], w - 1, v);
    } else {
      assert busy[w := v][1..] == busy[1..];
    }
  }

  /** Some worker is busy while the count is positive. */
  function FirstBusy(busy: seq<Option<nat>>): (w: nat)
    requires BusyCount(busy) > 0
    ensures w < |busy| && busy[w].Some?
  {
    if busy[0].Some? then 0 else 1 + FirstBusy(busy[1..])
  }

  /** The shared state of `parallelMap`'s workers: what each worker's call
      is working on (`None` once it has left its loop), the counter `idx`,
      and the indices whose calls have finished, in finishing order. */
  datatype Pool = Pool(busy: seq<Option<nat>>, idx: nat, completed: seq<nat>)

  /** The finished indices are distinct and were all drawn. */
  predicate FinishedOnce(completed: seq<nat>, idx: nat) {
    NoDuplicates(completed) && forall k :: 0 <= k < |completed| ==> completed[k] < idx
  }

  /** Each call in progress works on a drawn, unfinished index that no
      other worker holds. */
  predicate InProgressOnce(busy: seq<Option<nat>>, idx: nat, completed: seq<nat>) {
    && (forall w :: 0 <= w < |busy| && busy[w].Some? ==> busy[w].value < idx && busy[w].value !in completed)
    && (forall w, v :: 0 <= w < v < |busy| && busy[w].Some? ==> busy[v] != busy[w])
  }

  /** Every drawn index is finished or in progress. */
  predicate DrawnAccounted(busy: seq<Option<nat>>, idx: nat, completed: seq<nat>) {
    forall k :: 0 <= k < idx && k !in completed ==> Some(k) in busy
  }

  /** Every index below the counter has been drawn exactly once: it is
      either finished or in progress with one worker. While indices remain,
      every worker is busy. */
  predicate PoolOk(p: Pool, n: nat) {
    && p.idx <= n
    && FinishedOnce(p.completed, p.idx)
    && InProgressOnce(p.busy, p.idx, p.completed)
    && DrawnAccounted(p.busy, p.idx, p.completed)
    && (p.idx < n ==> BusyCount(p.busy) == |p.busy|)
  }

  /** Every worker starts at once and draws its first index: worker `w`
      runs item `w`. */
  function StartWorkers(workers: nat, n: nat): (p: Pool)
    requires workers <= n
    ensures PoolOk(p, n) && |p.busy| == workers && p.idx == workers && p.completed == []
    ensures BusyCount(p.busy) == workers
  {
    var busy := seq(workers, w requires 0 <= w < workers => Some(w));
    assert forall k :: 0 <= k < workers ==> busy[k] == Some(k);
    Pool(busy, workers, [])
  }

  /** One call finishes: the call of the worker `choice` names when that
      worker is busy, else of the first busy worker. */
  function FinishOne(p: Pool, n: nat, choice: nat): (q: Pool)
    requires PoolOk(p, n) && BusyCount(p.busy) > 0
    ensures PoolOk(q, n) && |q.busy| == |p.busy|
    ensures q.idx > p.idx || (q.idx == p.idx && BusyCount(q.busy) < BusyCount(p.busy))
  {
    var w := choice % |p.busy|;
    FinishAt(p, n, if p.busy[w].Some? then w else FirstBusy(p.busy))
  }

  /** The call of worker `w` finishes: its index joins `completed`, and the
      worker draws the next index, or leaves its loop when none is left. */
  function FinishAt(p: Pool, n: nat, w: nat): (q: Pool)
    requires PoolOk(p, n) && w < |p.busy| && p.busy[w].Some?
    ensures PoolOk(q, n) && |q.busy| == |p.busy|
    ensures q.idx > p.idx || (q.idx == p.idx && BusyCount(q.busy) < BusyCount(p.busy))
  {
    var next: Option<nat> := if p.idx < n then Some(p.idx) else None;
    var q := Pool(p.busy[w := next], if p.idx < n then p.idx + 1 else p.idx, p.completed + [p.busy[w].value]);
    BusyCountUpdate(p.busy, w, next);
    FinishKeeps(p, n, w, q);
    q
  }

  lemma FinishKeeps(p: Pool, n: nat, w: nat, q: Pool)
    requires PoolOk(p, n) && w < |p.busy| && p.busy[w].Some?
    requires q == Pool(p.busy[w := if p.idx < n then Some(p.idx) else None],
                       if p.idx < n then p.idx + 1 else p.idx, p.completed + [p.busy[w].value])
    requires BusyCount(q.busy) == BusyCount(p.busy) - (if p.idx < n then 0 else 1)
    ensures PoolOk(q, n)
  {
    var next: Option<nat> := if p.idx < n then Some(p.idx) else None;
    FinishedStep(p.busy, p.idx, p.completed, w, q.idx);
    InProgressStep(p.busy, p.idx, p.completed, w, next, q.idx);
    AccountedStep(p.busy, p.idx, p.completed, w, next, q.idx);
  }

  lemma FinishedStep(busy: seq<Option<nat>>, idx: nat, completed: seq<nat>, w: nat, idx': nat)
    requires FinishedOnce(completed, idx) && InProgressOnce(busy, idx, completed)
    requires w < |busy| && busy[w].Some? && idx <= idx'
    ensures FinishedOnce(completed + [busy[w].value], idx')
  {
    var c := completed + [busy[w].value];
    forall a, b | 0 <= a < b < |c| ensures c[a] != c[b] {
      if b == |completed| {
        assert c[a] == completed[a];
      }
    }
  }

  lemma InProgressStep(busy: seq<Option<nat>>, idx: nat, completed: seq<nat>, w: nat, next: Option<nat>, idx': nat)
    requires FinishedOnce(completed, idx) && InProgressOnce(busy, idx, completed)
    requires w < |busy| && busy[w].Some?
    requires next == None || (next == Some(idx) && idx' == idx + 1)
    requires idx <= idx'
    ensures InProgressOnce(busy[w := next], idx', completed + [busy[w].value])
  {
  }

  lemma AccountedStep(busy: seq<Option<nat>>, idx: nat, completed: seq<nat>, w: nat, next: Option<nat>, idx': nat)
    requires InProgressOnce(busy, idx, completed) && DrawnAccounted(busy, idx, completed)
    requires w < |busy| && busy[w].Some?
    requires (next == None && idx' == idx) || (next == Some(idx) && idx' == idx + 1)
    ensures DrawnAccounted(busy[w := next], idx', completed + [busy[w].value])
  {
    var i := busy[w].value;
    var busy', completed' := busy[w := next], completed + [i];
    forall k | 0 <= k < idx' && k !in completed' ensures Some(k) in busy' {
      if k == idx {
        assert busy'[w] == Some(k);
      } else {
        assert k !in completed && k != i;
        var v :| 0 <= v < |busy| && busy[v] == Some(k);
        assert v != w && busy'[v] == Some(k);
      }
    }
  }

  /** No entry of `s` exceeds `b`. */
  predicate AtMost(s: seq<nat>, b: nat) {
    forall t :: 0 <= t < |s| ==> s[t] <= b
  }

  lemma AtMostAppend(s: seq<nat>, b: nat, c: nat)
    requires AtMost(s, b) && c <= b
    ensures AtMost(s + [c], b)
  {
  }

  /** Once at least one worker has run and none is busy, every index has
      finished exactly once. */
  lemma Drained(p: Pool, n: nat)
    requires PoolOk(p, n) && |p.busy| > 0 && BusyCount(p.busy) == 0
    ensures NoDuplicates(p.completed) && forall k :: k in p.completed <==> 0 <= k < n
  {
    forall k | 0 <= k < n ensures k in p.completed {
      assert forall v :: 0 <= v < |p.busy| ==> p.busy[v] != Some(k);
      assert Some(k) !in p.busy;
    }
  }

  /** `parallelMap(items, limit, fn)` over `n` items, with `fn`'s calls
      finishing in the order `pick` chooses. A list no longer than the limit
      gets one promise per item, which behaves as `n` workers with one item
      each. A longer list is shared by `limit` workers that draw indices
      from one counter; `idx++` runs without interruption, and a worker
      whose call finishes draws the next index before anyone else runs.
      `Array.from` with a length of zero or less makes no worker, and then
      `fn` is never called. `completed` lists the indices in the order their
      calls finish: each index exactly once, whatever `pick` says. `running`
      is the number of calls in progress once the workers have started and
      after each call finishes: never more than the limit. */
  method ParallelMap(n: nat, limit: int, pick: seq<nat>) returns (completed: seq<nat>, running: seq<nat>)
    ensures n > limit && limit <= 0 ==> completed == []
    ensures n <= limit || limit > 0 ==>
              NoDuplicates(completed) && forall k :: k in completed <==> 0 <= k < n
    ensures |running| >= 1 && running[0] == (if n <= limit then n else if limit > 0 then limit else 0)
    ensures forall t :: 0 <= t < |running| ==> running[t] <= running[0]
    ensures running[|running| - 1] == 0
  {
    var workers: nat := if n <= limit then n else if limit > 0 then limit else 0;
    completed, running := RunPool(n, workers, pick);
  }

  /** `workers` workers share the `n` indices until none is busy. */
  method RunPool(n: nat, workers: nat, pick: seq<nat>) returns (completed: seq<nat>, running: seq<nat>)
    requires workers <= n
    ensures workers == 0 ==> completed == []
    ensures workers > 0 ==> NoDuplicates(completed) && forall k :: k in completed <==> 0 <= k < n
    ensures |running| >= 1 && running[0] == workers && running[|running| - 1] == 0
    ensures AtMost(running, workers)
  {
    var pool := StartWorkers(workers, n);
    running := [BusyCount(pool.busy)];
    var t := 0;
    while BusyCount(pool.busy) > 0
      invariant PoolOk(pool, n) && |pool.busy| == workers
      invariant workers == 0 ==> pool.completed == []
      invariant |running| >= 1 && running[0] == workers && running[|running| - 1] == BusyCount(pool.busy)
      invariant AtMost(running, workers)
      decreases n - pool.idx, BusyCount(pool.busy)
    {
      pool := FinishOne(pool, n, if t < |pick| then pick[t] else 0);
      var c := BusyCount(pool.busy);
      AtMostAppend(running, workers, c);
      running := running + [c];
      t := t + 1;
    }
    completed := pool.completed;
    if workers > 0 {
      Drained(pool, n);
    }
  }

  // ---------------------------------------------------------------------
  // `doScan`

  /** `resolveFolder`'s home directory: `HOME || USERPROFILE || ''`, where an
      empty variable counts as missing. */
  function HomeDir(home: Option<string>, userProfile: Option<string>): (r: string)
    ensures home.Some? && home.value != "" ==> r == home.value
    ensures !(home.Some? && home.value != "") && userProfile.Some? ==> r == userProfile.value
    ensures !(home.Some? && home.value != "") && userProfile.None? ==> r == ""
  {
    if home.Some? && home.value != "" then home.value
    else if userProfile.Some? && userProfile.value != "" then userProfile.value
    else ""
  }

  /** `resolveFolder`: a leading '~' is replaced by joining the home
      directory with the rest. */
  function ResolveFolder(folder: string, home: string): (r: string)
    ensures !StartsWith(folder, "~") ==> r == folder
    ensures StartsWith(folder, "~") ==> r == Join(home, folder[1..])
  {
    if StartsWith(folder, "~") then Join(home, folder[1..]) else folder
  }

  /** Resolving `~/rest` and showing the result home-relative gives back
      `~/rest`. */
  lemma ResolveThenDisplay(folder: string, home: string)
    requires |folder| >= 2 && folder[..2] == "~/" && (|folder| > 2 ==> folder[2] != Sep)
    requires JoinableDir(home) && home != "/"
    ensures PathUtils.DisplayPath(ResolveFolder(folder, home), home) == folder
  {
    var rest := folder[1..];
    assert StartsWith(folder, "~");
    assert TrimTrailingSeps(home) == home;
    assert StripLeadingSeps(rest) == rest[1..] by {
      assert rest[0] == Sep;
      assert StripLeadingSeps(rest) == StripLeadingSeps(rest[1..]);
    }
    var r := ResolveFolder(folder, home);
    assert r == home + "/" + folder[2..];
    assert StartsWith(r, home) by { assert r[..|home|] == home; }
    assert r[|home|..] == "/" + folder[2..];
    assert folder == "~/" + folder[2..];
  }

  /** The order `doScan` sorts by: the name, ascending. */
  const ByName: Sorting.Order := Sorting.Order(Sorting.Name, Sorting.Asc, [], map[])

  /** The configuration derived once per scan. */
  function Config(maxDepth: int, patterns: seq<string>, includeGit: bool): (cfg: ScanConfig)
    ensures cfg.exclude.None? <==> patterns == []
    ensures forall name :: name in cfg.skip <==>
              SimpleName(name) && exists i :: 0 <= i < |patterns| && patterns[i] == DirPattern(name)
  {
    var cfg := ScanConfig(maxDepth, CompileExcludePatterns(patterns), SkipNames(patterns), includeGit);
    forall name ensures name in cfg.skip <==>
      SimpleName(name) && exists i :: 0 <= i < |patterns| && patterns[i] == DirPattern(name)
    {
      SkipNamesExact(patterns, name);
    }
    cfg
  }

  /** The roots one after the other, all sharing one `seen` set. A root the
      file system does not have cannot be listed. */
  function ScanRoots(roots: seq<string>, fs: map<string, FsNode>, cfg: ScanConfig, w: Walk): (r: Walk)
    ensures Extends(w, r)
    ensures r.seen == w.seen + RootCandidates(roots, fs, cfg)
  {
    if roots == [] then
      ExtendsRefl(w);
      w
    else
      var w1 := if roots[0] in fs then ScanDirectory(roots[0], fs[roots[0]], 0, cfg, w) else (ExtendsRefl(w); w);
      var r := ScanRoots(roots[1..], fs, cfg, w1);
      ExtendsTrans(w, w1, r);
      r
  }

  function RootCandidates(roots: seq<string>, fs: map<string, FsNode>, cfg: ScanConfig): set<string> {
    if roots == [] then {}
    else (if roots[0] in fs then Candidates(roots[0], fs[roots[0]], 0, cfg) else {})
         + RootCandidates(roots[1..], fs, cfg)
  }

  function RootRecords(roots: seq<string>, fs: map<string, FsNode>, cfg: ScanConfig): set<WorkspaceEntry> {
    if roots == [] then {}
    else (if roots[0] in fs then Records(roots[0], fs[roots[0]], 0, cfg) else {})
         + RootRecords(roots[1..], fs, cfg)
  }

  /** Every record the roots' walks add is a record of one of the roots. */
  lemma {:induction false} ScanRootsRecords(roots: seq<string>, fs: map<string, FsNode>, cfg: ScanConfig, w: Walk)
    ensures AddsOnly(w, ScanRoots(roots, fs, cfg, w), RootRecords(roots, fs, cfg))
  {
    if roots == [] {
      assert ScanRoots(roots, fs, cfg, w) == w;
    } else {
      var here := if roots[0] in fs then Records(roots[0], fs[roots[0]], 0, cfg) else {};
      var w1 := if roots[0] in fs then ScanDirectory(roots[0], fs[roots[0]], 0, cfg, w) else w;
      if roots[0] in fs {
        ScanDirectoryRecords(roots[0], fs[roots[0]], 0, cfg, w);
      }
      assert AddsOnly(w, w1, here);
      ScanRootsRecords(roots[1..], fs, cfg, w1);
      AddsOnlyTrans(w, w1, ScanRoots(roots[1..], fs, cfg, w1), here, RootRecords(roots[1..], fs, cfg));
    }
  }

  function ResolveAll(folders: seq<string>, home: string): (r: seq<string>)
    ensures |r| == |folders| && forall i :: 0 <= i < |folders| ==> r[i] == ResolveFolder(folders[i], home)
  {
    if folders == [] then [] else [ResolveFolder(folders[0], home)] + ResolveAll(folders[1..], home)
  }

  /** `doScan`: no roots, no records; otherwise every root is walked from
      depth 0 and the records are sorted by name. */
  function DoScan(folders: seq<string>, home: string, fs: map<string, FsNode>,
                  maxDepth: int, patterns: seq<string>, includeGit: bool): (r: seq<WorkspaceEntry>)
    ensures folders == [] ==> r == []
    ensures Sorting.Sorted(ByName, r)
    ensures DistinctPaths(r)
    ensures forall i :: 0 <= i < |r| ==>
              r[i] in RootRecords(ResolveAll(folders, home), fs, Config(maxDepth, patterns, includeGit))
  {
    if folders == [] then []
    else
      var roots := ResolveAll(folders, home);
      var cfg := Config(maxDepth, patterns, includeGit);
      var walk := ScanRoots(roots, fs, cfg, Walk([], {}));
      var r := Sorting.Sort(ByName, walk.entries);
      PermutationKeepsDistinctPaths(walk.entries, r);
      ScanRootsRecords(roots, fs, cfg, Walk([], {}));
      SortedFromRecords(walk.entries, r, RootRecords(roots, fs, cfg));
      r
  }

  lemma SortedFromRecords(es: seq<WorkspaceEntry>, r: seq<WorkspaceEntry>, recs: set<WorkspaceEntry>)
    requires multiset(r) == multiset(es)
    requires forall k :: 0 <= k < |es| ==> es[k] in recs
    ensures forall i :: 0 <= i < |r| ==> r[i] in recs
  {
    forall i | 0 <= i < |r| ensures r[i] in recs {
      assert r[i] in multiset(es);
    }
  }

  /** The scan reports exactly the candidate paths of all roots, each once. */
  lemma DoScanFindsCandidates(folders: seq<string>, home: string, fs: map<string, FsNode>,
                              maxDepth: int, patterns: seq<string>, includeGit: bool, p: string)
    requires folders != []
    ensures var r := DoScan(folders, home, fs, maxDepth, patterns, includeGit);
            (exists i :: 0 <= i < |r| && r[i].filePath == p) <==>
            p in RootCandidates(ResolveAll(folders, home), fs, Config(maxDepth, patterns, includeGit))
  {
    var cfg := Config(maxDepth, patterns, includeGit);
    var walk := ScanRoots(ResolveAll(folders, home), fs, cfg, Walk([], {}));
    var r := DoScan(folders, home, fs, maxDepth, patterns, includeGit);
    assert multiset(r) == multiset(walk.entries);
    assert walk.entries[0..] == walk.entries;
    PathsMembership(walk.entries, p);
    if exists i :: 0 <= i < |r| && r[i].filePath == p {
      var i :| 0 <= i < |r| && r[i].filePath == p;
      assert r[i] in multiset(walk.entries);
    }
    if p in walk.seen {
      var i :| 0 <= i < |walk.entries| && walk.entries[i].filePath == p;
      assert walk.entries[i] in multiset(r);
    }
  }

  lemma CountTwo(s: seq<WorkspaceEntry>, i: nat, j: nat)
    requires i < j < |s| && s[i] == s[j]
    ensures multiset(s)[s[i]] >= 2
  {
    assert s == s[..j] + [s[j]] + s[j + 1..];
    assert s[i] in s[..j];
  }

  lemma TwoPlaces(s: seq<WorkspaceEntry>, x: WorkspaceEntry) returns (i: nat, j: nat)
    requires multiset(s)[x] >= 2
    ensures i < j < |s| && s[i] == x && s[j] == x
  {
    assert x in s;
    var k :| 0 <= k < |s| && s[k] == x;
    i := k;
    while i > 0 && x in s[..i]
      invariant 0 <= i < |s| && s[i] == x
      decreases i
    {
      var m :| 0 <= m < i && s[..i][m] == x;
      i := m;
    }
    assert x !in s[..i];
    assert s == s[..i] + [x] + s[i + 1..];
    assert multiset(s[i + 1..])[x] >= 1;
    var m :| 0 <= m < |s[i + 1..]| && s[i + 1..][m] == x;
    j := i + 1 + m;
  }

  /** Reordering records keeps their paths distinct. */
  lemma PermutationKeepsDistinctPaths(a: seq<WorkspaceEntry>, b: seq<WorkspaceEntry>)
    requires multiset(a) == multiset(b) && DistinctPaths(a)
    ensures DistinctPaths(b)
  {
    forall i, j | 0 <= i < j < |b| ensures b[i].filePath != b[j].filePath {
      if b[i] == b[j] {
        CountTwo(b, i, j);
        var x, y := TwoPlaces(a, b[i]);
      } else {
        assert b[i] in multiset(a) && b[j] in multiset(a);
        var x :| 0 <= x < |a| && a[x] == b[i];
        var y :| 0 <= y < |a| && a[y] == b[j];
        if x < y {
          assert a[x].filePath != a[y].filePath;
        } else {
          assert a[y].filePath != a[x].filePath;
        }
      }
    }
  }

  // ---------------------------------------------------------------------
  // The scan orchestrator

  /** How the shared scan ended: its records, or an error. */
  datatype Outcome = Scanned(entries: seq<WorkspaceEntry>) | Failed

  /** The service: the cache, whether a scan is in flight, how many scans
      were started and how many have settled, and how often
      `onDidChangeWorkspaces` fired. */
  datatype Service = Service(cache: Cache, inFlight: bool, started: nat, settled: nat, changeEvents: nat)

  const Initial: Service := Service(Empty, false, 0, 0, 0)

  /** Every started scan has settled, except the one in flight. */
  predicate Coherent(s: Service) {
    s.started == s.settled + (if s.inFlight then 1 else 0)
  }

  /** `scan()`: join the scan in flight, or start one; the result is the
      number of the scan the caller awaits. */
  function Request(s: Service): (r: (Service, nat))
    ensures r.0.inFlight && r.1 == r.0.started
    ensures s.inFlight ==> r.0 == s
    ensures !s.inFlight ==> r.0.started == s.started + 1
    ensures r.0.cache == s.cache && r.0.settled == s.settled && r.0.changeEvents == s.changeEvents
    ensures Coherent(s) ==> Coherent(r.0)
  {
    if s.inFlight then (s, s.started) else (s.(inFlight := true, started := s.started + 1), s.started + 1)
  }

  /** The `finally` handler: the scan in flight settles, whether it
      succeeded or failed. */
  function Settle(s: Service): (r: Service)
    requires s.inFlight
    ensures !r.inFlight && r.settled == s.settled + 1 && r.started == s.started
    ensures r.cache == s.cache && r.changeEvents == s.changeEvents
    ensures Coherent(s) ==> Coherent(r)
  {
    s.(inFlight := false, settled := s.settled + 1)
  }

  /** `k` callers asking for a scan before it settles. */
  function Burst(s: Service, k: nat): (r: (Service, seq<nat>))
    ensures |r.1| == k
    ensures k > 0 ==> r.0.inFlight && forall i :: 0 <= i < k ==> r.1[i] == r.0.started
    ensures k == 0 || s.inFlight ==> r.0.started == s.started
    ensures k > 0 && !s.inFlight ==> r.0.started == s.started + 1
    ensures r.0.settled == s.settled && r.0.cache == s.cache
    ensures Coherent(s) ==> Coherent(r.0)
    decreases k
  {
    if k == 0 then (s, [])
    else
      var first := Request(s);
      var rest := Burst(first.0, k - 1);
      (rest.0, [first.1] + rest.1)
  }

  /** A scan call or the settling of the scan in flight. */
  datatype ScanEvent = Call | Finish

  function RunEvents(s: Service, evs: seq<ScanEvent>): Service
    decreases |evs|
  {
    if evs == [] then s
    else
      var s1 := match evs[0]
                case Call => Request(s).0
                case Finish => if s.inFlight then Settle(s) else s;
      RunEvents(s1, evs[1..])
  }

  /** Under any interleaving of calls and completions, at most one scan runs
      at a time. */
  lemma {:induction false} AtMostOneScanRunning(s: Service, evs: seq<ScanEvent>)
    requires Coherent(s)
    ensures Coherent(RunEvents(s, evs))
    ensures RunEvents(s, evs).started <= RunEvents(s, evs).settled + 1
    decreases |evs|
  {
    if evs != [] {
      var s1 := match evs[0]
                case Call => Request(s).0
                case Finish => if s.inFlight then Settle(s) else s;
      AtMostOneScanRunning(s1, evs[1..]);
    }
  }

  /** One call of `scan()` awaited to the end, in a sequential run. */
  function ScanToEnd(s: Service): (r: Service)
    ensures !r.inFlight && r.cache == s.cache && r.changeEvents == s.changeEvents
    ensures r.started == s.started + (if s.inFlight then 0 else 1)
    ensures Coherent(s) ==> Coherent(r)
  {
    Settle(Request(s).0)
  }

  /** `getWorkspaces(forceRefresh)`: a held snapshot is returned without a
      scan unless a refresh is forced; otherwise the scan's records are
      stored (stamped `tSet`) and returned. No change event fires. */
  function GetWorkspaces(s: Service, forceRefresh: bool, tGet: int, tSet: int, expirationSeconds: int,
                         outcome: Outcome): (r: (Service, Outcome))
    ensures !forceRefresh && Get(s.cache, tGet, expirationSeconds).0.Some? ==>
              r.1 == Scanned(s.cache.slot.value) && r.0.started == s.started && r.0.inFlight == s.inFlight
    ensures forceRefresh || Get(s.cache, tGet, expirationSeconds).0.None? ==>
              r.1 == outcome && !r.0.inFlight && r.0.started == s.started + (if s.inFlight then 0 else 1)
    ensures (forceRefresh || Get(s.cache, tGet, expirationSeconds).0.None?) && outcome.Scanned? ==>
              r.0.cache.slot == Some(outcome.entries) && r.0.cache.stamp == tSet
    ensures r.0.changeEvents == s.changeEvents && r.0.cache.expireEvents == s.cache.expireEvents
    ensures Coherent(s) ==> Coherent(r.0)
  {
    var looked := if forceRefresh then (None, s.cache) else Get(s.cache, tGet, expirationSeconds);
    if looked.0.Some? then (s.(cache := looked.1), Scanned(looked.0.value))
    else
      var s1 := ScanToEnd(s.(cache := looked.1));
      match outcome
      case Scanned(es) => (s1.(cache := Set(s1.cache, es, tSet)), outcome)
      case Failed => (s1, Failed)
  }

  /** `refresh`: the cache is cleared (silently), a scan runs, and only when
      it succeeds are its records stored and one change event fired. */
  function Refresh(s: Service, tSet: int, outcome: Outcome): (r: (Service, Outcome))
    ensures r.1 == outcome && !r.0.inFlight && r.0.started == s.started + (if s.inFlight then 0 else 1)
    ensures outcome.Scanned? ==> r.0.cache.slot == Some(outcome.entries) && r.0.cache.stamp == tSet
                                 && r.0.changeEvents == s.changeEvents + 1
    ensures outcome.Failed? ==> r.0.cache.slot.None? && r.0.changeEvents == s.changeEvents
    ensures r.0.cache.expireEvents == s.cache.expireEvents
    ensures Coherent(s) ==> Coherent(r.0)
  {
    var s1 := ScanToEnd(s.(cache := Clear(s.cache)));
    match outcome
    case Scanned(es) => (s1.(cache := Set(s1.cache, es, tSet), changeEvents := s1.changeEvents + 1), outcome)
    case Failed => (s1, Failed)
  }

  /** After a successful refresh, reads within the expiry window get the
      refreshed records without scanning again. */
  lemma RefreshThenGet(s: Service, t: int, now: int, tSet: int, expirationSeconds: int, es: seq<WorkspaceEntry>)
    requires expirationSeconds <= 0 || now - t <= expirationSeconds * 1000
    ensures var s1 := Refresh(s, t, Scanned(es)).0;
            var r := GetWorkspaces(s1, false, now, tSet, expirationSeconds, Failed);
            r.1 == Scanned(es) && r.0.started == s1.started
  {
    var s1 := Refresh(s, t, Scanned(es)).0;
    assert s1.cache == Set(s1.cache, es, t);
    FreshnessWindow(s1.cache, es, t, now, expirationSeconds);
  }
}

=== FILE: group_entry.dfy ===
/** A user-defined group of workspace paths and its persisted form. */
module Groups {
  import opened Util

  /** The persisted record. */
  datatype GroupData = GroupData(id: string, name: string, color: Option<string>, workspacePaths: seq<string>)

  /** A live group. The source's copy of `workspacePaths` in the constructor
      is a value copy here: sequences are immutable. */
  datatype Group = Group(id: string, name: string, color: Option<string>, workspacePaths: seq<string>)

  const IdPrefix: string := "group_"

  /** The constructor: a field-by-field copy of the record. */
  function FromData(d: GroupData): (g: Group)
    ensures g.id == d.id && g.name == d.name && g.color == d.color
    ensures g.workspacePaths == d.workspacePaths
  {
    Group(d.id, d.name, d.color, d.workspacePaths)
  }

  /** `toJSON`: the record that is written to storage. */
  function ToJSON(g: Group): (d: GroupData)
    ensures d.id == g.id && d.name == g.name && d.color == g.color
    ensures d.workspacePaths == g.workspacePaths
  {
    GroupData(g.id, g.name, g.color, g.workspacePaths)
  }

  /** Serialising and reading back reproduces the group, and the other way round. */
  lemma JSONRoundTrip(g: Group, d: GroupData)
    ensures FromData(ToJSON(g)) == g
    ensures ToJSON(FromData(d)) == d
  {
  }

  /** `GroupEntry.create`: the clock reading and the random suffix are
      parameters. The id is `group_<stamp>_<suffix>`, the group is empty. */
  function Create(name: string, color: Option<string>, stamp: nat, suffix: string): (g: Group)
    ensures g.name == name && g.color == color && g.workspacePaths == []
    ensures StartsWith(g.id, IdPrefix)
    ensures g.id[|IdPrefix|..] == NatToString(stamp) + "_" + suffix
  {
    FromData(GroupData(IdPrefix + NatToString(stamp) + "_" + suffix, name, color, []))
  }

  /** Groups created at different clock readings get different ids, whatever
      the random suffixes are: the digits end at the first '_'. */
  lemma CreateIdsDiffer(n1: string, c1: Option<string>, s1: nat, r1: string,
                        n2: string, c2: Option<string>, s2: nat, r2: string)
    requires s1 != s2
    ensures Create(n1, c1, s1, r1).id != Create(n2, c2, s2, r2).id
  {
    var a, b := NatToString(s1), NatToString(s2);
    if Create(n1, c1, s1, r1).id == Create(n2, c2, s2, r2).id {
      var t1, t2 := a + "_" + r1, b + "_" + r2;
      assert t1 == t2;
      assert t1[..|a|] == a && t2[..|b|] == b;
      IndexOfAt(t1, '_', |a|);
      IndexOfAt(t2, '_', |b|);
      NatToStringInjective(s1, s2);
    }
  }
}

=== FILE: minimatch.dfy ===
/** The dependency-free glob matcher: a pattern is translated into a
    sequence of tokens (one per construct the source turns into a regular
    expression fragment), and a path matches when it splits into consecutive
    pieces, each accepted by its token. The whole pattern is anchored at
    both ends and compared case-insensitively. */
module Minimatch {
  import opened Util
  import opened NodePath

  /** One construct of the glob language. */
  datatype Token =
    | Lit(c: char)            // any other character, matched literally
    | Star                    // `*`    — within one path segment
    | GlobStar                // `**`   — any characters, '/' included
    | GlobStarSlash           // `**` then '/' — zero or more leading segments
    | AnyChar                 // `?`    — one character other than '/'
    | Alt(terms: seq<string>) // `{a,b}` — one of the literal terms

  // ---------------------------------------------------------------------
  // Characters

  /** The characters JavaScript's `.` refuses to match. */
  predicate IsLineTerminator(c: char) {
    c == '\n' || c == '\r' || c == '\U{2028}' || c == '\U{2029}'
  }

  predicate NoLineTerminator(w: string) {
    forall i :: 0 <= i < |w| ==> !IsLineTerminator(w[i])
  }

  /** Case folding for the `i` flag (ASCII letters). */
  function Fold(c: char): (r: char)
    ensures r == c || ('A' <= c <= 'Z' && 'a' <= r <= 'z')
    ensures !('A' <= r <= 'Z')
  {
    if 'A' <= c <= 'Z' then (c as int + 32) as char else c
  }

  /** Equal up to case. */
  predicate FoldEq(a: string, b: string) {
    |a| == |b| && forall i :: 0 <= i < |a| ==> Fold(a[i]) == Fold(b[i])
  }

  /** `p.replace(/\\/g, '/')`. */
  function NormalizeSeps(p: string): (r: string)
    ensures |r| == |p|
    ensures forall i :: 0 <= i < |p| ==> r[i] == (if p[i] == '\\' then '/' else p[i])
    ensures '\\' !in r
  {
    if p == [] then [] else [if p[0] == '\\' then '/' else p[0]] + NormalizeSeps(p[1..])
  }

  // ---------------------------------------------------------------------
  // Translation

  /** The characters with a glob meaning of their own. */
  predicate IsGlobChar(c: char) {
    c == '*' || c == '?' || c == '{'
  }

  /** One round of the translation loop of `globToRegexString` at position
      `i`: the token emitted and the position the loop continues from. */
  function Step(p: string, i: nat): (r: (Token, nat))
    requires i < |p|
    ensures i < r.1 <= |p|
  {
    if p[i] == '*' then
      if i + 1 < |p| && p[i + 1] == '*' then
        if i + 2 < |p| && p[i + 2] == '/' then (GlobStarSlash, i + 3)
        else (GlobStar, i + 2)
      else (Star, i + 1)
    else if p[i] == '?' then (AnyChar, i + 1)
    else if p[i] == '{' then
      var k := IndexOf(p[i..], '}');
      if k != -1 then (Alt(SplitOn(p[i + 1..i + k], ',')), i + k + 1)
      else (Lit('{'), i + 1)
    else (Lit(p[i]), i + 1)
  }

  /** The whole translation loop, from position `i` on: every round emits
      one token and consumes at least one character, so the rest of the
      pattern yields some token and never more tokens than characters. */
  function Translate(p: string, i: nat): (r: seq<Token>)
    requires i <= |p|
    ensures |r| <= |p| - i
    ensures r == [] <==> i == |p|
    decreases |p| - i
  {
    if i == |p| then [] else [Step(p, i).0] + Translate(p, Step(p, i).1)
  }

  /** A pattern's tokens, after the backslash normalisation every caller applies. */
  function Compile(pattern: string): (r: seq<Token>)
    ensures |r| <= |pattern|
    ensures r == [] <==> pattern == []
  {
    Translate(NormalizeSeps(pattern), 0)
  }

  /** The characters `escapeRegex` protects with a backslash. */
  predicate IsRegexSpecial(c: char) {
    c in ".*+?^${}()|[]\\"
  }

  /** `escapeRegex`: each special character gets a preceding backslash. */
  function EscapeRegex(s: string): (r: string)
    ensures |r| >= |s|
  {
    if s == [] then []
    else (if IsRegexSpecial(s[0]) then ['\\', s[0]] else [s[0]]) + EscapeRegex(s[1..])
  }

  /** Reading an escaped string back: a backslash stands for the character after it. */
  function UnescapeRegex(r: string): string {
    if r == [] then []
    else if r[0] == '\\' && |r| >= 2 then [r[1]] + UnescapeRegex(r[2..])
    else [r[0]] + UnescapeRegex(r[1..])
  }

  /** Escaping loses nothing: the regular expression denotes the text itself. */
  lemma {:induction false} EscapeRoundTrip(s: string)
    ensures UnescapeRegex(EscapeRegex(s)) == s
  {
    if s != [] {
      var e := EscapeRegex(s);
      var head := if IsRegexSpecial(s[0]) then ['\\', s[0]] else [s[0]];
      assert e == head + EscapeRegex(s[1..]);
      if IsRegexSpecial(s[0]) {
        assert e[2..] == EscapeRegex(s[1..]);
      } else {
        assert s[0] != '\\';
        assert e[1..] == EscapeRegex(s[1..]);
      }
      EscapeRoundTrip(s[1..]);
    }
  }

  /** No special character of the escaped text stands unprotected. */
  predicate FullyEscaped(r: string) {
    r == [] ||
    (r[0] == '\\' && |r| >= 2 && IsRegexSpecial(r[1]) && FullyEscaped(r[2..])) ||
    (!IsRegexSpecial(r[0]) && FullyEscaped(r[1..]))
  }

  lemma {:induction false} EscapeProtectsSpecials(s: string)
    ensures FullyEscaped(EscapeRegex(s))
  {
    if s != [] {
      var e := EscapeRegex(s);
      EscapeProtectsSpecials(s[1..]);
      if IsRegexSpecial(s[0]) {
        assert e[2..] == EscapeRegex(s[1..]);
      } else {
        assert e[1..] == EscapeRegex(s[1..]);
      }
    }
  }

  // ---------------------------------------------------------------------
  // Matching

  /** Does token `t` match exactly the text `w`? */
  predicate TokenAccepts(t: Token, w: string) {
    match t
    case Lit(c) => |w| == 1 && Fold(w[0]) == Fold(c)
    case AnyChar => |w| == 1 && w[0] != Sep
    case Star => Sep !in w
    case GlobStar => NoLineTerminator(w)
    case GlobStarSlash => w == [] || (w[|w| - 1] == Sep && NoLineTerminator(w[..|w| - 1]))
    case Alt(terms) => exists j :: 0 <= j < |terms| && FoldEq(terms[j], w)
  }

  /** The anchored match: `s` splits into consecutive pieces, one per token. */
  predicate Matches(toks: seq<Token>, s: string)
    decreases |toks|
  {
    if toks == [] then s == []
    else exists k :: 0 <= k <= |s| && TokenAccepts(toks[0], s[..k]) && Matches(toks[1..], s[k..])
  }

  /** `minimatch(filePath, pattern)`, without its cache. */
  predicate Minimatch(path: string, pattern: string) {
    Matches(Compile(pattern), NormalizeSeps(path))
  }

  /** The compiled pattern cache of `minimatch`, keyed by the raw pattern. */
  type RegexCache = map<string, seq<Token>>

  predicate CacheSound(cache: RegexCache) {
    forall p :: p in cache ==> cache[p] == Compile(p)
  }

  /** `minimatch` with its cache: a hit reuses, a miss compiles and stores. */
  function MinimatchCached(cache: RegexCache, path: string, pattern: string): (r: (bool, RegexCache))
    requires CacheSound(cache)
    ensures r.0 == Minimatch(path, pattern)
    ensures CacheSound(r.1) && pattern in r.1
    ensures cache.Keys <= r.1.Keys
  {
    var toks := if pattern in cache then cache[pattern] else Compile(pattern);
    var cache' := if pattern in cache then cache else cache[pattern := toks];
    (Matches(toks, NormalizeSeps(path)), cache')
  }

  /** `compileExcludePatterns`: no patterns compile to nothing (`null`);
      otherwise one token sequence per pattern, in order. */
  function CompileExcludePatterns(patterns: seq<string>): (r: Option<seq<seq<Token>>>)
    ensures r.None? <==> patterns == []
    ensures r.Some? ==> |r.value| == |patterns|
    ensures r.Some? ==> forall i :: 0 <= i < |patterns| ==> r.value[i] == Compile(patterns[i])
  {
    if patterns == [] then None else Some(seq(|patterns|, i requires 0 <= i < |patterns| => Compile(patterns[i])))
  }

  /** `isExcludedByCompiledRegex`: the combined alternation accepts the
      normalised path when one of its members does. */
  predicate IsExcluded(path: string, compiled: Option<seq<seq<Token>>>) {
    match compiled
    case None => false
    case Some(parts) => exists i :: 0 <= i < |parts| && Matches(parts[i], NormalizeSeps(path))
  }

  /** The combined matcher excludes a path iff some single pattern matches it;
      an empty pattern list excludes nothing. */
  lemma CombinedIsDisjunction(patterns: seq<string>, path: string)
    ensures IsExcluded(path, CompileExcludePatterns(patterns)) <==>
            exists i :: 0 <= i < |patterns| && Minimatch(path, patterns[i])
  {
    var c := CompileExcludePatterns(patterns);
    if patterns != [] {
      if IsExcluded(path, c) {
        var i :| 0 <= i < |c.value| && Matches(c.value[i], NormalizeSeps(path));
        assert Minimatch(path, patterns[i]);
      }
      if exists i :: 0 <= i < |patterns| && Minimatch(path, patterns[i]) {
        var i :| 0 <= i < |patterns| && Minimatch(path, patterns[i]);
        assert Matches(c.value[i], NormalizeSeps(path));
      }
    }
  }

  // ---------------------------------------------------------------------
  // Properties of the token language

  /** The tokens of a plain string: one literal per character. */
  function Lits(w: string): (r: seq<Token>)
    ensures |r| == |w|
    ensures forall i :: 0 <= i < |w| ==> r[i] == Lit(w[i])
  {
    if w == [] then [] else [Lit(w[0])] + Lits(w[1..])
  }

  /** Matching a concatenation of token sequences is matching the parts on
      consecutive pieces of the text. */
  lemma MatchesConcat(a: seq<Token>, b: seq<Token>, s: string)
    ensures Matches(a + b, s) <==> exists k :: 0 <= k <= |s| && Matches(a, s[..k]) && Matches(b, s[k..])
  {
    if Matches(a + b, s) {
      var k := ConcatSplit(a, b, s);
    }
    if exists k :: 0 <= k <= |s| && Matches(a, s[..k]) && Matches(b, s[k..]) {
      var k :| 0 <= k <= |s| && Matches(a, s[..k]) && Matches(b, s[k..]);
      ConcatJoin(a, b, s, k);
    }
  }

  /** Unfolding one step of `Matches`: the piece the first token takes. */
  lemma Uncons(toks: seq<Token>, s: string) returns (m: nat)
    requires toks != [] && Matches(toks, s)
    ensures m <= |s| && TokenAccepts(toks[0], s[..m]) && Matches(toks[1..], s[m..])
  {
    m :| 0 <= m <= |s| && TokenAccepts(toks[0], s[..m]) && Matches(toks[1..], s[m..]);
  }

  /** Folding one step of `Matches`. */
  lemma Cons(toks: seq<Token>, s: string, m: nat)
    requires toks != [] && m <= |s| && TokenAccepts(toks[0], s[..m]) && Matches(toks[1..], s[m..])
    ensures Matches(toks, s)
  {
  }

  lemma {:induction false} ConcatSplit(a: seq<Token>, b: seq<Token>, s: string) returns (k: nat)
    requires Matches(a + b, s)
    ensures k <= |s| && Matches(a, s[..k]) && Matches(b, s[k..])
    decreases |a|
  {
    if a == [] {
      assert a + b == b;
      k := 0;
      assert s[0..] == s;
    } else {
      var m := UnconsConcat(a, b, s);
      var k' := ConcatSplit(a[1..], b, s[m..]);
      k := m + k';
      ConsPrefix(a, s, m, k);
      NestedSlices(s, m, k);
    }
  }

  lemma UnconsConcat(a: seq<Token>, b: seq<Token>, s: string) returns (m: nat)
    requires a != [] && Matches(a + b, s)
    ensures m <= |s| && TokenAccepts(a[0], s[..m]) && Matches(a[1..] + b, s[m..])
  {
    assert (a + b)[0] == a[0] && (a + b)[1..] == a[1..] + b;
    m := Uncons(a + b, s);
  }

  lemma ConsPrefix(a: seq<Token>, s: string, m: nat, k: nat)
    requires a != [] && m <= k <= |s|
    requires TokenAccepts(a[0], s[..m]) && Matches(a[1..], s[m..][..k - m])
    ensures Matches(a, s[..k])
  {
    NestedSlices(s, m, k);
    Cons(a, s[..k], m);
  }

  lemma {:induction false} ConcatJoin(a: seq<Token>, b: seq<Token>, s: string, k: nat)
    requires k <= |s| && Matches(a, s[..k]) && Matches(b, s[k..])
    ensures Matches(a + b, s)
    decreases |a|
  {
    if a == [] {
      assert a + b == b;
      assert s[..k] == [];
      assert s[k..] == s;
    } else {
      assert (a + b)[0] == a[0] && (a + b)[1..] == a[1..] + b;
      var m := Uncons(a, s[..k]);
      NestedSlices(s, m, k);
      ConcatJoin(a[1..], b, s[m..], k - m);
      Cons(a + b, s, m);
    }
  }

  lemma NestedSlices(s: string, m: nat, k: nat)
    requires m <= k <= |s|
    ensures s[..k][..m] == s[..m]
    ensures s[..k][m..] == s[m..][..k - m]
    ensures s[m..][k - m..] == s[k..]
  {
  }

  /** A plain string matches exactly the texts equal to it up to case. */
  lemma {:induction false} LitsMatch(w: string, s: string)
    ensures Matches(Lits(w), s) <==> FoldEq(w, s)
  {
    if w == [] {
    } else {
      var toks := Lits(w);
      assert toks[0] == Lit(w[0]) && toks[1..] == Lits(w[1..]);
      if Matches(toks, s) {
        var k :| 0 <= k <= |s| && TokenAccepts(toks[0], s[..k]) && Matches(toks[1..], s[k..]);
        assert k == 1;
        LitsMatch(w[1..], s[k..]);
        assert FoldEq(w, s) by {
          forall i | 0 <= i < |w| ensures Fold(w[i]) == Fold(s[i]) {
            if i > 0 {
              assert w[i] == w[1..][i - 1];
              assert s[i] == s[1..][i - 1];
            } else {
              assert s[0] == s[..1][0];
            }
          }
        }
      }
      if FoldEq(w, s) {
        LitsMatch(w[1..], s[1..]);
        assert s[..1][0] == s[0];
        assert TokenAccepts(toks[0], s[..1]);
        assert FoldEq(w[1..], s[1..]) by {
          forall i | 0 <= i < |w| - 1 ensures Fold(w[1..][i]) == Fold(s[1..][i]) {
            assert w[1..][i] == w[i + 1] && s[1..][i] == s[i + 1];
          }
        }
        assert Matches(toks, s);
      }
    }
  }

  /** A single token sequence matches what its one token accepts. */
  lemma SingleToken(t: Token, s: string)
    ensures Matches([t], s) <==> TokenAccepts(t, s)
  {
    if TokenAccepts(t, s) {
      assert s[..|s|] == s;
      assert Matches([t][1..], s[|s|..]);
    }
    if Matches([t], s) {
      var k :| 0 <= k <= |s| && TokenAccepts([t][0], s[..k]) && Matches([t][1..], s[k..]);
      assert [t][1..] == [];
      assert k == |s| && s[..k] == s;
    }
  }

  /** `*` alone matches exactly the texts that do not contain '/'. */
  lemma StarStaysInSegment(s: string)
    ensures Minimatch(s, "*") <==> Sep !in NormalizeSeps(s)
  {
    assert Compile("*") == [Star] by {
      assert NormalizeSeps("*") == "*";
    }
    SingleToken(Star, NormalizeSeps(s));
  }

  /** `?` alone matches exactly one character other than '/'. */
  lemma QuestionIsOneChar(s: string)
    ensures Minimatch(s, "?") <==> |s| == 1 && NormalizeSeps(s)[0] != Sep
  {
    assert Compile("?") == [AnyChar] by {
      assert NormalizeSeps("?") == "?";
    }
    SingleToken(AnyChar, NormalizeSeps(s));
  }

  /** A bare `**` matches any text, '/' included (but not a line break). */
  lemma GlobStarCrossesSegments(s: string)
    ensures Minimatch(s, "**") <==> NoLineTerminator(NormalizeSeps(s))
  {
    assert Compile("**") == [GlobStar] by {
      assert NormalizeSeps("**") == "**";
    }
    SingleToken(GlobStar, NormalizeSeps(s));
  }

  /** Text without glob characters translates to plain literals. */
  lemma {:induction false} TranslatePlain(p: string, i: nat, j: nat)
    requires i <= j <= |p|
    requires forall m :: i <= m < j ==> !IsGlobChar(p[m])
    ensures Translate(p, i) == Lits(p[i..j]) + Translate(p, j)
    decreases j - i
  {
    if i < j {
      TranslatePlain(p, i + 1, j);
      TranslateLiteral(p, i);
      LitsCons(p, i, j);
      AppendAssoc([Lit(p[i])], Lits(p[i + 1..j]), Translate(p, j));
    }
  }

  lemma TranslateLiteral(p: string, i: nat)
    requires i < |p| && !IsGlobChar(p[i])
    ensures Translate(p, i) == [Lit(p[i])] + Translate(p, i + 1)
  {
    StepPlain(p, i);
  }

  lemma StepPlain(p: string, i: nat)
    requires i < |p| && !IsGlobChar(p[i])
    ensures Step(p, i) == (Lit(p[i]), i + 1)
  {
  }

  lemma AppendAssoc<T>(a: seq<T>, b: seq<T>, c: seq<T>)
    ensures a + (b + c) == (a + b) + c
  {
  }

  lemma LitsCons(p: string, i: nat, j: nat)
    requires i < j <= |p|
    ensures Lits(p[i..j]) == [Lit(p[i])] + Lits(p[i + 1..j])
  {
    assert p[i..j][0] == p[i] && p[i..j][1..] == p[i + 1..j];
  }

  /** Every other character is matched literally: a pattern without glob
      characters matches exactly the texts equal to it up to case. */
  lemma PlainPatternIsLiteral(pattern: string, path: string)
    requires forall m :: 0 <= m < |pattern| ==> !IsGlobChar(pattern[m])
    ensures Minimatch(path, pattern) <==> FoldEq(NormalizeSeps(pattern), NormalizeSeps(path))
  {
    var p := NormalizeSeps(pattern);
    TranslatePlain(p, 0, |p|);
    assert p[0..|p|] == p;
    assert Translate(p, |p|) == [];
    assert Lits(p) + [] == Lits(p);
    LitsMatch(p, NormalizeSeps(path));
  }

  /** An unterminated `{` is an ordinary character, and translation goes on. */
  lemma UnterminatedBraceIsLiteral(p: string, i: nat)
    requires i < |p| && p[i] == '{' && '}' !in p[i..]
    ensures Translate(p, i) == [Lit('{')] + Translate(p, i + 1)
  {
  }

  /** A terminated `{...}` becomes one alternation of its comma-split terms. */
  lemma BraceIsAlternation(p: string, i: nat, end: nat)
    requires i < end < |p| && p[i] == '{' && p[end] == '}' && '}' !in p[i..end]
    ensures Translate(p, i) == [Alt(SplitOn(p[i + 1..end], ','))] + Translate(p, end + 1)
  {
    StepBrace(p, i, end);
  }

  lemma StepBrace(p: string, i: nat, end: nat)
    requires i < end < |p| && p[i] == '{' && p[end] == '}' && '}' !in p[i..end]
    ensures Step(p, i) == (Alt(SplitOn(p[i + 1..end], ',')), end + 1)
  {
    BraceEnd(p, i, end);
  }

  lemma BraceEnd(p: string, i: nat, end: nat)
    requires i < end < |p| && p[end] == '}' && '}' !in p[i..end]
    ensures IndexOf(p[i..], '}') == end - i
  {
    assert p[i..][..end - i] == p[i..end];
    IndexOfAt(p[i..], '}', end - i);
  }

  /** An alternation accepts exactly one of its terms, whichever matches. */
  lemma AlternationPicksATerm(terms: seq<string>, s: string)
    ensures Matches([Alt(terms)], s) <==> exists j :: 0 <= j < |terms| && FoldEq(terms[j], s)
  {
    SingleToken(Alt(terms), s);
  }

  lemma NormalizeKeeps(p: string)
    requires '\\' !in p
    ensures NormalizeSeps(p) == p
  {
  }

  /** A name usable in a `**` `/NAME/` `**` pattern: no glob character, no backslash. */
  predicate PlainName(name: string) {
    forall m :: 0 <= m < |name| ==> !IsGlobChar(name[m]) && name[m] != '\\'
  }

  function DirPattern(name: string): string {
    "**/" + name + "/**"
  }

  lemma DirPatternChars(name: string)
    requires PlainName(name)
    ensures var p := DirPattern(name);
      && NormalizeSeps(p) == p
      && p[3..|p| - 2] == name + "/"
      && (forall m :: 3 <= m < |p| - 2 ==> !IsGlobChar(p[m]))
      && p[..3] == "**/" && p[|p| - 2..] == "**"
  {
    var p := DirPattern(name);
    assert forall m :: 3 <= m < |p| - 3 ==> p[m] == name[m - 3];
    NormalizeKeeps(p);
  }

  lemma TranslateDirHead(p: string)
    requires |p| >= 3 && p[..3] == "**/"
    ensures Translate(p, 0) == [GlobStarSlash] + Translate(p, 3)
  {
    assert p[0] == '*' && p[1] == '*' && p[2] == '/';
    assert Step(p, 0) == (GlobStarSlash, 3);
  }

  lemma TranslateDirTail(p: string)
    requires |p| >= 2 && p[|p| - 2..] == "**"
    ensures Translate(p, |p| - 2) == [GlobStar]
  {
    assert p[|p| - 2] == '*' && p[|p| - 1] == '*';
    assert Step(p, |p| - 2) == (GlobStar, |p|);
  }

  // The tokens of a `**/NAME/**` pattern whose NAME holds no glob character.
  lemma DirPatternTokens(name: string)
    requires PlainName(name)
    ensures Compile(DirPattern(name)) == [GlobStarSlash] + Lits(name + "/") + [GlobStar]
  {
    var p := DirPattern(name);
    DirPatternChars(name);
    TranslateDirHead(p);
    TranslatePlain(p, 3, |p| - 2);
    TranslateDirTail(p);
  }

  /** `**` `/NAME/` `**` matches text `s` with NAME + "/" found at position `k`:
      what precedes is empty or ends in '/', and no line break follows. */
  predicate DirMatchAt(name: string, s: string, k: int) {
    var w := name + "/";
    && 0 <= k <= |s| - |w|
    && TokenAccepts(GlobStarSlash, s[..k])
    && FoldEq(w, s[k..k + |w|])
    && NoLineTerminator(s[k + |w|..])
  }

  // `**/NAME/**` matches a path iff NAME, followed by '/', starts the path
  // or follows a '/', and no line break follows it.
  lemma {:induction false} DirPatternSemantics(name: string, path: string)
    requires PlainName(name)
    ensures Minimatch(path, DirPattern(name)) ==> exists k :: DirMatchAt(name, NormalizeSeps(path), k)
    ensures (exists k :: DirMatchAt(name, NormalizeSeps(path), k)) ==> Minimatch(path, DirPattern(name))
  {
    if Minimatch(path, DirPattern(name)) {
      var k := DirPatternFind(name, path);
    }
    if exists k :: DirMatchAt(name, NormalizeSeps(path), k) {
      var k :| DirMatchAt(name, NormalizeSeps(path), k);
      DirPatternAccept(name, path, k);
    }
  }

  lemma DirPatternFind(name: string, path: string) returns (k: int)
    requires PlainName(name) && Minimatch(path, DirPattern(name))
    ensures DirMatchAt(name, NormalizeSeps(path), k)
  {
    var s := NormalizeSeps(path);
    var w := name + "/";
    var tail := Lits(w) + [GlobStar];
    var toks := [GlobStarSlash] + tail;
    DirPatternTokens(name);
    assert Compile(DirPattern(name)) == toks;
    k := Uncons(toks, s);
    assert toks[1..] == tail;
    NameThenAnything(w, s[k..]);
    DirMatchFromParts(name, s, k);
  }

  lemma DirMatchFromParts(name: string, s: string, k: nat)
    requires k <= |s| && TokenAccepts(GlobStarSlash, s[..k])
    requires var w := name + "/";
             |w| <= |s[k..]| && FoldEq(w, s[k..][..|w|]) && NoLineTerminator(s[k..][|w|..])
    ensures DirMatchAt(name, s, k)
  {
    TailSlices(s, k, |name + "/"|);
  }

  /** What `NAME/` followed by `**` accepts: the name up to case, then
      anything without a line break. */
  lemma NameThenAnything(w: string, rest: string)
    requires Matches(Lits(w) + [GlobStar], rest)
    ensures |w| <= |rest| && FoldEq(w, rest[..|w|]) && NoLineTerminator(rest[|w|..])
  {
    var m := SplitNameStar(w, rest);
    FoldedLength(w, rest, m);
  }

  lemma FoldedLength(w: string, rest: string, m: nat)
    requires m <= |rest| && FoldEq(w, rest[..m]) && NoLineTerminator(rest[m..])
    ensures |w| <= |rest| && FoldEq(w, rest[..|w|]) && NoLineTerminator(rest[|w|..])
  {
  }

  lemma SplitNameStar(w: string, rest: string) returns (m: nat)
    requires Matches(Lits(w) + [GlobStar], rest)
    ensures m <= |rest| && FoldEq(w, rest[..m]) && NoLineTerminator(rest[m..])
  {
    m := ConcatSplit(Lits(w), [GlobStar], rest);
    LitsMatch(w, rest[..m]);
    GlobStarAccepts(rest[m..]);
  }

  lemma GlobStarAccepts(x: string)
    requires Matches([GlobStar], x)
    ensures NoLineTerminator(x)
  {
    SingleToken(GlobStar, x);
  }

  lemma TailSlices(s: string, k: nat, m: nat)
    requires k + m <= |s|
    ensures s[k..][..m] == s[k..k + m]
    ensures s[k..][m..] == s[k + m..]
  {
  }

  lemma DirPatternAccept(name: string, path: string, k: int)
    requires PlainName(name) && DirMatchAt(name, NormalizeSeps(path), k)
    ensures Minimatch(path, DirPattern(name))
  {
    var s := NormalizeSeps(path);
    var w := name + "/";
    var tail := Lits(w) + [GlobStar];
    var toks := [GlobStarSlash] + tail;
    DirPatternTokens(name);
    assert Compile(DirPattern(name)) == toks;
    TailSlices(s, k, |w|);
    LitsMatch(w, s[k..][..|w|]);
    SingleToken(GlobStar, s[k..][|w|..]);
    ConcatJoin(Lits(w), [GlobStar], s[k..], |w|);
    assert toks[1..] == tail;
    Cons(toks, s, k);
  }

  /** Matching ignores letter case in the text. */
  lemma {:induction false} MatchesIgnoresCase(toks: seq<Token>, s: string, s': string)
    requires FoldEq(s, s')
    ensures Matches(toks, s) <==> Matches(toks, s')
    decreases |toks|
  {
    if toks != [] {
      if Matches(toks, s) {
        var k :| 0 <= k <= |s| && TokenAccepts(toks[0], s[..k]) && Matches(toks[1..], s[k..]);
        TokenIgnoresCase(toks[0], s[..k], s'[..k]);
        MatchesIgnoresCase(toks[1..], s[k..], s'[k..]);
        assert TokenAccepts(toks[0], s'[..k]) && Matches(toks[1..], s'[k..]);
      }
      if Matches(toks, s') {
        var k :| 0 <= k <= |s'| && TokenAccepts(toks[0], s'[..k]) && Matches(toks[1..], s'[k..]);
        TokenIgnoresCase(toks[0], s[..k], s'[..k]);
        MatchesIgnoresCase(toks[1..], s[k..], s'[k..]);
        assert TokenAccepts(toks[0], s[..k]) && Matches(toks[1..], s[k..]);
      }
    }
  }

  lemma FoldKeepsSpecials(c: char, d: char)
    requires Fold(c) == Fold(d)
    ensures c == Sep <==> d == Sep
    ensures IsLineTerminator(c) <==> IsLineTerminator(d)
  {
  }

  lemma TokenIgnoresCase(t: Token, w: string, w': string)
    requires FoldEq(w, w')
    ensures TokenAccepts(t, w) <==> TokenAccepts(t, w')
  {
    forall i | 0 <= i < |w| ensures (w[i] == Sep <==> w'[i] == Sep) && (IsLineTerminator(w[i]) <==> IsLineTerminator(w'[i])) {
      FoldKeepsSpecials(w[i], w'[i]);
    }
    match t
    case Star =>
      if Sep in w {
        var i :| 0 <= i < |w| && w[i] == Sep;
        assert w'[i] == Sep;
      }
      if Sep in w' {
        var i :| 0 <= i < |w'| && w'[i] == Sep;
        assert w[i] == Sep;
      }
    case Alt(terms) =>
      if TokenAccepts(t, w) {
        var j :| 0 <= j < |terms| && FoldEq(terms[j], w);
        assert FoldEq(terms[j], w');
      }
      if TokenAccepts(t, w') {
        var j :| 0 <= j < |terms| && FoldEq(terms[j], w');
        assert FoldEq(terms[j], w);
      }
    case GlobStarSlash =>
      if w != [] {
        assert w[..|w| - 1] == w[..|w| - 1];
        assert forall i :: 0 <= i < |w| - 1 ==> w[..|w| - 1][i] == w[i] && w'[..|w'| - 1][i] == w'[i];
      }
    case _ =>
  }

  /** Backslashes in the path are read as separators: normalising first
      changes nothing. */
  lemma NormalizeIdempotent(p: string)
    ensures NormalizeSeps(NormalizeSeps(p)) == NormalizeSeps(p)
  {
  }

  lemma MinimatchNormalizesPath(path: string, pattern: string)
    ensures Minimatch(path, pattern) == Minimatch(NormalizeSeps(path), pattern)
  {
    NormalizeIdempotent(path);
  }
}

=== FILE: node_path.dfy ===
/** The parts of Node's POSIX `path` module the extension relies on
    (`join`, `dirname`, `basename`, `extname`, `relative`, `split(path.sep)`),
    over '/'-separated strings. `.` and `..` segments are kept as written:
    `path.normalize`'s resolution of them is not modelled. */
module NodePath {
  import opened Util

  const Sep: char := '/'

  /** Position of the last `c` in `s`, or -1. */
  function LastIndexOf(s: string, c: char): (r: int)
    ensures -1 <= r < |s|
    ensures 0 <= r ==> s[r] == c
    ensures forall m :: r < m < |s| ==> s[m] != c
    ensures r == -1 <==> c !in s
  {
    LastIndexBefore(s, c, |s|)
  }

  /** Position of the last `c` in `s[..n]`, or -1. */
  function LastIndexBefore(s: string, c: char, n: nat): (r: int)
    requires n <= |s|
    ensures -1 <= r < n
    ensures 0 <= r ==> s[r] == c
    ensures forall m :: r < m < n ==> s[m] != c
  {
    if n == 0 then -1 else if s[n - 1] == c then n - 1 else LastIndexBefore(s, c, n - 1)
  }

  /** Drop trailing separators, but never reduce a non-empty path below one character. */
  function StripTrailingSeps(p: string): (r: string)
    ensures |r| <= |p|
    ensures r == p[..|r|]
    ensures p != [] ==> r != []
    ensures |r| > 1 ==> r[|r| - 1] != Sep
  {
    if |p| > 1 && p[|p| - 1] == Sep then StripTrailingSeps(p[..|p| - 1]) else p
  }

  /** Drop every leading separator. */
  function StripLeadingSeps(p: string): (r: string)
    ensures |r| <= |p|
    ensures r != [] ==> r[0] != Sep
  {
    if p != [] && p[0] == Sep then StripLeadingSeps(p[1..]) else p
  }

  /** Drop every trailing separator (so "/" becomes ""). */
  function TrimTrailingSeps(p: string): (r: string)
    ensures |r| <= |p|
    ensures r != [] ==> r[|r| - 1] != Sep
  {
    if p != [] && p[|p| - 1] == Sep then TrimTrailingSeps(p[..|p| - 1]) else p
  }

  /** `path.basename(p)`: the last non-empty component, trailing separators ignored. */
  function Basename(p: string): (r: string)
    ensures Sep !in r
  {
    var q := StripTrailingSeps(p);
    var k := LastIndexOf(q, Sep);
    q[k + 1..]
  }

  /** `path.basename(p, ext)`: the base name with `ext` cut off its end,
      except that a base name equal to `ext` is kept whole, and a whole
      path equal to `ext` gives "". */
  function BasenameWithout(p: string, ext: string): (r: string)
    ensures ext == "" ==> r == Basename(p)
    ensures ext != "" && p != ext && EndsWith(Basename(p), ext) && |Basename(p)| > |ext| ==>
              r + ext == Basename(p)
    ensures p != ext && !(EndsWith(Basename(p), ext) && |Basename(p)| > |ext|) ==> r == Basename(p)
    ensures Sep !in r
  {
    var b := Basename(p);
    if ext != "" && p == ext then ""
    else if ext != "" && EndsWith(b, ext) && |b| > |ext| then
      assert forall i :: 0 <= i < |b| - |ext| ==> b[..|b| - |ext|][i] == b[i];
      b[..|b| - |ext|]
    else b
  }

  /** `path.extname(p)`: from the last '.' of the base name, unless that dot
      starts the name (".bashrc") or the name is "..". */
  function Extname(p: string): (r: string)
    ensures r == "" || (r[0] == '.' && Sep !in r && EndsWith(Basename(p), r) && |r| < |Basename(p)|)
  {
    var b := Basename(p);
    var k := LastIndexOf(b, '.');
    if k <= 0 || b == ".." then ""
    else
      var r := b[k..];
      assert r[0] == '.' && b[|b| - |r|..] == r;
      assert Sep !in r by {
        forall m | 0 <= m < |r| ensures r[m] != Sep {
          assert r[m] == b[k + m];
        }
      }
      r
  }

  /** The index Node's `dirname` cuts at: scanning down from `i`, the first
      separator met after at least one non-separator; -1 when there is none
      at index 1 or above. */
  function DirnameEnd(p: string, i: int, matchedSep: bool): (r: int)
    requires -1 <= i < |p|
    ensures -1 <= r <= i
    ensures r == -1 || r >= 1
    ensures r >= 1 ==> p[r] == Sep
    decreases i + 1
  {
    if i < 1 then -1
    else if p[i] == Sep then (if !matchedSep then i else DirnameEnd(p, i - 1, true))
    else DirnameEnd(p, i - 1, false)
  }

  /** `path.dirname(p)`. */
  function Dirname(p: string): (r: string)
    ensures r != ""
  {
    if p == "" then "."
    else
      var end := DirnameEnd(p, |p| - 1, true);
      if end == -1 then (if p[0] == Sep then "/" else ".")
      else if p[0] == Sep && end == 1 then "//"
      else p[..end]
  }

  /** `path.join(a, b)`: the two parts meet at exactly one separator; an
      empty part is skipped and two empty parts give ".". */
  function Join(a: string, b: string): (r: string)
    ensures r != ""
  {
    if b == "" then (if a == "" then "." else a)
    else if a == "" then b
    else TrimTrailingSeps(a) + [Sep] + StripLeadingSeps(b)
  }

  /** A path that `Join` leaves as it is when appending a name: not empty
      and without a trailing separator, unless it is the root itself. */
  predicate JoinableDir(d: string) {
    d != "" && (d == "/" || d[|d| - 1] != Sep)
  }

  /** A single path component. */
  predicate IsName(n: string) {
    n != "" && Sep !in n
  }

  lemma JoinName(d: string, n: string)
    requires JoinableDir(d) && IsName(n)
    ensures Join(d, n) == (if d == "/" then "/" + n else d + "/" + n)
  {
    if d == "/" {
      assert TrimTrailingSeps("/") == TrimTrailingSeps("");
    } else {
      assert TrimTrailingSeps(d) == d;
    }
    NameChar(n, 0);
    assert StripLeadingSeps(n) == n;
  }

  lemma NameChar(n: string, i: int)
    requires IsName(n) && 0 <= i < |n|
    ensures n[i] != Sep
  {
    assert n[i] in n;
  }

  /** `join(dir, NAME)` is some prefix, one separator, then NAME; the prefix
      is `dir` itself unless `dir` is the root. */
  lemma JoinParts(d: string, n: string)
    requires JoinableDir(d) && IsName(n)
    ensures var p := Join(d, n); var j := |p| - |n| - 1;
            0 <= j && p[j] == Sep && p[j + 1..] == n
            && (forall m :: j < m < |p| ==> p[m] != Sep)
            && (d == "/" <==> j == 0)
            && (d != "/" ==> p[..j] == d)
  {
    JoinName(d, n);
    var p := Join(d, n);
    var j := |p| - |n| - 1;
    forall m | j < m < |p| ensures p[m] != Sep {
      assert p[m] == n[m - j - 1];
      NameChar(n, m - j - 1);
    }
  }

  /** Joining a name onto a directory and taking the base name gives the name back. */
  lemma {:induction false} BasenameOfJoin(d: string, n: string)
    requires JoinableDir(d) && IsName(n)
    ensures Basename(Join(d, n)) == n
  {
    JoinParts(d, n);
    var p := Join(d, n);
    var j := |p| - |n| - 1;
    assert StripTrailingSeps(p) == p;
    assert LastIndexOf(p, Sep) == j;
  }

  lemma {:induction false} DirnameEndSkipsName(p: string, start: nat, i: int)
    requires start < |p| && start <= i < |p|
    requires forall m :: start <= m < |p| ==> p[m] != Sep
    ensures DirnameEnd(p, i, false) == DirnameEnd(p, start - 1, false) || (start == 0 && DirnameEnd(p, i, false) == -1)
    decreases i
  {
    if i < 1 {
    } else if i == start {
    } else {
      DirnameEndSkipsName(p, start, i - 1);
    }
  }

  /** Joining a name onto a directory and taking the directory name gives the directory back. */
  lemma {:induction false} DirnameOfJoin(d: string, n: string)
    requires JoinableDir(d) && IsName(n)
    ensures Dirname(Join(d, n)) == d
  {
    JoinParts(d, n);
    var p := Join(d, n);
    var j := |p| - |n| - 1;
    assert DirnameEnd(p, |p| - 1, true) == DirnameEnd(p, |p| - 1, false);
    DirnameEndSkipsName(p, j + 1, |p| - 1);
    if j == 0 {
      assert DirnameEnd(p, |p| - 1, true) == -1;
    } else {
      assert DirnameEnd(p, j, false) == j;
    }
  }

  /** The non-empty components of `p`, as `path.resolve` sees them
      (repeated separators collapse). */
  function Segments(p: string): seq<string>
    decreases |p|
  {
    var q := StripLeadingSeps(p);
    if q == "" then []
    else
      var k := IndexOf(q, Sep);
      if k < 0 then [q]
      else
        LeadingName(q, k);
        [q[..k]] + Segments(q[k..])
  }

  /** The text before the first separator of a path that does not start
      with one is a single component. */
  lemma LeadingName(q: string, k: int)
    requires q != [] && q[0] != Sep
    requires 0 <= k < |q| && q[k] == Sep && Sep !in q[..k]
    ensures 0 < k && IsName(q[..k])
  {
  }

  /** Every component `Segments` yields is a single non-empty name. */
  lemma {:induction false} SegmentsAreNames(p: string)
    ensures AllNames(Segments(p))
    decreases |p|
  {
    var q := StripLeadingSeps(p);
    if q != "" {
      var k := IndexOf(q, Sep);
      if k >= 0 {
        LeadingName(q, k);
        SegmentsAreNames(q[k..]);
        ConsName(q[..k], Segments(q[k..]));
      }
    }
  }

  lemma ConsName(h: string, rest: seq<string>)
    requires IsName(h) && AllNames(rest)
    ensures AllNames([h] + rest)
  {
  }

  /** `segs.join('/')`. */
  function JoinWith(segs: seq<string>, sep: char): (r: string)
  {
    if segs == [] then ""
    else if |segs| == 1 then segs[0]
    else segs[0] + [sep] + JoinWith(segs[1..], sep)
  }

  /** `s.split(sep)`: every piece between separators, empty pieces included. */
  function SplitOn(s: string, sep: char): (r: seq<string>)
    ensures |r| >= 1
    ensures forall i :: 0 <= i < |r| ==> sep !in r[i]
  {
    var k := IndexOf(s, sep);
    if k < 0 then [s] else [s[..k]] + SplitOn(s[k + 1..], sep)
  }

  /** `split` undoes `join` for pieces that do not contain the separator. */
  lemma {:induction false} SplitJoin(segs: seq<string>, sep: char)
    requires segs != []
    requires forall i :: 0 <= i < |segs| ==> sep !in segs[i]
    ensures SplitOn(JoinWith(segs, sep), sep) == segs
  {
    if |segs| == 1 {
    } else {
      var s := JoinWith(segs, sep);
      var h := segs[0];
      assert s == h + [sep] + JoinWith(segs[1..], sep);
      assert s[..|h|] == h;
      assert s[|h|] == sep;
      assert IndexOf(s, sep) == |h| by {
        assert s[..|h|] == h;
      }
      assert s[|h| + 1..] == JoinWith(segs[1..], sep);
      SplitJoin(segs[1..], sep);
    }
  }

  /** Length of the longest common prefix of two component lists. */
  function CommonPrefix(a: seq<string>, b: seq<string>): (n: nat)
    ensures n <= |a| && n <= |b|
    ensures forall i :: 0 <= i < n ==> a[i] == b[i]
    ensures n < |a| && n < |b| ==> a[n] != b[n]
  {
    if a == [] || b == [] || a[0] != b[0] then 0
    else CommonPrefix(a[1..], b[1..]) + 1
  }

  function Repeat(s: string, n: nat): (r: seq<string>)
    ensures |r| == n && forall i :: 0 <= i < n ==> r[i] == s
  {
    if n == 0 then [] else [s] + Repeat(s, n - 1)
  }

  /** Every element is a single path component. */
  predicate AllNames(segs: seq<string>) {
    forall i :: 0 <= i < |segs| ==> IsName(segs[i])
  }

  lemma AllNamesConcat(a: seq<string>, b: seq<string>)
    requires AllNames(a) && AllNames(b)
    ensures AllNames(a + b)
  {
  }

  /** The components of `path.relative(from, to)`: one ".." per component of
      `from` past the common prefix, then the rest of `to`. */
  function RelativeSegments(from: string, to: string): seq<string> {
    var f, t := Segments(from), Segments(to);
    var c := CommonPrefix(f, t);
    Repeat("..", |f| - c) + t[c..]
  }

  /** Every component of a relative path is a single name. */
  lemma RelativeNames(from: string, to: string)
    ensures AllNames(RelativeSegments(from, to))
  {
    var f, t := Segments(from), Segments(to);
    SegmentsAreNames(to);
    UpsThenNames(|f| - CommonPrefix(f, t), t, CommonPrefix(f, t));
  }

  lemma UpsThenNames(n: nat, t: seq<string>, c: nat)
    requires AllNames(t) && c <= |t|
    ensures AllNames(Repeat("..", n) + t[c..])
  {
    assert IsName("..");
    AllNamesConcat(Repeat("..", n), t[c..]);
  }

  /** `path.relative(from, to)` as a string. */
  function Relative(from: string, to: string): string {
    JoinWith(RelativeSegments(from, to), Sep)
  }

  /** A path strictly below `from` is reached with no "..", by exactly the
      components that extend `from`. */
  lemma RelativeBelow(from: string, to: string, tail: seq<string>)
    requires Segments(to) == Segments(from) + tail
    ensures RelativeSegments(from, to) == tail
  {
    var f, t := Segments(from), Segments(to);
    var c := CommonPrefix(f, t);
    if c < |f| {
      assert false;
    }
    assert t[c..] == tail;
  }

  /** `JoinWith` yields "" exactly for the empty list of names. */
  lemma JoinWithEmpty(segs: seq<string>, sep: char)
    requires forall i :: 0 <= i < |segs| ==> segs[i] != ""
    ensures JoinWith(segs, sep) == "" <==> segs == []
  {
    if |segs| > 1 {
      assert |JoinWith(segs, sep)| >= |segs[0]| + 1;
    }
  }
}

=== FILE: path_utils.dfy ===
/** The extension's own path helpers: home-relative display, the (identity)
    segment condenser, and the workspace name taken from a descriptor path. */
module PathUtils {
  import opened Util
  import opened NodePath

  /** The descriptor file extension. */
  const WorkspaceExt: string := ".code-workspace"

  /** Show `p` with a leading home directory written as '~'. The test is a
      plain character prefix: "/home/user2" is shown as "~2" for home "/home/user". */
  function DisplayPath(p: string, home: string): (r: string)
    ensures home != "" && StartsWith(p, home) ==> r == ['~'] + p[|home|..]
    ensures home == "" || !StartsWith(p, home) ==> r == p
    ensures home != "" && StartsWith(p, home) ==> home + r[1..] == p
  {
    if home != "" && StartsWith(p, home) then "~" + p[|home|..] else p
  }

  /** Returns a list equal to its input: the folding of single-child folders
      happens in the tree provider, not here. */
  method CondensePathSegments(segments: seq<string>) returns (condensed: seq<string>)
    ensures condensed == segments
  {
    if |segments| <= 1 {
      return segments;
    }
    condensed := [];
    var i := 0;
    while i < |segments|
      invariant 0 <= i <= |segments|
      invariant condensed == segments[..i]
    {
      var combined := segments[i];
      condensed := condensed + [combined];
      i := i + 1;
    }
  }

  /** `path.extname` names the descriptor extension exactly when the base
      name ends with it and has something before it. */
  lemma ExtnameIsWorkspaceExt(p: string)
    ensures Extname(p) == WorkspaceExt <==>
            EndsWith(Basename(p), WorkspaceExt) && |Basename(p)| > |WorkspaceExt|
  {
    LastDotIsWorkspaceExt(Basename(p));
  }

  /** The same for a base name `b`: the text from its last dot is the
      descriptor extension exactly when `b` ends with it after something. */
  lemma LastDotIsWorkspaceExt(b: string)
    ensures var k := LastIndexOf(b, '.');
            (k > 0 && b != ".." && b[k..] == WorkspaceExt) <==> EndsWith(b, WorkspaceExt) && |b| > |WorkspaceExt|
  {
    var k := LastIndexOf(b, '.');
    if EndsWith(b, WorkspaceExt) && |b| > |WorkspaceExt| {
      var j := |b| - |WorkspaceExt|;
      assert b[j..] == WorkspaceExt;
      assert b[j] == '.';
      forall m | j < m < |b| ensures b[m] != '.' {
        assert b[m] == WorkspaceExt[m - j];
      }
      assert k == j;
    }
    if k > 0 && b[k..] == WorkspaceExt {
      assert |b| - k == |WorkspaceExt|;
    }
  }

  /** The display name of a workspace file: its base name, without the
      descriptor extension when it has one. */
  function WorkspaceNameFromPath(p: string): (r: string)
    ensures EndsWith(Basename(p), WorkspaceExt) && |Basename(p)| > |WorkspaceExt| ==>
              r + WorkspaceExt == Basename(p)
    ensures !(EndsWith(Basename(p), WorkspaceExt) && |Basename(p)| > |WorkspaceExt|) ==>
              r == Basename(p)
  {
    ExtnameIsWorkspaceExt(p);
    var ext := Extname(p);
    if ext == WorkspaceExt then
      BasenameWithout(p, ext)
    else Basename(p)
  }
}

=== FILE: quick_pick.dfy ===
/** The quick switcher's item list: the pinned workspaces, then the recently
    opened ones, then everything else, each section under a separator and
    left out when empty; and the flat search list. The dialog itself is a
    parameter: the index of the accepted item, or nothing when it is hidden. */
module QuickSwitch {
  import opened Util
  import opened WorkspaceEntries
  import opened Discovery
  import PathUtils
  import PreferenceState

  /** A row of the list: a section title, or a workspace with its three
      lines of text. */
  datatype Item = Separator(title: string)
                | Pick(caption: string, description: string, detail: string, workspace: WorkspaceEntry)

  const PinnedIcon: string := "$(pinned)"
  const HistoryIcon: string := "$(history)"
  const StarIcon: string := "$(star-full)"
  const FolderIcon: string := "$(folder)"

  /** `createItem`: the caption (label) is the icon, a space and the name; the
      description is the folder, with the home directory written '~'; the
      detail tells a descriptor from a git folder. */
  function CreateItem(e: WorkspaceEntry, icon: string, home: string): (r: Item)
    ensures r.Pick? && r.workspace == e
    ensures StartsWith(r.caption, icon + " ") && r.caption[|icon| + 1..] == e.name
    ensures r.description == Directory(e)
            || (home != "" && r.description != [] && r.description[0] == '~'
                && home + r.description[1..] == Directory(e))
    ensures r.detail == "Workspace file" <==> e.isWorkspaceFile
    ensures r.detail == "Workspace file" || r.detail == "Git repository"
  {
    Pick(icon + " " + e.name, PathUtils.DisplayPath(Directory(e), home),
         if e.isWorkspaceFile then "Workspace file" else "Git repository", e)
  }

  /** The workspaces of the picks, in list order; separators carry none. */
  function Picked(items: seq<Item>): (r: seq<WorkspaceEntry>)
    ensures |r| <= |items|
  {
    if items == [] then [] else (if items[0].Pick? then [items[0].workspace] else []) + Picked(items[1..])
  }

  lemma {:induction false} PickedConcat(a: seq<Item>, b: seq<Item>)
    ensures Picked(a + b) == Picked(a) + Picked(b)
  {
    if a == [] {
      assert a + b == b;
    } else {
      assert (a + b)[0] == a[0];
      assert (a + b)[1..] == a[1..] + b;
      PickedConcat(a[1..], b);
    }
  }

  /** Items that are picks of `es`, one each, in order, give back `es`. */
  lemma {:induction false} PickedOfPicks(items: seq<Item>, es: seq<WorkspaceEntry>)
    requires |items| == |es|
    requires forall i :: 0 <= i < |items| ==> items[i].Pick? && items[i].workspace == es[i]
    ensures Picked(items) == es
  {
    if items != [] {
      PickedOfPicks(items[1..], es[1..]);
    }
  }

  /** One pick per entry, all with the same icon. */
  function Picks(es: seq<WorkspaceEntry>, icon: string, home: string): (r: seq<Item>)
    ensures |r| == |es|
    ensures forall i :: 0 <= i < |es| ==> r[i] == CreateItem(es[i], icon, home)
  {
    seq(|es|, i requires 0 <= i < |es| => CreateItem(es[i], icon, home))
  }

  /** The icon of the last section: a star for a favourite, a folder otherwise. */
  function RemainingIcon(e: WorkspaceEntry, favorites: seq<string>): string {
    if e.filePath in favorites then StarIcon else FolderIcon
  }

  /** One pick per entry, starred when the entry is a favourite. */
  function RemainingPicks(es: seq<WorkspaceEntry>, favorites: seq<string>, home: string): (r: seq<Item>)
    ensures |r| == |es|
    ensures forall i :: 0 <= i < |es| ==> r[i] == CreateItem(es[i], RemainingIcon(es[i], favorites), home)
  {
    seq(|es|, i requires 0 <= i < |es| => CreateItem(es[i], RemainingIcon(es[i], favorites), home))
  }

  /** A titled section: nothing at all when it has no picks. */
  function Section(title: string, picks: seq<Item>): (r: seq<Item>)
    ensures picks == [] ==> r == []
    ensures picks != [] ==> |r| == |picks| + 1 && r[0] == Separator(title) && r[1..] == picks
  {
    if picks == [] then [] else [Separator(title)] + picks
  }

  lemma PickedOfSection(title: string, picks: seq<Item>)
    ensures Picked(Section(title, picks)) == Picked(picks)
  {
    if picks != [] {
      PickedConcat([Separator(title)], picks);
      assert Picked([Separator(title)]) == [];
    }
  }

  /** A list has distinct paths exactly when its head's path is not in
      the tail and the tail has distinct paths. */
  lemma DistinctCons(e: WorkspaceEntry, rest: seq<WorkspaceEntry>)
    ensures DistinctPaths([e] + rest) <==> e.filePath !in Paths(rest) && DistinctPaths(rest)
  {
    var s := [e] + rest;
    PathsMembership(rest, e.filePath);
    if DistinctPaths(s) {
      forall i, j | 0 <= i < j < |rest| ensures rest[i].filePath != rest[j].filePath {
        assert s[i + 1] == rest[i] && s[j + 1] == rest[j];
      }
      forall k | 0 <= k < |rest| ensures rest[k].filePath != e.filePath {
        assert s[0] == e && s[k + 1] == rest[k];
      }
    }
    if e.filePath !in Paths(rest) && DistinctPaths(rest) {
      forall i, j | 0 <= i < j < |s| ensures s[i].filePath != s[j].filePath {
        assert s[j] == rest[j - 1];
        if i > 0 {
          assert s[i] == rest[i - 1];
        }
      }
    }
  }

  /** The path of every element of `xs`, in order. */
  function PathsOf<T>(xs: seq<T>, path: T -> string): (r: seq<string>)
    ensures |r| == |xs| && forall i :: 0 <= i < |xs| ==> r[i] == path(xs[i])
  {
    seq(|xs|, i requires 0 <= i < |xs| => path(xs[i]))
  }

  /** The paths of some records, in order. */
  function PathList(es: seq<WorkspaceEntry>): seq<string> {
    PathsOf(es, (e: WorkspaceEntry) => e.filePath)
  }

  /** The paths of the recents list, newest first. */
  function RecentOrder(recents: seq<PreferenceState.RecentEntry>): seq<string> {
    PathsOf(recents, (e: PreferenceState.RecentEntry) => e.filePath)
  }

  /** The entries whose path is in `paths` (when `inside`) or not in it
      (otherwise), in their original order: `filter` on `includes`/`has`. */
  function Select(all: seq<WorkspaceEntry>, paths: set<string>, inside: bool): (r: seq<WorkspaceEntry>)
    ensures |r| <= |all|
    ensures forall e :: e in r <==> e in all && (e.filePath in paths) == inside
    ensures Subsequence(r, all)
    decreases |all|
  {
    if all == [] then []
    else
      var rest := Select(all[1..], paths, inside);
      assert forall e :: e in all <==> e == all[0] || e in all[1..];
      if (all[0].filePath in paths) == inside then
        assert ([all[0]] + rest)[1..] == rest;
        [all[0]] + rest
      else rest
  }

  /** The selected paths are the listed paths inside (or outside) `paths`. */
  lemma {:induction false} SelectPaths(all: seq<WorkspaceEntry>, paths: set<string>, inside: bool)
    ensures Paths(Select(all, paths, inside)) == if inside then Paths(all) * paths else Paths(all) - paths
    decreases |all|
  {
    if all != [] {
      var rest := Select(all[1..], paths, inside);
      SelectPaths(all[1..], paths, inside);
      if (all[0].filePath in paths) == inside {
        assert ([all[0]] + rest)[1..] == rest;
      }
    }
  }

  /** A list with distinct paths gives a selection with distinct paths. */
  lemma {:induction false} SelectDistinct(all: seq<WorkspaceEntry>, paths: set<string>, inside: bool)
    requires DistinctPaths(all)
    ensures DistinctPaths(Select(all, paths, inside))
    decreases |all|
  {
    if all != [] {
      var rest := Select(all[1..], paths, inside);
      assert all == [all[0]] + all[1..];
      DistinctCons(all[0], all[1..]);
      SelectDistinct(all[1..], paths, inside);
      if (all[0].filePath in paths) == inside {
        SelectPaths(all[1..], paths, inside);
        DistinctCons(all[0], rest);
      }
    }
  }

  /** `allWorkspaces.find`: the first entry with the path, if any. */
  function Find(all: seq<WorkspaceEntry>, p: string): (r: Option<WorkspaceEntry>)
    ensures r.Some? <==> p in Paths(all)
    ensures r.Some? ==> r.value in all && r.value.filePath == p
  {
    if all == [] then None
    else if all[0].filePath == p then Some(all[0])
    else Find(all[1..], p)
  }

  /** The paths of the recents list. */
  function RecentPaths(recents: seq<PreferenceState.RecentEntry>): set<string> {
    if recents == [] then {} else {recents[0].filePath} + RecentPaths(recents[1..])
  }

  /** The recent section's loop: each recent path not yet shown whose
      workspace is still discovered, newest first. Exactly the discovered
      recents not already shown appear, each once. */
  function RecentWalk(all: seq<WorkspaceEntry>, recents: seq<PreferenceState.RecentEntry>, added: set<string>)
    : (r: seq<WorkspaceEntry>)
    ensures forall e :: e in r ==> e in all
    ensures DistinctPaths(r)
    ensures Paths(r) == RecentPaths(recents) * Paths(all) - added
    ensures Subsequence(PathList(r), RecentOrder(recents))
    decreases |recents|
  {
    if recents == [] then []
    else
      var p := recents[0].filePath;
      assert RecentOrder(recents)[1..] == RecentOrder(recents[1..]);
      if p in added then RecentWalk(all, recents[1..], added)
      else match Find(all, p)
        case None => RecentWalk(all, recents[1..], added)
        case Some(e) =>
          var rest := RecentWalk(all, recents[1..], added + {p});
          DistinctCons(e, rest);
          assert PathList([e] + rest)[1..] == PathList(rest);
          [e] + rest
  }

  /** The three sections' workspaces, before they become items. */
  datatype Sections = Sections(pinned: seq<WorkspaceEntry>, recent: seq<WorkspaceEntry>, remaining: seq<WorkspaceEntry>)

  function Arrange(all: seq<WorkspaceEntry>, pinned: seq<string>, recents: seq<PreferenceState.RecentEntry>,
                   showRecent: bool): (s: Sections)
    ensures forall e :: e in s.pinned <==> e in all && e.filePath in pinned
    ensures !(showRecent && recents != []) ==> s.recent == []
    ensures Paths(s.recent) !! Paths(s.pinned)
    ensures showRecent ==> Paths(s.recent) == RecentPaths(recents) * Paths(all) - Paths(s.pinned)
    ensures Paths(s.remaining) == Paths(all) - Paths(s.pinned) - Paths(s.recent)
    ensures forall e :: e in s.recent + s.remaining ==> e in all
    ensures DistinctPaths(all) ==> DistinctPaths(s.pinned) && DistinctPaths(s.recent) && DistinctPaths(s.remaining)
    ensures Subsequence(s.pinned, all) && Subsequence(s.remaining, all)
    ensures Subsequence(PathList(s.recent), RecentOrder(recents))
  {
    var pinnedEntries := Select(all, set p | p in pinned, true);
    var recentEntries := if showRecent && recents != [] then RecentWalk(all, recents, Paths(pinnedEntries)) else [];
    var remaining := Select(all, Paths(pinnedEntries) + Paths(recentEntries), false);
    SelectPaths(all, Paths(pinnedEntries) + Paths(recentEntries), false);
    if DistinctPaths(all) then
      SelectDistinct(all, set p | p in pinned, true);
      SelectDistinct(all, Paths(pinnedEntries) + Paths(recentEntries), false);
      Sections(pinnedEntries, recentEntries, remaining)
    else Sections(pinnedEntries, recentEntries, remaining)
  }

  /** The item list built from the three sections: each one titled, and
      the last one's icons marking favourites. */
  function Assemble(s: Sections, favorites: seq<string>, home: string): seq<Item> {
    Section("Pinned", Picks(s.pinned, PinnedIcon, home))
    + Section("Recent", Picks(s.recent, HistoryIcon, home))
    + Section("All Workspaces", RemainingPicks(s.remaining, favorites, home))
  }

  /** The list shows the pinned, then the recent, then the remaining
      workspaces, in the sections' own orders. */
  lemma AssemblePicked(s: Sections, favorites: seq<string>, home: string)
    ensures Picked(Assemble(s, favorites, home)) == s.pinned + s.recent + s.remaining
  {
    var pa := Picks(s.pinned, PinnedIcon, home);
    var pb := Picks(s.recent, HistoryIcon, home);
    var pc := RemainingPicks(s.remaining, favorites, home);
    var a, b, c := Section("Pinned", pa), Section("Recent", pb), Section("All Workspaces", pc);
    PickedOfPicks(pa, s.pinned);
    PickedOfPicks(pb, s.recent);
    PickedOfPicks(pc, s.remaining);
    PickedOfSection("Pinned", pa);
    PickedOfSection("Recent", pb);
    PickedOfSection("All Workspaces", pc);
    PickedConcat(a, b);
    PickedConcat(a + b, c);
  }

  lemma AssembleHeaded(s: Sections, favorites: seq<string>, home: string)
    ensures HeadedByPicks(Assemble(s, favorites, home))
  {
    var pa := Picks(s.pinned, PinnedIcon, home);
    var pb := Picks(s.recent, HistoryIcon, home);
    var pc := RemainingPicks(s.remaining, favorites, home);
    var a, b, c := Section("Pinned", pa), Section("Recent", pb), Section("All Workspaces", pc);
    SectionHeaded("Pinned", pa);
    SectionHeaded("Recent", pb);
    SectionHeaded("All Workspaces", pc);
    HeadedConcat(a, b);
    HeadedConcat(a + b, c);
  }

  /** The list ends with the remaining workspaces' picks. */
  lemma AssembleEndsWithRemaining(s: Sections, favorites: seq<string>, home: string)
    ensures var r, c := Assemble(s, favorites, home), RemainingPicks(s.remaining, favorites, home);
            |c| <= |r| && r[|r| - |c|..] == c
  {
    var ab := Section("Pinned", Picks(s.pinned, PinnedIcon, home)) + Section("Recent", Picks(s.recent, HistoryIcon, home));
    var pc := RemainingPicks(s.remaining, favorites, home);
    SectionEndsWithPicks("All Workspaces", pc);
    SuffixOfConcat(ab, Section("All Workspaces", pc), |pc|);
  }

  lemma SectionEndsWithPicks(title: string, picks: seq<Item>)
    ensures var c := Section(title, picks); |picks| <= |c| && c[|c| - |picks|..] == picks
  {
  }

  lemma SuffixOfConcat<T>(a: seq<T>, b: seq<T>, k: nat)
    requires k <= |b|
    ensures (a + b)[|a + b| - k..] == b[|b| - k..]
  {
  }

  /** `showQuickSwitch`'s item list. */
  function QuickSwitchItems(all: seq<WorkspaceEntry>, pinned: seq<string>, recents: seq<PreferenceState.RecentEntry>,
                            favorites: seq<string>, showRecent: bool, home: string): (r: seq<Item>)
    ensures var s := Arrange(all, pinned, recents, showRecent);
            Picked(r) == s.pinned + s.recent + s.remaining
    ensures HeadedByPicks(r)
  {
    var s := Arrange(all, pinned, recents, showRecent);
    AssemblePicked(s, favorites, home);
    AssembleHeaded(s, favorites, home);
    Assemble(s, favorites, home)
  }

  /** Two entries of a list with distinct paths that share a path are the same. */
  lemma SamePathSameEntry(all: seq<WorkspaceEntry>, x: WorkspaceEntry, y: WorkspaceEntry)
    requires DistinctPaths(all) && x in all && y in all && x.filePath == y.filePath
    ensures x == y
  {
  }

  /** In a list with distinct paths every element occurs once. */
  lemma {:induction false} DistinctCounts(a: seq<WorkspaceEntry>, x: WorkspaceEntry)
    requires DistinctPaths(a)
    ensures multiset(a)[x] == if x in a then 1 else 0
  {
    if a != [] {
      assert a == [a[0]] + a[1..];
      DistinctCons(a[0], a[1..]);
      DistinctCounts(a[1..], x);
      PathsMembership(a[1..], a[0].filePath);
      assert multiset(a) == multiset{a[0]} + multiset(a[1..]);
    }
  }

  lemma SameElementsSameMultiset(a: seq<WorkspaceEntry>, b: seq<WorkspaceEntry>)
    requires DistinctPaths(a) && DistinctPaths(b)
    requires forall e :: e in a <==> e in b
    ensures multiset(a) == multiset(b)
  {
    forall x ensures multiset(a)[x] == multiset(b)[x] {
      DistinctCounts(a, x);
      DistinctCounts(b, x);
    }
  }

  /** When the discovered workspaces have distinct paths, the quick switcher
      lists each of them exactly once, and nothing else. */
  lemma EveryWorkspaceOnce(all: seq<WorkspaceEntry>, pinned: seq<string>, recents: seq<PreferenceState.RecentEntry>,
                           favorites: seq<string>, showRecent: bool, home: string)
    requires DistinctPaths(all)
    ensures var r := QuickSwitchItems(all, pinned, recents, favorites, showRecent, home);
            DistinctPaths(Picked(r)) && multiset(Picked(r)) == multiset(all)
  {
    var s := Arrange(all, pinned, recents, showRecent);
    var picked := s.pinned + s.recent + s.remaining;
    assert forall e :: e in s.recent ==> e in all;
    assert DistinctPaths(s.pinned) && DistinctPaths(s.recent) && DistinctPaths(s.remaining);
    DistinctConcat(s.pinned, s.recent);
    PathsConcat(s.pinned, s.recent);
    DistinctConcat(s.pinned + s.recent, s.remaining);
    EveryEntryPicked(all, pinned, recents, showRecent);
    SameElementsSameMultiset(picked, all);
  }

  /** Every discovered workspace lands in one of the three sections. */
  lemma EveryEntryPicked(all: seq<WorkspaceEntry>, pinned: seq<string>, recents: seq<PreferenceState.RecentEntry>,
                         showRecent: bool)
    requires DistinctPaths(all)
    ensures var s := Arrange(all, pinned, recents, showRecent);
            forall e :: e in all ==> e in s.pinned + s.recent + s.remaining
  {
    var s := Arrange(all, pinned, recents, showRecent);
    var picked := s.pinned + s.recent + s.remaining;
    forall e | e in all ensures e in picked {
      PathsMembership(all, e.filePath);
      if e.filePath in Paths(s.pinned) {
        PathsMembership(s.pinned, e.filePath);
        var k :| 0 <= k < |s.pinned| && s.pinned[k].filePath == e.filePath;
        SamePathSameEntry(all, s.pinned[k], e);
      } else if e.filePath in Paths(s.recent) {
        PathsMembership(s.recent, e.filePath);
        var k :| 0 <= k < |s.recent| && s.recent[k].filePath == e.filePath;
        SamePathSameEntry(all, s.recent[k], e);
        assert s.recent[k] in picked;
      } else {
        assert e in s.remaining;
      }
    }
  }

  /** No section is empty: every separator is followed by a pick, so the
      list does not end in a separator either. */
  predicate HeadedByPicks(r: seq<Item>) {
    forall i :: 0 <= i < |r| && r[i].Separator? ==> i + 1 < |r| && r[i + 1].Pick?
  }

  lemma SectionHeaded(title: string, picks: seq<Item>)
    requires forall i :: 0 <= i < |picks| ==> picks[i].Pick?
    ensures HeadedByPicks(Section(title, picks))
  {
    var r := Section(title, picks);
    if picks != [] {
      assert forall i :: 1 <= i < |r| ==> r[i] == picks[i - 1];
    }
  }

  lemma HeadedConcat(a: seq<Item>, b: seq<Item>)
    requires HeadedByPicks(a) && HeadedByPicks(b)
    ensures HeadedByPicks(a + b)
  {
    forall i | 0 <= i < |a + b| && (a + b)[i].Separator? ensures i + 1 < |a + b| && (a + b)[i + 1].Pick? {
      if i >= |a| {
        assert (a + b)[i] == b[i - |a|];
        assert (a + b)[i + 1] == b[i - |a| + 1];
      } else {
        assert (a + b)[i] == a[i];
        assert (a + b)[i + 1] == a[i + 1];
      }
    }
  }

  /** A remaining workspace's caption carries the star exactly when it is
      a favourite. */
  lemma RemainingStars(es: seq<WorkspaceEntry>, favorites: seq<string>, home: string)
    ensures var c := RemainingPicks(es, favorites, home);
            forall i :: 0 <= i < |c| ==> StarredPick(c[i], es[i], favorites)
  {
    var c := RemainingPicks(es, favorites, home);
    forall i | 0 <= i < |c| ensures StarredPick(c[i], es[i], favorites) {
      if es[i].filePath !in favorites {
        assert c[i].caption[2] == FolderIcon[2];
      }
    }
  }

  /** The switcher's list ends with the "All Workspaces" section, whose
      captions are starred exactly for the favourites. */
  lemma StarMarksFavorites(all: seq<WorkspaceEntry>, pinned: seq<string>, recents: seq<PreferenceState.RecentEntry>,
                           favorites: seq<string>, showRecent: bool, home: string)
    ensures var r := QuickSwitchItems(all, pinned, recents, favorites, showRecent, home);
            EndsStarred(r, Arrange(all, pinned, recents, showRecent).remaining, favorites)
  {
    var s := Arrange(all, pinned, recents, showRecent);
    assert QuickSwitchItems(all, pinned, recents, favorites, showRecent, home) == Assemble(s, favorites, home);
    AssembleStars(s, favorites, home);
  }

  /** `r` ends with one pick per entry of `rest`, starred exactly for the favourites. */
  predicate EndsStarred(r: seq<Item>, rest: seq<WorkspaceEntry>, favorites: seq<string>) {
    |rest| <= |r|
    && forall i :: 0 <= i < |rest| ==> StarredPick(r[|r| - |rest| + i], rest[i], favorites)
  }

  /** A pick of `e`, starred exactly when `e` is a favourite. */
  predicate StarredPick(item: Item, e: WorkspaceEntry, favorites: seq<string>) {
    item.Pick? && item.workspace == e
    && (StartsWith(item.caption, StarIcon) <==> e.filePath in favorites)
  }

  lemma AssembleStars(s: Sections, favorites: seq<string>, home: string)
    ensures EndsStarred(Assemble(s, favorites, home), s.remaining, favorites)
  {
    var r := Assemble(s, favorites, home);
    var c := RemainingPicks(s.remaining, favorites, home);
    AssembleEndsWithRemaining(s, favorites, home);
    RemainingStars(s.remaining, favorites, home);
    EndsStarredOfSuffix(r, c, s.remaining, favorites);
  }

  lemma EndsStarredOfSuffix(r: seq<Item>, c: seq<Item>, rest: seq<WorkspaceEntry>, favorites: seq<string>)
    requires |c| == |rest| && |c| <= |r| && r[|r| - |c|..] == c
    requires forall i :: 0 <= i < |c| ==> StarredPick(c[i], rest[i], favorites)
    ensures EndsStarred(r, rest, favorites)
  {
    forall i | 0 <= i < |rest| ensures StarredPick(r[|r| - |rest| + i], rest[i], favorites) {
      assert r[|r| - |c|..][i] == c[i];
    }
  }

  /** What the dialog returns: the workspace of the accepted item, or
      nothing when it is hidden. */
  function Accepted(items: seq<Item>, selected: Option<nat>): (r: Option<WorkspaceEntry>)
    ensures r.Some? ==> r.value in Picked(items)
    ensures selected.None? ==> r.None?
  {
    if selected.None? || selected.value >= |items| || items[selected.value].Separator? then None
    else
      PickedInItems(items, selected.value);
      Some(items[selected.value].workspace)
  }

  lemma {:induction false} PickedInItems(items: seq<Item>, i: nat)
    requires i < |items| && items[i].Pick?
    ensures items[i].workspace in Picked(items)
  {
    if i > 0 {
      PickedInItems(items[1..], i - 1);
    }
  }

  /** The switcher only ever returns a discovered workspace. */
  lemma QuickSwitchReturnsDiscovered(all: seq<WorkspaceEntry>, pinned: seq<string>, recents: seq<PreferenceState.RecentEntry>,
                                     favorites: seq<string>, showRecent: bool, home: string, selected: Option<nat>)
    ensures var r := Accepted(QuickSwitchItems(all, pinned, recents, favorites, showRecent, home), selected);
            r.Some? ==> r.value in all
  {
    var s := Arrange(all, pinned, recents, showRecent);
    assert forall e :: e in s.recent ==> e in all;
  }

  /** `showSearch`'s list: every workspace, in order, with the folder icon. */
  function SearchItems(all: seq<WorkspaceEntry>, home: string): (r: seq<Item>)
    ensures Picked(r) == all
    ensures forall i :: 0 <= i < |r| ==> r[i].Pick? && StartsWith(r[i].caption, FolderIcon + " ")
  {
    PickedOfPicks(Picks(all, FolderIcon, home), all);
    Picks(all, FolderIcon, home)
  }
}

=== FILE: sort_service.dfy ===
/** Ordering of workspace lists by a field and a direction. The engine's
    `Array.prototype.sort` is stable; it is modelled as a stable insertion
    sort. `localeCompare` is modelled as plain character order. */
module Sorting {
  import opened Util
  import opened WorkspaceEntries
  import opened PreferenceState

  /** The configured field; `Unknown` stands for any other configured value,
      which the comparator's `default` branch handles. */
  datatype SortField = Name | LastModified | LastOpened | Frequency | Unknown
  datatype SortDirection = Asc | Desc

  /** Everything the comparator reads: field, direction, and the recents and
      open counts from the preference store. */
  datatype Order = Order(field: SortField, direction: SortDirection,
                         recents: seq<RecentEntry>, openCounts: map<string, int>)

  /** Character-by-character comparison of two strings: -1, 0 or 1. */
  function LexCmp(a: string, b: string): (r: int)
    ensures -1 <= r <= 1
    ensures r == 0 <==> a == b
  {
    if a == [] && b == [] then 0
    else if a == [] then -1
    else if b == [] then 1
    else if a[0] < b[0] then -1
    else if a[0] > b[0] then 1
    else
      var k := LexCmp(a[1..], b[1..]);
      assert a == [a[0]] + a[1..] && b == [b[0]] + b[1..];
      k
  }

  lemma {:induction false} LexCmpAntisym(a: string, b: string)
    ensures LexCmp(a, b) == -LexCmp(b, a)
  {
    if a != [] && b != [] && a[0] == b[0] {
      LexCmpAntisym(a[1..], b[1..]);
    }
  }

  lemma {:induction false} LexCmpTrans(a: string, b: string, c: string)
    requires LexCmp(a, b) <= 0 && LexCmp(b, c) <= 0
    ensures LexCmp(a, c) <= 0
  {
    if a != [] && b != [] && c != [] && a[0] == b[0] && b[0] == c[0] {
      LexCmpTrans(a[1..], b[1..], c[1..]);
    }
  }

  /** `recents.find(r => r.filePath === p)?.timestamp ?? 0`. */
  function RecentTime(recents: seq<RecentEntry>, p: string): (t: int)
    ensures (forall i :: 0 <= i < |recents| ==> recents[i].filePath != p) ==> t == 0
    ensures forall i :: (0 <= i < |recents| && recents[i].filePath == p
              && (forall j :: 0 <= j < i ==> recents[j].filePath != p)) ==> t == recents[i].timestamp
  {
    if recents == [] then 0
    else if recents[0].filePath == p then recents[0].timestamp
    else RecentTime(recents[1..], p)
  }

  /** The numeric key of the integer-valued fields. */
  function Key(o: Order, e: WorkspaceEntry): int {
    match o.field
    case LastModified => e.lastModified
    case LastOpened => RecentTime(o.recents, e.filePath)
    case Frequency => OpenCount(o.openCounts, e.filePath)
    case _ => 0
  }

  /** The comparator before the direction is applied. */
  function RawCompare(o: Order, a: WorkspaceEntry, b: WorkspaceEntry): int {
    match o.field
    case Name => LexCmp(a.name, b.name)
    case Unknown => 0
    case _ => Key(o, a) - Key(o, b)
  }

  /** `cmp * dir`, with `dir` being 1 for 'asc' and -1 for 'desc'. */
  function Compare(o: Order, a: WorkspaceEntry, b: WorkspaceEntry): int {
    RawCompare(o, a, b) * (if o.direction == Asc then 1 else -1)
  }

  /** Each comparator is antisymmetric ... */
  lemma CompareAntisym(o: Order, a: WorkspaceEntry, b: WorkspaceEntry)
    ensures Compare(o, a, b) == -Compare(o, b, a)
  {
    if o.field == Name {
      LexCmpAntisym(a.name, b.name);
    }
  }

  /** ... and transitive, so it is a total preorder and sorting by it is well defined. */
  lemma CompareTrans(o: Order, a: WorkspaceEntry, b: WorkspaceEntry, c: WorkspaceEntry)
    requires Compare(o, a, b) <= 0 && Compare(o, b, c) <= 0
    ensures Compare(o, a, c) <= 0
  {
    if o.field == Name {
      if o.direction == Asc {
        LexCmpTrans(a.name, b.name, c.name);
      } else {
        LexCmpAntisym(a.name, b.name);
        LexCmpAntisym(b.name, c.name);
        LexCmpAntisym(a.name, c.name);
        LexCmpTrans(c.name, b.name, a.name);
      }
    }
  }

  /** Every element is ordered no later than every element after it. */
  predicate Sorted(o: Order, s: seq<WorkspaceEntry>) {
    forall i, j :: 0 <= i < j < |s| ==> Compare(o, s[i], s[j]) <= 0
  }

  /** Every element of `s` is ordered no later than `x`. */
  predicate AllBefore(o: Order, s: seq<WorkspaceEntry>, x: WorkspaceEntry) {
    forall i :: 0 <= i < |s| ==> Compare(o, s[i], x) <= 0
  }

  /** Put `x` behind every element it does not strictly precede. */
  function Insert(o: Order, x: WorkspaceEntry, s: seq<WorkspaceEntry>): (r: seq<WorkspaceEntry>)
    ensures multiset(r) == multiset(s) + multiset{x}
    ensures |r| == |s| + 1
    ensures Sorted(o, s) ==> Sorted(o, r)
    ensures AllBefore(o, s, x) ==> r == s + [x]
  {
    if s == [] then [x]
    else if Compare(o, s[0], x) > 0 then
      InsertFront(o, x, s);
      [x] + s
    else
      var rest := Insert(o, x, s[1..]);
      SortedTail(o, s);
      InsertBehind(o, x, s, rest);
      ConsRest(o, x, s, rest);
      [s[0]] + rest
  }

  lemma ConsRest(o: Order, x: WorkspaceEntry, s: seq<WorkspaceEntry>, rest: seq<WorkspaceEntry>)
    requires s != []
    requires AllBefore(o, s[1..], x) ==> rest == s[1..] + [x]
    requires multiset(rest) == multiset(s[1..]) + multiset{x}
    ensures AllBefore(o, s, x) ==> [s[0]] + rest == s + [x]
    ensures multiset([s[0]] + rest) == multiset(s) + multiset{x}
  {
    assert s == [s[0]] + s[1..];
    if AllBefore(o, s, x) {
      assert AllBefore(o, s[1..], x);
    }
  }

  lemma InsertFront(o: Order, x: WorkspaceEntry, s: seq<WorkspaceEntry>)
    requires s != [] && Compare(o, s[0], x) > 0
    ensures Sorted(o, s) ==> Sorted(o, [x] + s)
    ensures !AllBefore(o, s, x)
  {
    if Sorted(o, s) {
      CompareAntisym(o, s[0], x);
      forall j | 0 <= j < |s| ensures Compare(o, x, s[j]) <= 0 {
        if j > 0 {
          CompareTrans(o, x, s[0], s[j]);
        }
      }
      assert forall j :: 0 < j < |s| + 1 ==> ([x] + s)[j] == s[j - 1];
    }
  }

  lemma SortedTail(o: Order, s: seq<WorkspaceEntry>)
    requires s != []
    ensures Sorted(o, s) ==> Sorted(o, s[1..])
  {
  }

  lemma InsertBehind(o: Order, x: WorkspaceEntry, s: seq<WorkspaceEntry>, rest: seq<WorkspaceEntry>)
    requires s != [] && Compare(o, s[0], x) <= 0
    requires multiset(rest) == multiset(s[1..]) + multiset{x}
    ensures Sorted(o, s) && Sorted(o, rest) ==> Sorted(o, [s[0]] + rest)
  {
    if !(Sorted(o, s) && Sorted(o, rest)) { return; }
    forall j | 0 <= j < |rest| ensures Compare(o, s[0], rest[j]) <= 0 {
      assert rest[j] in multiset(rest);
      if rest[j] != x {
        assert rest[j] in multiset(s[1..]);
        var k :| 0 <= k < |s[1..]| && s[1..][k] == rest[j];
        assert s[k + 1] == rest[j];
      }
    }
    assert forall j :: 0 < j < |rest| + 1 ==> ([s[0]] + rest)[j] == rest[j - 1];
  }

  /** `sort(entries, field, direction)`: a new list, ordered by the
      comparator, holding exactly the input's elements. */
  function Sort(o: Order, xs: seq<WorkspaceEntry>): (r: seq<WorkspaceEntry>)
    ensures multiset(r) == multiset(xs)
    ensures |r| == |xs|
    ensures Sorted(o, r)
    decreases |xs|
  {
    if xs == [] then []
    else
      var n := |xs| - 1;
      assert xs == xs[..n] + [xs[n]];
      Insert(o, xs[n], Sort(o, xs[..n]))
  }

  /** Stability: an input that is already in order, ties included, is
      returned unchanged. In particular 'desc' does not reverse entries
      that compare equal. */
  lemma {:induction false} SortKeepsSortedInput(o: Order, xs: seq<WorkspaceEntry>)
    requires Sorted(o, xs)
    ensures Sort(o, xs) == xs
    decreases |xs|
  {
    if xs != [] {
      var n := |xs| - 1;
      SortedInit(o, xs);
      SortKeepsSortedInput(o, xs[..n]);
      assert Sort(o, xs) == Insert(o, xs[n], xs[..n]);
      assert xs[..n] + [xs[n]] == xs;
    }
  }

  /** Dropping the last element of an ordered list leaves an ordered list,
      every element of which precedes the dropped one. */
  lemma SortedInit(o: Order, xs: seq<WorkspaceEntry>)
    requires xs != [] && Sorted(o, xs)
    ensures Sorted(o, xs[..|xs| - 1])
    ensures AllBefore(o, xs[..|xs| - 1], xs[|xs| - 1])
  {
  }

  /** An unrecognised field compares everything equal: the order is kept. */
  lemma UnknownFieldKeepsOrder(o: Order, xs: seq<WorkspaceEntry>)
    requires o.field == Unknown
    ensures Sort(o, xs) == xs
  {
    SortKeepsSortedInput(o, xs);
  }

  /** No two different elements compare equal. */
  predicate NoTies(o: Order, a: seq<WorkspaceEntry>) {
    forall i, j :: 0 <= i < |a| && 0 <= j < |a| && a[i] != a[j] ==> Compare(o, a[i], a[j]) != 0
  }

  /** Two ordered rearrangements of a tie-free list start alike. */
  lemma SortedHeadsEqual(o: Order, a: seq<WorkspaceEntry>, b: seq<WorkspaceEntry>)
    requires a != [] && multiset(a) == multiset(b) && Sorted(o, a) && Sorted(o, b) && NoTies(o, a)
    ensures b != [] && a[0] == b[0]
  {
    assert b[0] in multiset(a) by { assert |b| == |multiset(a)| == |a|; }
    assert a[0] in multiset(b);
    var i :| 0 <= i < |a| && a[i] == b[0];
    var j :| 0 <= j < |b| && b[j] == a[0];
    if a[0] != b[0] {
      assert Compare(o, a[0], a[i]) <= 0;
      assert Compare(o, b[0], b[j]) <= 0;
      CompareAntisym(o, a[0], b[0]);
      assert false;
    }
  }

  lemma MultisetTail(a: seq<WorkspaceEntry>, b: seq<WorkspaceEntry>)
    requires a != [] && b != [] && a[0] == b[0] && multiset(a) == multiset(b)
    ensures multiset(a[1..]) == multiset(b[1..])
  {
    assert a == [a[0]] + a[1..] && b == [b[0]] + b[1..];
    assert multiset(a) == multiset{a[0]} + multiset(a[1..]);
    assert multiset(b) == multiset{a[0]} + multiset(b[1..]);
    forall y ensures multiset(a[1..])[y] == multiset(b[1..])[y] {
      assert multiset(a)[y] == multiset{a[0]}[y] + multiset(a[1..])[y];
      assert multiset(b)[y] == multiset{a[0]}[y] + multiset(b[1..])[y];
    }
  }

  lemma NoTiesTail(o: Order, a: seq<WorkspaceEntry>)
    requires a != [] && NoTies(o, a)
    ensures NoTies(o, a[1..])
  {
  }

  /** The sorted list is the only ordered rearrangement when no two
      entries tie: whatever an ordered permutation looks like, it is this one. */
  lemma {:induction false} SortedPermutationUnique(o: Order, a: seq<WorkspaceEntry>, b: seq<WorkspaceEntry>)
    requires multiset(a) == multiset(b) && Sorted(o, a) && Sorted(o, b) && NoTies(o, a)
    ensures a == b
    decreases |a|
  {
    if a == [] {
      assert |b| == |multiset(b)| == 0;
    } else {
      SortedHeadsEqual(o, a, b);
      MultisetTail(a, b);
      SortedTail(o, a);
      SortedTail(o, b);
      NoTiesTail(o, a);
      SortedPermutationUnique(o, a[1..], b[1..]);
    }
  }

  /** Without ties, `Sort` gives the one ordered rearrangement of its input. */
  lemma SortIsTheOrderedPermutation(o: Order, xs: seq<WorkspaceEntry>, ys: seq<WorkspaceEntry>)
    requires multiset(ys) == multiset(xs) && Sorted(o, ys) && NoTies(o, ys)
    ensures Sort(o, xs) == ys
  {
    SortedPermutationUnique(o, ys, Sort(o, xs));
  }

  /** 'name' ascending orders by name. */
  lemma NameAscending(xs: seq<WorkspaceEntry>, recents: seq<RecentEntry>, counts: map<string, int>)
    ensures var r := Sort(Order(Name, Asc, recents, counts), xs);
            forall i, j :: 0 <= i < j < |r| ==> LexCmp(r[i].name, r[j].name) <= 0
  {
  }

  /** 'desc' puts larger keys first. */
  lemma KeyDescending(f: SortField, xs: seq<WorkspaceEntry>, recents: seq<RecentEntry>, counts: map<string, int>)
    requires f == LastModified || f == LastOpened || f == Frequency
    ensures var o := Order(f, Desc, recents, counts);
            var r := Sort(o, xs);
            forall i, j :: 0 <= i < j < |r| ==> Key(o, r[i]) >= Key(o, r[j])
  {
    var o := Order(f, Desc, recents, counts);
    var r := Sort(o, xs);
    forall i, j | 0 <= i < j < |r| ensures Key(o, r[i]) >= Key(o, r[j]) {
      assert Compare(o, r[i], r[j]) <= 0;
    }
  }

  /** 'asc' puts smaller keys first. */
  lemma KeyAscending(f: SortField, xs: seq<WorkspaceEntry>, recents: seq<RecentEntry>, counts: map<string, int>)
    requires f == LastModified || f == LastOpened || f == Frequency
    ensures var o := Order(f, Asc, recents, counts);
            var r := Sort(o, xs);
            forall i, j :: 0 <= i < j < |r| ==> Key(o, r[i]) <= Key(o, r[j])
  {
    var o := Order(f, Asc, recents, counts);
    var r := Sort(o, xs);
    forall i, j | 0 <= i < j < |r| ensures Key(o, r[i]) <= Key(o, r[j]) {
      assert Compare(o, r[i], r[j]) <= 0;
    }
  }
}

=== FILE: state_service.dfy ===
/** The persisted preferences: favourites, pins, groups, recents and open
    counts. The key/value store is the immutable record `Prefs`; every
    `globalState.update` bumps `writes`, every `onDidChangeState` firing
    bumps `changes`, and the two `setContext` flags are fields. */
module PreferenceState {
  import opened Util
  import opened Groups

  /** One entry of the most-recently-opened list. */
  datatype RecentEntry = RecentEntry(filePath: string, timestamp: int)

  datatype Prefs = Prefs(
    favorites: seq<string>,
    pinned: seq<string>,
    groups: seq<Group>,
    recents: seq<RecentEntry>,
    openCounts: map<string, int>,
    hasFavorites: bool,
    hasPinned: bool,
    changes: nat,
    writes: nat)

  /** A fresh store: every key missing, read as its default. */
  const Initial: Prefs := Prefs([], [], [], [], map[], false, false, 0, 0)

  /** The two path lists that share their toggle/remove logic. */
  datatype PathList = Favorites | Pinned

  function ListOf(s: Prefs, k: PathList): seq<string> {
    match k
    case Favorites => s.favorites
    case Pinned => s.pinned
  }

  /** Store a new version of one list, set its context flag, write once and
      notify once. */
  function SaveList(s: Prefs, k: PathList, xs: seq<string>): (r: Prefs)
    ensures ListOf(r, k) == xs
    ensures k.Favorites? ==> r.pinned == s.pinned && r.hasPinned == s.hasPinned && r.hasFavorites == (|xs| > 0)
    ensures k.Pinned? ==> r.favorites == s.favorites && r.hasFavorites == s.hasFavorites && r.hasPinned == (|xs| > 0)
    ensures r.groups == s.groups && r.recents == s.recents && r.openCounts == s.openCounts
    ensures r.writes == s.writes + 1 && r.changes == s.changes + 1
  {
    match k
    case Favorites => s.(favorites := xs, hasFavorites := |xs| > 0, writes := s.writes + 1, changes := s.changes + 1)
    case Pinned => s.(pinned := xs, hasPinned := |xs| > 0, writes := s.writes + 1, changes := s.changes + 1)
  }

  /** `toggleFavorite` / `togglePin`: drop the first occurrence when present,
      append otherwise; the result says whether the path was added. The
      store is written and listeners notified in both cases. */
  function Toggle(s: Prefs, k: PathList, p: string): (r: (Prefs, bool))
    ensures r.1 <==> p !in ListOf(s, k)
    ensures r.1 ==> ListOf(r.0, k) == ListOf(s, k) + [p]
    ensures !r.1 ==> ListOf(r.0, k) == RemoveFirst(ListOf(s, k), p)
    ensures r.0.writes == s.writes + 1 && r.0.changes == s.changes + 1
  {
    var xs := ListOf(s, k);
    if p in xs then (SaveList(s, k, RemoveFirst(xs, p)), false)
    else (SaveList(s, k, xs + [p]), true)
  }

  /** `removeFavorite` / `removePin`: drop the first occurrence; when the path
      is absent nothing is written and nobody is notified. */
  function Remove(s: Prefs, k: PathList, p: string): (r: Prefs)
    ensures p !in ListOf(s, k) ==> r == s
    ensures p in ListOf(s, k) ==> ListOf(r, k) == RemoveFirst(ListOf(s, k), p)
    ensures p in ListOf(s, k) ==> r.writes == s.writes + 1 && r.changes == s.changes + 1
    ensures p in ListOf(s, k) && k.Favorites? ==> r.hasFavorites == (|r.favorites| > 0)
    ensures p in ListOf(s, k) && k.Pinned? ==> r.hasPinned == (|r.pinned| > 0)
    ensures k.Favorites? ==> r.pinned == s.pinned && r.hasPinned == s.hasPinned
    ensures k.Pinned? ==> r.favorites == s.favorites && r.hasFavorites == s.hasFavorites
    ensures r.groups == s.groups && r.recents == s.recents && r.openCounts == s.openCounts
  {
    var xs := ListOf(s, k);
    if p in xs then SaveList(s, k, RemoveFirst(xs, p)) else s
  }

  /** A toggle touches only its own list. */
  lemma ToggleKeepsOtherList(s: Prefs, k: PathList, p: string)
    ensures var r := Toggle(s, k, p).0;
            ListOf(r, if k.Favorites? then Pinned else Favorites) == ListOf(s, if k.Favorites? then Pinned else Favorites)
            && r.groups == s.groups && r.recents == s.recents && r.openCounts == s.openCounts
  {
  }

  /** Toggling twice restores a list that held the path at most once: exactly
      when it was absent, and up to order (the path moves to the end) when it
      was present. */
  lemma {:induction false} ToggleTwice(s: Prefs, k: PathList, p: string)
    requires multiset(ListOf(s, k))[p] <= 1
    ensures var r := Toggle(Toggle(s, k, p).0, k, p);
            multiset(ListOf(r.0, k)) == multiset(ListOf(s, k))
            && (p !in ListOf(s, k) ==> ListOf(r.0, k) == ListOf(s, k))
            && r.1 == !Toggle(s, k, p).1
  {
    var xs := ListOf(s, k);
    var r1 := Toggle(s, k, p);
    var ys := ListOf(r1.0, k);
    var r2 := Toggle(r1.0, k, p);
    if p !in xs {
      RemoveAppended(xs, p);
    } else {
      AppendRemoved(xs, p);
    }
  }

  lemma RemoveAppended(xs: seq<string>, p: string)
    requires p !in xs
    ensures RemoveFirst(xs + [p], p) == xs
  {
    var ys := xs + [p];
    assert ys[|xs|] == p && ys[..|xs|] == xs;
    IndexOfAt(ys, p, |xs|);
  }

  lemma AppendRemoved(xs: seq<string>, p: string)
    requires p in xs && multiset(xs)[p] <= 1
    ensures p !in RemoveFirst(xs, p)
    ensures multiset(RemoveFirst(xs, p) + [p]) == multiset(xs)
  {
    assert multiset(RemoveFirst(xs, p))[p] == 0;
  }

  /** Removing a path that is listed once leaves it unlisted. */
  lemma RemoveOnce(s: Prefs, k: PathList, p: string)
    requires multiset(ListOf(s, k))[p] == 1
    ensures p !in ListOf(Remove(s, k, p), k)
  {
    var r := Remove(s, k, p);
    assert multiset(ListOf(r, k))[p] == 0;
  }

  /** Position of the first group with the id, or -1 (`groups.find`). */
  function GroupIndex(gs: seq<Group>, id: string): (r: int)
    ensures -1 <= r < |gs|
    ensures r == -1 <==> forall j :: 0 <= j < |gs| ==> gs[j].id != id
    ensures 0 <= r ==> gs[r].id == id && forall j :: 0 <= j < r ==> gs[j].id != id
  {
    if gs == [] then -1
    else if gs[0].id == id then 0
    else
      var k := GroupIndex(gs[1..], id);
      if k < 0 then -1 else k + 1
  }

  /** `saveGroups`: one write and one notification. */
  function SaveGroups(s: Prefs, gs: seq<Group>): (r: Prefs)
    ensures r.groups == gs && r.writes == s.writes + 1 && r.changes == s.changes + 1
    ensures r.favorites == s.favorites && r.pinned == s.pinned && r.recents == s.recents
    ensures r.openCounts == s.openCounts && r.hasFavorites == s.hasFavorites && r.hasPinned == s.hasPinned
  {
    s.(groups := gs, writes := s.writes + 1, changes := s.changes + 1)
  }

  /** `createGroup`: the new group, built from the clock reading and random
      suffix, is appended and returned. */
  function CreateGroup(s: Prefs, name: string, color: Option<string>, stamp: nat, suffix: string): (r: (Prefs, Group))
    ensures r.0.groups == s.groups + [r.1]
    ensures r.1.name == name && r.1.color == color && r.1.workspacePaths == []
    ensures StartsWith(r.1.id, IdPrefix)
    ensures r.0.writes == s.writes + 1 && r.0.changes == s.changes + 1
  {
    var g := Create(name, color, stamp, suffix);
    (SaveGroups(s, s.groups + [g]), g)
  }

  /** Replace the first group with the id by `g`; an unknown id changes
      nothing and writes nothing. */
  function UpdateFirst(s: Prefs, id: string, g: Group): (r: Prefs)
    ensures GroupIndex(s.groups, id) < 0 ==> r == s
    ensures GroupIndex(s.groups, id) >= 0 ==> r == SaveGroups(s, s.groups[GroupIndex(s.groups, id) := g])
  {
    var i := GroupIndex(s.groups, id);
    if i < 0 then s else SaveGroups(s, s.groups[i := g])
  }

  /** `renameGroup`: only the first group with the id gets the new name. */
  function RenameGroup(s: Prefs, id: string, newName: string): (r: Prefs)
    ensures |r.groups| == |s.groups|
    ensures forall j :: 0 <= j < |s.groups| && j != GroupIndex(s.groups, id) ==> r.groups[j] == s.groups[j]
    ensures GroupIndex(s.groups, id) >= 0 ==>
              var g := s.groups[GroupIndex(s.groups, id)];
              r.groups[GroupIndex(s.groups, id)] == g.(name := newName)
              && r.writes == s.writes + 1 && r.changes == s.changes + 1
    ensures GroupIndex(s.groups, id) < 0 ==> r == s
    ensures r.favorites == s.favorites && r.pinned == s.pinned && r.recents == s.recents
    ensures r.openCounts == s.openCounts && r.hasFavorites == s.hasFavorites && r.hasPinned == s.hasPinned
  {
    var i := GroupIndex(s.groups, id);
    if i < 0 then s else UpdateFirst(s, id, s.groups[i].(name := newName))
  }

  /** `setGroupColor`: only the first group with the id gets the colour. */
  function SetGroupColor(s: Prefs, id: string, color: string): (r: Prefs)
    ensures |r.groups| == |s.groups|
    ensures forall j :: 0 <= j < |s.groups| && j != GroupIndex(s.groups, id) ==> r.groups[j] == s.groups[j]
    ensures GroupIndex(s.groups, id) >= 0 ==>
              var g := s.groups[GroupIndex(s.groups, id)];
              r.groups[GroupIndex(s.groups, id)] == g.(color := Some(color))
              && r.writes == s.writes + 1 && r.changes == s.changes + 1
    ensures GroupIndex(s.groups, id) < 0 ==> r == s
    ensures r.favorites == s.favorites && r.pinned == s.pinned && r.recents == s.recents
    ensures r.openCounts == s.openCounts && r.hasFavorites == s.hasFavorites && r.hasPinned == s.hasPinned
  {
    var i := GroupIndex(s.groups, id);
    if i < 0 then s else UpdateFirst(s, id, s.groups[i].(color := Some(color)))
  }

  /** The groups without any group carrying the id: every other group
      stays, as often as it was stored and in its order. */
  function WithoutId(gs: seq<Group>, id: string): (r: seq<Group>)
    ensures forall j :: 0 <= j < |r| ==> r[j].id != id
    ensures forall g :: g in gs && g.id != id ==> g in r
    ensures forall g :: g in r ==> g in gs
    ensures forall g :: multiset(r)[g] == if g.id == id then 0 else multiset(gs)[g]
    ensures Subsequence(r, gs)
    ensures |r| <= |gs|
  {
    if gs == [] then []
    else
      var rest := WithoutId(gs[1..], id);
      assert gs == [gs[0]] + gs[1..];
      assert forall g :: g in gs ==> g == gs[0] || g in gs[1..];
      if gs[0].id == id then rest
      else
        assert ([gs[0]] + rest)[1..] == rest;
        [gs[0]] + rest
  }

  /** With no group of that id there is nothing to drop. */
  lemma {:induction false} WithoutAbsentId(gs: seq<Group>, id: string)
    requires forall j :: 0 <= j < |gs| ==> gs[j].id != id
    ensures WithoutId(gs, id) == gs
  {
    if gs != [] {
      WithoutAbsentId(gs[1..], id);
      assert gs == [gs[0]] + gs[1..];
    }
  }

  lemma {:induction false} WithoutIdConcat(a: seq<Group>, b: seq<Group>, id: string)
    ensures WithoutId(a + b, id) == WithoutId(a, id) + WithoutId(b, id)
  {
    if a == [] {
      assert a + b == b;
    } else {
      assert (a + b)[0] == a[0];
      assert (a + b)[1..] == a[1..] + b;
      WithoutIdConcat(a[1..], b, id);
    }
  }

  /** `deleteGroup`: every group with the id goes, the others stay in their
      order; the store is written even when there was none, and the other
      keys are untouched. */
  function DeleteGroup(s: Prefs, id: string): (r: Prefs)
    ensures forall j :: 0 <= j < |r.groups| ==> r.groups[j].id != id
    ensures forall g :: multiset(r.groups)[g] == if g.id == id then 0 else multiset(s.groups)[g]
    ensures Subsequence(r.groups, s.groups)
    ensures r.writes == s.writes + 1 && r.changes == s.changes + 1
    ensures r.favorites == s.favorites && r.pinned == s.pinned && r.recents == s.recents
    ensures r.openCounts == s.openCounts && r.hasFavorites == s.hasFavorites && r.hasPinned == s.hasPinned
  {
    SaveGroups(s, WithoutId(s.groups, id))
  }

  /** Deleting a group just created, under an id no other group had,
      gives back the groups as they were; afterwards no group has the id. */
  lemma DeleteUndoesCreate(s: Prefs, name: string, color: Option<string>, stamp: nat, suffix: string)
    requires forall j :: 0 <= j < |s.groups| ==> s.groups[j].id != Create(name, color, stamp, suffix).id
    ensures var c := CreateGroup(s, name, color, stamp, suffix);
            var r := DeleteGroup(c.0, c.1.id);
            r.groups == s.groups && GroupById(r, c.1.id).None?
  {
    var g := Create(name, color, stamp, suffix);
    WithoutIdConcat(s.groups, [g], g.id);
    WithoutAbsentId(s.groups, g.id);
    assert WithoutId([g], g.id) == [];
  }

  /** `addToGroup`: append to the first group with the id, unless the group
      is missing or already holds the path, in which case nothing happens. */
  function AddToGroup(s: Prefs, id: string, p: string): (r: Prefs)
    ensures |r.groups| == |s.groups|
    ensures forall j :: 0 <= j < |s.groups| && j != GroupIndex(s.groups, id) ==> r.groups[j] == s.groups[j]
    ensures GroupIndex(s.groups, id) >= 0 ==>
              var g := s.groups[GroupIndex(s.groups, id)];
              r.groups[GroupIndex(s.groups, id)].workspacePaths ==
                (if p in g.workspacePaths then g.workspacePaths else g.workspacePaths + [p])
              && p in r.groups[GroupIndex(s.groups, id)].workspacePaths
    ensures GroupIndex(s.groups, id) >= 0 && p !in s.groups[GroupIndex(s.groups, id)].workspacePaths ==>
              var g := s.groups[GroupIndex(s.groups, id)];
              r.groups[GroupIndex(s.groups, id)] == g.(workspacePaths := g.workspacePaths + [p])
              && r.writes == s.writes + 1 && r.changes == s.changes + 1
    ensures GroupIndex(s.groups, id) < 0 || p in s.groups[GroupIndex(s.groups, id)].workspacePaths ==> r == s
    ensures r.favorites == s.favorites && r.pinned == s.pinned && r.recents == s.recents
    ensures r.openCounts == s.openCounts && r.hasFavorites == s.hasFavorites && r.hasPinned == s.hasPinned
  {
    var i := GroupIndex(s.groups, id);
    if i < 0 || p in s.groups[i].workspacePaths then s
    else
      var g := s.groups[i];
      UpdateFirst(s, id, g.(workspacePaths := g.workspacePaths + [p]))
  }

  /** Adding never gives a group a repeated path. */
  lemma AddToGroupKeepsDistinct(s: Prefs, id: string, p: string)
    requires forall j :: 0 <= j < |s.groups| ==> NoDuplicates(s.groups[j].workspacePaths)
    ensures var r := AddToGroup(s, id, p);
            forall j :: 0 <= j < |r.groups| ==> NoDuplicates(r.groups[j].workspacePaths)
  {
    var r := AddToGroup(s, id, p);
    var i := GroupIndex(s.groups, id);
    if i >= 0 && p !in s.groups[i].workspacePaths {
      var xs := s.groups[i].workspacePaths;
      assert r.groups[i].workspacePaths == xs + [p];
      assert NoDuplicates(xs + [p]) by {
        forall a, b | 0 <= a < b < |xs| + 1 ensures (xs + [p])[a] != (xs + [p])[b] {
          if b == |xs| { assert (xs + [p])[a] == xs[a]; }
        }
      }
    }
  }

  /** `removeFromGroup`: every occurrence goes from the first group with the
      id; the store is written whenever the group exists. */
  function RemoveFromGroup(s: Prefs, id: string, p: string): (r: Prefs)
    ensures |r.groups| == |s.groups|
    ensures forall j :: 0 <= j < |s.groups| && j != GroupIndex(s.groups, id) ==> r.groups[j] == s.groups[j]
    ensures GroupIndex(s.groups, id) >= 0 ==>
              var g := s.groups[GroupIndex(s.groups, id)];
              var h := r.groups[GroupIndex(s.groups, id)];
              p !in h.workspacePaths && h.id == g.id && h.name == g.name && h.color == g.color
              && (forall q :: q != p ==> multiset(h.workspacePaths)[q] == multiset(g.workspacePaths)[q])
              && Subsequence(h.workspacePaths, g.workspacePaths)
              && r.writes == s.writes + 1 && r.changes == s.changes + 1
    ensures GroupIndex(s.groups, id) < 0 ==> r == s
    ensures r.favorites == s.favorites && r.pinned == s.pinned && r.recents == s.recents
    ensures r.openCounts == s.openCounts && r.hasFavorites == s.hasFavorites && r.hasPinned == s.hasPinned
  {
    var i := GroupIndex(s.groups, id);
    if i < 0 then s
    else
      var g := s.groups[i];
      UpdateFirst(s, id, g.(workspacePaths := RemoveAll(g.workspacePaths, p)))
  }

  /** The recents without any entry for the path: every other entry stays,
      as often as it was stored and in its order. */
  function WithoutPath(rs: seq<RecentEntry>, p: string): (r: seq<RecentEntry>)
    ensures forall j :: 0 <= j < |r| ==> r[j].filePath != p
    ensures forall e :: e in rs && e.filePath != p ==> e in r
    ensures forall e :: e in r ==> e in rs
    ensures forall e :: multiset(r)[e] == if e.filePath == p then 0 else multiset(rs)[e]
    ensures Subsequence(r, rs)
    ensures |r| <= |rs|
  {
    if rs == [] then []
    else
      var rest := WithoutPath(rs[1..], p);
      FilterStep(rs, rest);
      if rs[0].filePath == p then rest
      else
        assert ([rs[0]] + rest)[1..] == rest;
        [rs[0]] + rest
  }

  /** With no entry for the path there is nothing to drop. */
  lemma {:induction false} WithoutAbsentPath(rs: seq<RecentEntry>, p: string)
    requires forall j :: 0 <= j < |rs| ==> rs[j].filePath != p
    ensures WithoutPath(rs, p) == rs
  {
    if rs != [] {
      WithoutAbsentPath(rs[1..], p);
      assert rs == [rs[0]] + rs[1..];
    }
  }

  /** The facts each filtering step relies on: `rs` is its head followed by its tail. */
  lemma FilterStep<T>(rs: seq<T>, rest: seq<T>)
    requires rs != []
    ensures multiset(rs) == multiset{rs[0]} + multiset(rs[1..])
    ensures forall e :: e in rs <==> e == rs[0] || e in rs[1..]
    ensures Subsequence(rest, rs[1..]) ==> Subsequence(rest, rs)
    ensures Subsequence(rest, rs[1..]) ==> Subsequence([rs[0]] + rest, rs)
  {
    assert rs == [rs[0]] + rs[1..];
    assert ([rs[0]] + rest)[1..] == rest;
  }

  /** No two recents name the same path. */
  predicate DistinctPaths(rs: seq<RecentEntry>) {
    forall i, j :: 0 <= i < j < |rs| ==> rs[i].filePath != rs[j].filePath
  }

  lemma {:induction false} WithoutPathKeepsDistinct(rs: seq<RecentEntry>, p: string)
    requires DistinctPaths(rs)
    ensures DistinctPaths(WithoutPath(rs, p))
  {
    if rs != [] {
      WithoutPathKeepsDistinct(rs[1..], p);
      var rest := WithoutPath(rs[1..], p);
      if rs[0].filePath != p {
        forall j | 0 <= j < |rest| ensures rest[j].filePath != rs[0].filePath {
          assert rest[j] in rs[1..];
        }
      }
    }
  }

  /** `addRecent`: the path moves to the front with the current time, its
      older entries go, and the list is cut with `slice(0, maxCount)`. A
      positive bound keeps the new entry and the first `maxCount - 1` other
      entries in their old order; zero keeps nothing; a negative bound drops
      that many entries from the end. */
  function AddRecent(s: Prefs, p: string, now: int, maxCount: int): (r: Prefs)
    ensures maxCount >= 1 ==> |r.recents| >= 1 && r.recents[0] == RecentEntry(p, now)
    ensures forall j :: 1 <= j < |r.recents| ==> r.recents[j].filePath != p && r.recents[j] in s.recents
    ensures var kept := WithoutPath(s.recents, p);
            maxCount >= 1 ==>
              r.recents == [RecentEntry(p, now)] + kept[..if maxCount - 1 < |kept| then maxCount - 1 else |kept|]
    ensures maxCount == 0 ==> r.recents == []
    ensures var all := [RecentEntry(p, now)] + WithoutPath(s.recents, p);
            maxCount < 0 ==> r.recents == all[..if |all| + maxCount < 0 then 0 else |all| + maxCount]
    ensures maxCount >= 0 ==> |r.recents| <= maxCount
    ensures |r.recents| <= |s.recents| + 1
    ensures r.writes == s.writes + 1 && r.changes == s.changes + 1
    ensures r.favorites == s.favorites && r.pinned == s.pinned && r.groups == s.groups && r.openCounts == s.openCounts
  {
    var kept := WithoutPath(s.recents, p);
    var rs := [RecentEntry(p, now)] + kept;
    SliceBehindHead(RecentEntry(p, now), kept, maxCount);
    s.(recents := SliceTo(rs, maxCount), writes := s.writes + 1, changes := s.changes + 1)
  }

  /** Cutting `[x] + kept` at `n`: the parts of the slice. */
  lemma SliceBehindHead<T>(x: T, kept: seq<T>, n: int)
    ensures var r := SliceTo([x] + kept, n);
            && (n >= 1 ==> r == [x] + kept[..if n - 1 < |kept| then n - 1 else |kept|])
            && (n >= 1 ==> |r| >= 1 && r[0] == x)
            && (forall j :: 1 <= j < |r| ==> r[j] == kept[j - 1])
            && (n >= 0 ==> |r| <= n)
            && |r| <= |kept| + 1
  {
    var r := SliceTo([x] + kept, n);
    assert forall j :: 0 <= j < |r| ==> r[j] == ([x] + kept)[j];
    if n >= 1 {
      var m := if n - 1 < |kept| then n - 1 else |kept|;
      assert r == ([x] + kept)[..m + 1];
      assert ([x] + kept)[..m + 1] == [x] + kept[..m];
    }
  }

  /** Recording an opening keeps the recents free of repeated paths. */
  lemma AddRecentKeepsDistinct(s: Prefs, p: string, now: int, maxCount: int)
    requires DistinctPaths(s.recents)
    ensures DistinctPaths(AddRecent(s, p, now, maxCount).recents)
  {
    var rest := WithoutPath(s.recents, p);
    WithoutPathKeepsDistinct(s.recents, p);
    var rs := [RecentEntry(p, now)] + rest;
    assert DistinctPaths(rs);
    var r := SliceTo(rs, maxCount);
    assert AddRecent(s, p, now, maxCount).recents == r;
    DistinctPrefix(rs, |r|);
  }

  lemma DistinctPrefix(rs: seq<RecentEntry>, m: nat)
    requires DistinctPaths(rs) && m <= |rs|
    ensures DistinctPaths(rs[..m])
  {
    assert forall i :: 0 <= i < m ==> rs[..m][i] == rs[i];
  }

  /** With room for it, every other recent path survives an opening, behind
      the new entry. */
  lemma AddRecentKeepsOthers(s: Prefs, p: string, now: int, maxCount: int)
    requires maxCount > |s.recents|
    ensures forall e :: e in s.recents && e.filePath != p ==> e in AddRecent(s, p, now, maxCount).recents[1..]
  {
    var rest := WithoutPath(s.recents, p);
    var r := AddRecent(s, p, now, maxCount).recents;
    assert r == [RecentEntry(p, now)] + rest;
    assert r[1..] == rest;
  }

  /** Recording the same opening twice, with a bound of zero or more, is the
      same as recording it once. */
  lemma AddRecentTwice(s: Prefs, p: string, now: int, maxCount: int)
    requires maxCount >= 0
    ensures AddRecent(AddRecent(s, p, now, maxCount), p, now, maxCount).recents
            == AddRecent(s, p, now, maxCount).recents
  {
    var once := AddRecent(s, p, now, maxCount).recents;
    if maxCount >= 1 {
      var tail := once[1..];
      assert once == [RecentEntry(p, now)] + tail;
      assert WithoutPath(once, p) == WithoutPath(tail, p);
      WithoutAbsentPath(tail, p);
    }
  }

  /** `clearRecents`. */
  function ClearRecents(s: Prefs): (r: Prefs)
    ensures r.recents == [] && r.writes == s.writes + 1 && r.changes == s.changes + 1
    ensures r.favorites == s.favorites && r.pinned == s.pinned && r.groups == s.groups && r.openCounts == s.openCounts
  {
    s.(recents := [], writes := s.writes + 1, changes := s.changes + 1)
  }

  /** `getOpenCount`: a missing count reads as 0. */
  function OpenCount(counts: map<string, int>, p: string): int {
    if p in counts then counts[p] else 0
  }

  /** `incrementOpenCount`: the path's count goes up by one, no other count
      moves, the store is written and no listener is notified. */
  function IncrementOpenCount(s: Prefs, p: string): (r: Prefs)
    ensures OpenCount(r.openCounts, p) == OpenCount(s.openCounts, p) + 1
    ensures forall q :: q != p ==> OpenCount(r.openCounts, q) == OpenCount(s.openCounts, q)
    ensures r.openCounts.Keys == s.openCounts.Keys + {p}
    ensures r.writes == s.writes + 1 && r.changes == s.changes
    ensures r.favorites == s.favorites && r.pinned == s.pinned && r.groups == s.groups && r.recents == s.recents
    ensures r.hasFavorites == s.hasFavorites && r.hasPinned == s.hasPinned
  {
    s.(openCounts := s.openCounts[p := OpenCount(s.openCounts, p) + 1], writes := s.writes + 1)
  }

  /** Opening a path n times from a fresh count leaves its count at n. */
  function IncrementTimes(s: Prefs, p: string, n: nat): Prefs
    decreases n
  {
    if n == 0 then s else IncrementOpenCount(IncrementTimes(s, p, n - 1), p)
  }

  lemma {:induction false} IncrementTimesCounts(s: Prefs, p: string, n: nat)
    ensures OpenCount(IncrementTimes(s, p, n).openCounts, p) == OpenCount(s.openCounts, p) + n
    ensures IncrementTimes(s, p, n).changes == s.changes
  {
    if n > 0 {
      IncrementTimesCounts(s, p, n - 1);
    }
  }

  // ---------------------------------------------------------------------
  // Queries and the context flags

  /** `isFavorite` / `isPinned`. */
  predicate IsListed(s: Prefs, k: PathList, p: string) {
    p in ListOf(s, k)
  }

  /** After a toggle the path is listed exactly when the toggle reports it added. */
  lemma ToggleReports(s: Prefs, k: PathList, p: string)
    requires multiset(ListOf(s, k))[p] <= 1
    ensures IsListed(Toggle(s, k, p).0, k, p) <==> Toggle(s, k, p).1
  {
    var xs := ListOf(s, k);
    if p in xs {
      assert multiset(ListOf(Toggle(s, k, p).0, k))[p] == 0;
    }
  }

  /** `getGroupById`: the first group with the id, if any. */
  function GroupById(s: Prefs, id: string): (r: Option<Group>)
    ensures r.None? <==> forall j :: 0 <= j < |s.groups| ==> s.groups[j].id != id
    ensures r.Some? ==> r.value.id == id && r.value in s.groups
    ensures r.Some? ==> r.value == s.groups[GroupIndex(s.groups, id)]
  {
    var i := GroupIndex(s.groups, id);
    if i < 0 then None else Some(s.groups[i])
  }

  /** `getGroupsForWorkspace`: the groups listing the path, each as often
      as it is stored, in stored order. */
  function GroupsForWorkspace(gs: seq<Group>, p: string): (r: seq<Group>)
    ensures forall g :: g in r <==> g in gs && p in g.workspacePaths
    ensures forall g :: multiset(r)[g] == if p in g.workspacePaths then multiset(gs)[g] else 0
    ensures Subsequence(r, gs)
    ensures |r| <= |gs|
  {
    if gs == [] then []
    else
      var rest := GroupsForWorkspace(gs[1..], p);
      assert gs == [gs[0]] + gs[1..];
      assert forall g :: g in gs <==> g == gs[0] || g in gs[1..];
      if p in gs[0].workspacePaths then
        assert ([gs[0]] + rest)[1..] == rest;
        [gs[0]] + rest
      else rest
  }

  /** Adding a path to a known group makes the group list it. */
  lemma AddedIsFound(s: Prefs, id: string, p: string)
    requires GroupIndex(s.groups, id) >= 0
    ensures var r := AddToGroup(s, id, p);
            r.groups[GroupIndex(s.groups, id)] in GroupsForWorkspace(r.groups, p)
  {
  }

  /** The two context keys agree with the lists. */
  predicate FlagsAgree(s: Prefs) {
    s.hasFavorites == (|s.favorites| > 0) && s.hasPinned == (|s.pinned| > 0)
  }

  /** `initContext`: both context keys set from the stored lists; nothing
      is written and nobody notified. */
  function InitContext(s: Prefs): (r: Prefs)
    ensures FlagsAgree(r)
    ensures r.favorites == s.favorites && r.pinned == s.pinned && r.groups == s.groups
    ensures r.recents == s.recents && r.openCounts == s.openCounts
    ensures r.writes == s.writes && r.changes == s.changes
  {
    s.(hasFavorites := |s.favorites| > 0, hasPinned := |s.pinned| > 0)
  }

  /** Once the keys agree with the lists, every list operation keeps them so. */
  lemma ListOperationsKeepFlags(s: Prefs, k: PathList, p: string)
    requires FlagsAgree(s)
    ensures FlagsAgree(Toggle(s, k, p).0) && FlagsAgree(Remove(s, k, p))
  {
  }
}

=== FILE: tree_provider.dfy ===
/** The folder hierarchy of the workspace tree view. A `FolderNode` keeps its
    children as (name, node) pairs in insertion order, as the source's `Map`
    does; recursion over children is by index into the parent. */
module FolderTree {
  import opened Util
  import opened NodePath
  import opened WorkspaceEntries
  import Sorting

  datatype FolderNode = FolderNode(
    name: string,
    fullPath: string,
    children: seq<(string, FolderNode)>,
    workspaces: seq<WorkspaceEntry>)

  /** The items the view shows: a folder (label and path) or a workspace. */
  datatype TreeItem = FolderItem(title: string, folderPath: string) | WorkspaceItem(entry: WorkspaceEntry)

  datatype ViewMode = Tree | List

  /** `toggleViewMode`. */
  function ToggleViewMode(m: ViewMode): (r: ViewMode)
    ensures r != m
  {
    if m == Tree then List else Tree
  }

  lemma ToggleTwice(m: ViewMode)
    ensures ToggleViewMode(ToggleViewMode(m)) == m
  {
  }

  // ---------------------------------------------------------------------
  // Children as an ordered map

  /** `children.get(key)` as a position: the first pair with the key, or -1. */
  function KeyIndex(cs: seq<(string, FolderNode)>, key: string): (r: int)
    ensures -1 <= r < |cs|
    ensures r >= 0 ==> cs[r].0 == key && forall j :: 0 <= j < r ==> cs[j].0 != key
    ensures r == -1 <==> forall j :: 0 <= j < |cs| ==> cs[j].0 != key
  {
    if cs == [] then -1
    else if cs[0].0 == key then 0
    else
      var k := KeyIndex(cs[1..], key);
      if k < 0 then -1 else k + 1
  }

  /** The first pair with `key` sits at `j`. */
  lemma {:induction false} KeyIndexAt(cs: seq<(string, FolderNode)>, key: string, j: nat)
    requires j < |cs| && cs[j].0 == key
    requires forall k :: 0 <= k < j ==> cs[k].0 != key
    ensures KeyIndex(cs, key) == j
  {
    if j > 0 {
      KeyIndexAt(cs[1..], key, j - 1);
    }
  }

  predicate DistinctKeys(cs: seq<(string, FolderNode)>) {
    forall i, j :: 0 <= i < j < |cs| ==> cs[i].0 != cs[j].0
  }

  /** The shape every built tree keeps: keys are distinct, each child is
      named by its key, and sits at `join(parent.fullPath, key)`. */
  predicate WellFormed(n: FolderNode)
    decreases n
  {
    DistinctKeys(n.children)
    && forall i :: 0 <= i < |n.children| ==>
         n.children[i].1.name == n.children[i].0
         && n.children[i].1.fullPath == Join(n.fullPath, n.children[i].0)
         && WellFormed(n.children[i].1)
  }

  // ---------------------------------------------------------------------
  // The entries held anywhere in a tree

  function Entries(n: FolderNode): multiset<WorkspaceEntry>
    decreases n, 1
  {
    multiset(n.workspaces) + EntriesFrom(n, 0)
  }

  function EntriesFrom(n: FolderNode, i: nat): multiset<WorkspaceEntry>
    requires i <= |n.children|
    decreases n, 0, |n.children| - i
  {
    if i == |n.children| then multiset{} else Entries(n.children[i].1) + EntriesFrom(n, i + 1)
  }

  /** The entries below a list of children. */
  function ChildEntries(cs: seq<(string, FolderNode)>): multiset<WorkspaceEntry>
    decreases |cs|
  {
    if cs == [] then multiset{} else Entries(cs[0].1) + ChildEntries(cs[1..])
  }

  lemma {:induction false} EntriesFromIsChildEntries(n: FolderNode, i: nat)
    requires i <= |n.children|
    ensures EntriesFrom(n, i) == ChildEntries(n.children[i..])
    decreases |n.children| - i
  {
    if i < |n.children| {
      EntriesFromIsChildEntries(n, i + 1);
      assert n.children[i..][1..] == n.children[i + 1..];
    }
  }

  lemma EntriesSplit(n: FolderNode)
    ensures Entries(n) == multiset(n.workspaces) + ChildEntries(n.children)
  {
    EntriesFromIsChildEntries(n, 0);
    assert n.children[0..] == n.children;
  }

  lemma {:induction false} ChildEntriesAppend(a: seq<(string, FolderNode)>, b: seq<(string, FolderNode)>)
    ensures ChildEntries(a + b) == ChildEntries(a) + ChildEntries(b)
    decreases |a|
  {
    if a == [] {
      assert a + b == b;
    } else {
      assert (a + b)[0] == a[0];
      assert (a + b)[1..] == a[1..] + b;
      ChildEntriesAppend(a[1..], b);
    }
  }

  lemma ChildEntriesUpdate(cs: seq<(string, FolderNode)>, j: nat, x: (string, FolderNode))
    requires j < |cs|
    ensures ChildEntries(cs[j := x]) + Entries(cs[j].1) == ChildEntries(cs) + Entries(x.1)
  {
    assert cs == cs[..j] + [cs[j]] + cs[j + 1..];
    assert cs[j := x] == cs[..j] + [x] + cs[j + 1..];
    ChildEntriesAppend(cs[..j] + [cs[j]], cs[j + 1..]);
    ChildEntriesAppend(cs[..j], [cs[j]]);
    ChildEntriesAppend(cs[..j] + [x], cs[j + 1..]);
    ChildEntriesAppend(cs[..j], [x]);
    assert ChildEntries([x]) == Entries(x.1);
    assert ChildEntries([cs[j]]) == Entries(cs[j].1);
  }

  // ---------------------------------------------------------------------
  // insertIntoTree

  /** The node reached from `n` by following `segments` as keys, if any. */
  function At(n: FolderNode, segments: seq<string>): Option<FolderNode>
    decreases |segments|
  {
    if segments == [] then Some(n)
    else
      var i := KeyIndex(n.children, segments[0]);
      if i < 0 then None else At(n.children[i].1, segments[1..])
  }

  /** Only the pair under `key` may differ between `cs` and `cs2`; a key that
      was missing is added at the end. */
  predicate OnlyKeyChanged(cs: seq<(string, FolderNode)>, cs2: seq<(string, FolderNode)>, key: string) {
    (KeyIndex(cs, key) >= 0 ==> |cs2| == |cs|)
    && (KeyIndex(cs, key) < 0 ==> |cs2| == |cs| + 1 && cs2[|cs|].0 == key)
    && forall j :: 0 <= j < |cs| ==> cs2[j].0 == cs[j].0 && (cs[j].0 != key ==> cs2[j] == cs[j])
  }

  /** `insertIntoTree`: walk down by `segments`, creating missing children at
      the end of their parent's list, and append the entry at the bottom. */
  function Insert(n: FolderNode, segments: seq<string>, e: WorkspaceEntry): (r: FolderNode)
    ensures r.name == n.name && r.fullPath == n.fullPath
    ensures segments == [] ==> r.workspaces == n.workspaces + [e] && r.children == n.children
    ensures segments != [] ==> r.workspaces == n.workspaces && OnlyKeyChanged(n.children, r.children, segments[0])
    decreases |segments|
  {
    if segments == [] then n.(workspaces := n.workspaces + [e])
    else
      var first := segments[0];
      var i := KeyIndex(n.children, first);
      if i >= 0 then
        n.(children := n.children[i := (first, Insert(n.children[i].1, segments[1..], e))])
      else
        var created := FolderNode(first, Join(n.fullPath, first), [], []);
        n.(children := n.children + [(first, Insert(created, segments[1..], e))])
  }

  /** Inserting adds exactly the one entry to the tree: nothing is lost or duplicated. */
  lemma {:induction false} InsertEntries(n: FolderNode, segments: seq<string>, e: WorkspaceEntry)
    ensures Entries(Insert(n, segments, e)) == Entries(n) + multiset{e}
    decreases |segments|
  {
    if segments == [] {
      EntriesSplit(n);
      EntriesSplit(Insert(n, segments, e));
    } else {
      var first := segments[0];
      var i := KeyIndex(n.children, first);
      if i >= 0 {
        InsertEntries(n.children[i].1, segments[1..], e);
        ReplaceChildEntries(n, i, Insert(n.children[i].1, segments[1..], e), e);
      } else {
        var created := FolderNode(first, Join(n.fullPath, first), [], []);
        InsertEntries(created, segments[1..], e);
        EntriesSplit(created);
        AppendChildEntries(n, first, Insert(created, segments[1..], e), e);
      }
    }
  }

  /** Replacing a child by one that holds one more entry adds that entry. */
  lemma ReplaceChildEntries(n: FolderNode, i: nat, c: FolderNode, e: WorkspaceEntry)
    requires i < |n.children| && Entries(c) == Entries(n.children[i].1) + multiset{e}
    ensures Entries(n.(children := n.children[i := (n.children[i].0, c)])) == Entries(n) + multiset{e}
  {
    var r := n.(children := n.children[i := (n.children[i].0, c)]);
    EntriesSplit(n);
    EntriesSplit(r);
    ChildEntriesUpdate(n.children, i, (n.children[i].0, c));
    var prev := Entries(n.children[i].1);
    forall y ensures ChildEntries(r.children)[y] == (ChildEntries(n.children) + multiset{e})[y] {
      assert (ChildEntries(r.children) + prev)[y] == (ChildEntries(n.children) + prev + multiset{e})[y];
    }
    assert ChildEntries(r.children) == ChildEntries(n.children) + multiset{e};
  }

  /** Appending a child that holds just one entry adds that entry. */
  lemma AppendChildEntries(n: FolderNode, key: string, c: FolderNode, e: WorkspaceEntry)
    requires Entries(c) == multiset{e}
    ensures Entries(n.(children := n.children + [(key, c)])) == Entries(n) + multiset{e}
  {
    var r := n.(children := n.children + [(key, c)]);
    EntriesSplit(n);
    EntriesSplit(r);
    ChildEntriesAppend(n.children, [(key, c)]);
    assert ChildEntries([(key, c)]) == Entries(c) by {
      assert [(key, c)][1..] == [];
    }
  }

  /** `m` is a node whose last workspace is `e`. */
  predicate EndsWithEntry(m: Option<FolderNode>, e: WorkspaceEntry) {
    m.Some? && |m.value.workspaces| > 0 && m.value.workspaces[|m.value.workspaces| - 1] == e
  }

  /** The entry ends up last in the node the segments lead to. */
  lemma {:induction false} InsertReaches(n: FolderNode, segments: seq<string>, e: WorkspaceEntry)
    ensures EndsWithEntry(At(Insert(n, segments, e), segments), e)
    decreases |segments|
  {
    if segments != [] {
      var i := KeyIndex(n.children, segments[0]);
      if i >= 0 {
        InsertReaches(n.children[i].1, segments[1..], e);
        InsertStepExisting(n, segments, e, i);
      } else {
        InsertReaches(FolderNode(segments[0], Join(n.fullPath, segments[0]), [], []), segments[1..], e);
        InsertStepNew(n, segments, e);
      }
    }
  }

  lemma InsertStepExisting(n: FolderNode, segments: seq<string>, e: WorkspaceEntry, i: nat)
    requires segments != [] && i == KeyIndex(n.children, segments[0])
    ensures At(Insert(n, segments, e), segments) == At(Insert(n.children[i].1, segments[1..], e), segments[1..])
  {
    var r := Insert(n, segments, e);
    var c := Insert(n.children[i].1, segments[1..], e);
    assert r.children == n.children[i := (segments[0], c)];
    KeyIndexAt(r.children, segments[0], i);
  }

  lemma InsertStepNew(n: FolderNode, segments: seq<string>, e: WorkspaceEntry)
    requires segments != [] && KeyIndex(n.children, segments[0]) < 0
    ensures var created := FolderNode(segments[0], Join(n.fullPath, segments[0]), [], []);
            At(Insert(n, segments, e), segments) == At(Insert(created, segments[1..], e), segments[1..])
  {
    var r := Insert(n, segments, e);
    var created := FolderNode(segments[0], Join(n.fullPath, segments[0]), [], []);
    var c := Insert(created, segments[1..], e);
    assert r.children == n.children + [(segments[0], c)];
    KeyIndexAt(r.children, segments[0], |n.children|);
  }

  /** Inserting keeps a tree well formed. */
  lemma {:induction false} InsertWellFormed(n: FolderNode, segments: seq<string>, e: WorkspaceEntry)
    requires WellFormed(n)
    ensures WellFormed(Insert(n, segments, e))
    decreases |segments|
  {
    if segments != [] {
      var first := segments[0];
      var i := KeyIndex(n.children, first);
      if i >= 0 {
        InsertWellFormed(n.children[i].1, segments[1..], e);
        InsertExistingWellFormed(n, i, Insert(n.children[i].1, segments[1..], e));
      } else {
        var created := FolderNode(first, Join(n.fullPath, first), [], []);
        InsertWellFormed(created, segments[1..], e);
        InsertNewWellFormed(n, first, Insert(created, segments[1..], e));
      }
    }
  }

  lemma InsertExistingWellFormed(n: FolderNode, i: nat, c: FolderNode)
    requires i < |n.children| && WellFormed(n)
    requires c.name == n.children[i].1.name && c.fullPath == n.children[i].1.fullPath && WellFormed(c)
    ensures WellFormed(n.(children := n.children[i := (n.children[i].0, c)]))
  {
  }

  lemma InsertNewWellFormed(n: FolderNode, first: string, c: FolderNode)
    requires forall j :: 0 <= j < |n.children| ==> n.children[j].0 != first
    requires c.name == first && c.fullPath == Join(n.fullPath, first) && WellFormed(c) && WellFormed(n)
    ensures WellFormed(n.(children := n.children + [(first, c)]))
  {
  }

  // ---------------------------------------------------------------------
  // condenseNode

  /** A folder with exactly one child folder and no workspaces of its own. */
  predicate Condensable(n: FolderNode) {
    |n.children| == 1 && n.workspaces == []
  }

  /** The bottom of the single-child chain starting at `n`. */
  function Deepest(n: FolderNode): FolderNode
    decreases n
  {
    if Condensable(n) then Deepest(n.children[0].1) else n
  }

  /** The names along the single-child chain starting at `n`. */
  function ChainNames(n: FolderNode): (r: seq<string>)
    ensures |r| >= 1 && r[0] == n.name
    decreases n
  {
    if Condensable(n) then [n.name] + ChainNames(n.children[0].1) else [n.name]
  }

  /** `condenseNode`: a single-child chain collapses into one node named by
      the chain's names joined with '/', carrying the path, children and
      workspaces of the chain's last node. Any other node is kept. */
  function Condense(n: FolderNode): (r: FolderNode)
    ensures !Condensable(r)
    ensures !Condensable(n) ==> r == n
    ensures r.fullPath == Deepest(n).fullPath
    ensures r.children == Deepest(n).children && r.workspaces == Deepest(n).workspaces
    ensures r.name == JoinWith(ChainNames(n), '/')
    ensures Entries(r) == Entries(n)
    decreases n
  {
    if Condensable(n) then
      var c := Condense(n.children[0].1);
      var r := FolderNode(n.name + "/" + c.name, c.fullPath, c.children, c.workspaces);
      EntriesSplit(n);
      EntriesSplit(c);
      EntriesSplit(r);
      assert n.children[1..] == [];
      r
    else n
  }

  /** Condensing is idempotent. */
  lemma CondenseIdempotent(n: FolderNode)
    ensures Condense(Condense(n)) == Condense(n)
  {
  }

  // ---------------------------------------------------------------------
  // folderNodeToItems

  /** What is listed for a child: the child, condensed when enabled. */
  function View(c: FolderNode, condense: bool): FolderNode {
    if condense then Condense(c) else c
  }

  /** A folder is listed only when it has child folders or workspaces. */
  predicate Shown(v: FolderNode) {
    |v.children| > 0 || |v.workspaces| > 0
  }

  function ItemFor(v: FolderNode): TreeItem {
    FolderItem(v.name, v.fullPath)
  }

  /** Whether child `j` of `n` is listed, and the item it is listed as. */
  predicate ShownAt(n: FolderNode, j: nat, condense: bool)
    requires j < |n.children|
  {
    Shown(View(n.children[j].1, condense))
  }

  function ItemAt(n: FolderNode, j: nat, condense: bool): TreeItem
    requires j < |n.children|
  {
    ItemFor(View(n.children[j].1, condense))
  }

  /** The folder items for children `i..` in insertion order. */
  function FolderItems(n: FolderNode, i: nat, condense: bool): (r: seq<TreeItem>)
    requires i <= |n.children|
    ensures |r| <= |n.children| - i
    ensures forall k :: 0 <= k < |r| ==> r[k].FolderItem?
    decreases |n.children| - i
  {
    if i == |n.children| then []
    else
      var v := View(n.children[i].1, condense);
      var rest := FolderItems(n, i + 1, condense);
      if Shown(v) then [ItemFor(v)] + rest else rest
  }

  /** Every child that has contents is listed ... */
  lemma {:induction false} ShownChildListed(n: FolderNode, i: nat, condense: bool, j: nat)
    requires i <= j < |n.children| && Shown(View(n.children[j].1, condense))
    ensures ItemFor(View(n.children[j].1, condense)) in FolderItems(n, i, condense)
    decreases |n.children| - i
  {
    if i < j {
      ShownChildListed(n, i + 1, condense, j);
    }
  }

  /** ... and every listed folder is such a child. */
  lemma {:induction false} ListedIsShownChild(n: FolderNode, i: nat, condense: bool, k: nat)
    requires i <= |n.children| && k < |FolderItems(n, i, condense)|
    ensures exists j :: i <= j < |n.children| && Shown(View(n.children[j].1, condense))
                        && FolderItems(n, i, condense)[k] == ItemFor(View(n.children[j].1, condense))
  {
    FolderItemsFollowShown(n, i, condense);
    var idx := ShownIndices(n, i, condense);
    ItemsAtIndex(n, idx, condense, k);
    assert ShownAt(n, idx[k], condense);
  }

  /** When every child has contents, the folders appear one per child, in
      insertion order. */
  lemma {:induction false} AllShownInOrder(n: FolderNode, i: nat, condense: bool)
    requires i <= |n.children|
    requires forall j :: i <= j < |n.children| ==> Shown(View(n.children[j].1, condense))
    ensures |FolderItems(n, i, condense)| == |n.children| - i
    ensures forall k :: 0 <= k < |n.children| - i ==>
              FolderItems(n, i, condense)[k] == ItemFor(View(n.children[i + k].1, condense))
    decreases |n.children| - i
  {
    if i < |n.children| {
      AllShownInOrder(n, i + 1, condense);
      var r, rest := FolderItems(n, i, condense), FolderItems(n, i + 1, condense);
      assert r == [ItemFor(View(n.children[i].1, condense))] + rest;
      forall k | 1 <= k < |n.children| - i
        ensures r[k] == ItemFor(View(n.children[i + k].1, condense))
      {
        assert r[k] == rest[k - 1];
        assert i + 1 + (k - 1) == i + k;
      }
    }
  }

  /** The positions of the children from `i` on that have contents, in
      increasing order. */
  function ShownIndices(n: FolderNode, i: nat, condense: bool): (r: seq<nat>)
    requires i <= |n.children|
    ensures forall k :: 0 <= k < |r| ==> i <= r[k] < |n.children| && ShownAt(n, r[k], condense)
    ensures forall k, l :: 0 <= k < l < |r| ==> r[k] < r[l]
    decreases |n.children| - i
  {
    if i == |n.children| then []
    else
      var rest := ShownIndices(n, i + 1, condense);
      if ShownAt(n, i, condense) then
        var r := [i] + rest;
        assert forall k :: 1 <= k < |r| ==> r[k] == rest[k - 1];
        r
      else rest
  }

  /** No shown child is missing from the positions. */
  lemma {:induction false} ShownIndexListed(n: FolderNode, i: nat, condense: bool, j: nat)
    requires i <= j < |n.children| && ShownAt(n, j, condense)
    ensures j in ShownIndices(n, i, condense)
    decreases |n.children| - i
  {
    if i < j {
      ShownIndexListed(n, i + 1, condense, j);
    }
  }

  /** The items of the children at positions `idx`, in that order. */
  function ItemsAt(n: FolderNode, idx: seq<nat>, condense: bool): (r: seq<TreeItem>)
    requires forall k :: 0 <= k < |idx| ==> idx[k] < |n.children|
    ensures |r| == |idx|
  {
    if idx == [] then [] else [ItemAt(n, idx[0], condense)] + ItemsAt(n, idx[1..], condense)
  }

  lemma {:induction false} ItemsAtIndex(n: FolderNode, idx: seq<nat>, condense: bool, k: nat)
    requires forall l :: 0 <= l < |idx| ==> idx[l] < |n.children|
    requires k < |idx|
    ensures ItemsAt(n, idx, condense)[k] == ItemAt(n, idx[k], condense)
    decreases k
  {
    if k > 0 {
      ItemsAtIndex(n, idx[1..], condense, k - 1);
    }
  }

  /** The folder items are exactly the shown children's items, one each, in
      insertion order: hidden children are skipped and nothing is reordered. */
  lemma {:induction false} FolderItemsFollowShown(n: FolderNode, i: nat, condense: bool)
    requires i <= |n.children|
    ensures FolderItems(n, i, condense) == ItemsAt(n, ShownIndices(n, i, condense), condense)
    decreases |n.children| - i
  {
    if i < |n.children| {
      FolderItemsFollowShown(n, i + 1, condense);
      if ShownAt(n, i, condense) {
        ShownChildStep(n, i, condense);
      } else {
        HiddenChildStep(n, i, condense);
      }
    }
  }

  lemma ShownChildStep(n: FolderNode, i: nat, condense: bool)
    requires i < |n.children| && ShownAt(n, i, condense)
    requires FolderItems(n, i + 1, condense) == ItemsAt(n, ShownIndices(n, i + 1, condense), condense)
    ensures FolderItems(n, i, condense) == ItemsAt(n, ShownIndices(n, i, condense), condense)
  {
    var idx, restIdx := ShownIndices(n, i, condense), ShownIndices(n, i + 1, condense);
    assert idx == [i] + restIdx && idx[1..] == restIdx;
    calc {
      ItemsAt(n, idx, condense);
      [ItemAt(n, i, condense)] + ItemsAt(n, restIdx, condense);
      [ItemAt(n, i, condense)] + FolderItems(n, i + 1, condense);
      FolderItems(n, i, condense);
    }
  }

  lemma HiddenChildStep(n: FolderNode, i: nat, condense: bool)
    requires i < |n.children| && !ShownAt(n, i, condense)
    requires FolderItems(n, i + 1, condense) == ItemsAt(n, ShownIndices(n, i + 1, condense), condense)
    ensures FolderItems(n, i, condense) == ItemsAt(n, ShownIndices(n, i, condense), condense)
  {
    assert ShownIndices(n, i, condense) == ShownIndices(n, i + 1, condense);
  }

  function WorkspaceItems(ws: seq<WorkspaceEntry>): (r: seq<TreeItem>)
    ensures |r| == |ws| && forall k :: 0 <= k < |ws| ==> r[k] == WorkspaceItem(ws[k])
  {
    if ws == [] then [] else [WorkspaceItem(ws[0])] + WorkspaceItems(ws[1..])
  }

  /** `folderNodeToItems`: the listed child folders first, then the node's
      own workspaces in stored order. */
  function FolderNodeToItems(n: FolderNode, condense: bool): (r: seq<TreeItem>)
    ensures |r| >= |n.workspaces|
    ensures r[..|r| - |n.workspaces|] == FolderItems(n, 0, condense)
    ensures forall k :: 0 <= k < |n.workspaces| ==> r[|r| - |n.workspaces| + k] == WorkspaceItem(n.workspaces[k])
  {
    var f := FolderItems(n, 0, condense);
    var r := f + WorkspaceItems(n.workspaces);
    assert r[..|f|] == f;
    r
  }

  /** `it` is the folder item of a child of `n` that has contents. */
  predicate IsShownChildItem(n: FolderNode, condense: bool, it: TreeItem) {
    exists j :: 0 <= j < |n.children| && Shown(View(n.children[j].1, condense)) && it == ItemFor(View(n.children[j].1, condense))
  }

  /** The items list exactly the children with contents, then the workspaces. */
  lemma FolderNodeToItemsListsShown(n: FolderNode, condense: bool)
    ensures var r := FolderNodeToItems(n, condense);
            (forall j :: 0 <= j < |n.children| && Shown(View(n.children[j].1, condense)) ==>
               ItemFor(View(n.children[j].1, condense)) in r)
            && (forall k :: 0 <= k < |r| - |n.workspaces| ==> r[k].FolderItem? && IsShownChildItem(n, condense, r[k]))
  {
    var r := FolderNodeToItems(n, condense);
    var f := FolderItems(n, 0, condense);
    assert r[..|f|] == f;
    forall j | 0 <= j < |n.children| && Shown(View(n.children[j].1, condense))
      ensures ItemFor(View(n.children[j].1, condense)) in r
    {
      ShownChildListed(n, 0, condense, j);
      var k :| 0 <= k < |f| && f[k] == ItemFor(View(n.children[j].1, condense));
      assert r[k] == f[k];
    }
    forall k | 0 <= k < |r| - |n.workspaces|
      ensures r[k].FolderItem? && IsShownChildItem(n, condense, r[k])
    {
      assert r[k] == f[k];
      ListedIsShownChild(n, 0, condense, k);
    }
  }

  /** A child folder that holds a workspace anywhere below it is always
      listed, condensed or not. */
  lemma NonEmptyIsShown(c: FolderNode, condense: bool)
    requires Entries(c) != multiset{}
    ensures Shown(View(c, condense))
  {
    var v := View(c, condense);
    assert Entries(v) == Entries(c);
    EntriesSplit(v);
  }

  // ---------------------------------------------------------------------
  // findNodeRecursive / findNode

  /** `findNodeRecursive`: the node itself, else the first hit among the
      children in order, else the node condensed if that has the path. */
  function Find(n: FolderNode, target: string): (r: Option<FolderNode>)
    ensures r.Some? ==> r.value.fullPath == target
    decreases n, 1
  {
    if n.fullPath == target then Some(n)
    else
      var f := FindFrom(n, 0, target);
      if f.Some? then f
      else if Condensable(n) && Condense(n).fullPath == target then Some(Condense(n))
      else None
  }

  function FindFrom(n: FolderNode, i: nat, target: string): (r: Option<FolderNode>)
    requires i <= |n.children|
    ensures r.Some? ==> r.value.fullPath == target
    decreases n, 0, |n.children| - i
  {
    if i == |n.children| then None
    else
      var f := Find(n.children[i].1, target);
      if f.Some? then f else FindFrom(n, i + 1, target)
  }

  /** Some node of the (uncondensed) tree has the path. */
  predicate HasPath(n: FolderNode, target: string)
    decreases n, 1
  {
    n.fullPath == target || HasPathFrom(n, 0, target)
  }

  predicate HasPathFrom(n: FolderNode, i: nat, target: string)
    requires i <= |n.children|
    decreases n, 0, |n.children| - i
  {
    i < |n.children| && (HasPath(n.children[i].1, target) || HasPathFrom(n, i + 1, target))
  }

  /** The search succeeds exactly when a node of the tree has the path. */
  lemma {:induction false} FindComplete(n: FolderNode, target: string)
    ensures Find(n, target).Some? <==> HasPath(n, target)
    decreases n, 1
  {
    if n.fullPath != target {
      FindFromComplete(n, 0, target);
      if Condensable(n) && Condense(n).fullPath == target {
        DeepestHasPath(n.children[0].1);
        assert HasPathFrom(n, 0, target);
      }
    }
  }

  lemma {:induction false} FindFromComplete(n: FolderNode, i: nat, target: string)
    requires i <= |n.children|
    ensures FindFrom(n, i, target).Some? <==> HasPathFrom(n, i, target)
    decreases n, 0, |n.children| - i
  {
    if i < |n.children| {
      FindComplete(n.children[i].1, target);
      FindFromComplete(n, i + 1, target);
    }
  }

  /** The bottom of a chain is a node of the tree. */
  lemma {:induction false} DeepestHasPath(n: FolderNode)
    ensures HasPath(n, Deepest(n).fullPath)
    decreases n
  {
    if Condensable(n) {
      DeepestHasPath(n.children[0].1);
      assert HasPathFrom(n, 0, Deepest(n).fullPath);
    }
  }

  /** The search without the final condensed-path check. */
  function FindRaw(n: FolderNode, target: string): Option<FolderNode>
    decreases n, 1
  {
    if n.fullPath == target then Some(n) else FindRawFrom(n, 0, target)
  }

  function FindRawFrom(n: FolderNode, i: nat, target: string): Option<FolderNode>
    requires i <= |n.children|
    decreases n, 0, |n.children| - i
  {
    if i == |n.children| then None
    else
      var f := FindRaw(n.children[i].1, target);
      if f.Some? then f else FindRawFrom(n, i + 1, target)
  }

  /** The condensed-path check never decides the answer: a condensed node's
      path is that of the chain's last node, which the search over the
      children has already found. The result is always a node of the tree. */
  lemma {:induction false} FindIsRaw(n: FolderNode, target: string)
    ensures Find(n, target) == FindRaw(n, target)
    decreases n, 1
  {
    if n.fullPath != target {
      FindRawFromAgrees(n, 0, target);
      if FindFrom(n, 0, target).None? && Condensable(n) && Condense(n).fullPath == target {
        FindFromComplete(n, 0, target);
        DeepestHasPath(n.children[0].1);
        assert false;
      }
    }
  }

  lemma {:induction false} FindRawFromAgrees(n: FolderNode, i: nat, target: string)
    requires i <= |n.children|
    ensures FindFrom(n, i, target) == FindRawFrom(n, i, target)
    decreases n, 0, |n.children| - i
  {
    if i < |n.children| {
      FindIsRaw(n.children[i].1, target);
      FindRawFromAgrees(n, i + 1, target);
    }
  }

  /** `findNode`: the first root whose search succeeds. */
  function FindNode(roots: seq<FolderNode>, target: string): (r: Option<FolderNode>)
    ensures r.Some? ==> r.value.fullPath == target
    ensures r.Some? <==> exists i :: 0 <= i < |roots| && HasPath(roots[i], target)
  {
    if roots == [] then None
    else
      FindComplete(roots[0], target);
      var f := Find(roots[0], target);
      if f.Some? then f
      else
        var rest := FindNode(roots[1..], target);
        assert forall i :: 1 <= i < |roots| ==> roots[i] == roots[1..][i - 1];
        rest
  }

  // ---------------------------------------------------------------------
  // buildTreeView

  /** The replacement text `String.prototype.replace` inserts for a match of
      a plain string: `$$` gives one '$', `$&` the matched text, `` $` `` the
      text before the match and `$'` the text after it. Any other '$' stays
      as it is, since a string pattern has no capture groups. */
  function Expand(rep: string, matched: string, before: string, after: string): (r: string)
    ensures '$' !in rep ==> r == rep
    decreases |rep|
  {
    if rep == [] then []
    else if rep[0] == '$' && |rep| >= 2 && rep[1] in ['$', '&', '`', '\''] then
      var piece := match rep[1]
                   case '$' => "$"
                   case '&' => matched
                   case '`' => before
                   case _ => after;
      piece + Expand(rep[2..], matched, before, after)
    else
      assert '$' !in rep ==> '$' !in rep[1..];
      [rep[0]] + Expand(rep[1..], matched, before, after)
  }

  /** Every '$' doubled: the replacement text that stands for `s` itself. */
  function EscapeDollars(s: string): (r: string)
    ensures |r| >= |s|
  {
    if s == [] then []
    else (if s[0] == '$' then "$$" else [s[0]]) + EscapeDollars(s[1..])
  }

  /** Expanding a text whose every '$' is doubled gives the text back,
      whatever the match and its surroundings. */
  lemma {:induction false} ExpandEscaped(s: string, matched: string, before: string, after: string)
    ensures Expand(EscapeDollars(s), matched, before, after) == s
  {
    if s != [] {
      var e := EscapeDollars(s);
      ExpandEscaped(s[1..], matched, before, after);
      if s[0] == '$' {
        assert e == "$$" + EscapeDollars(s[1..]);
        assert e[2..] == EscapeDollars(s[1..]);
      } else {
        assert e == [s[0]] + EscapeDollars(s[1..]);
        assert e[1..] == EscapeDollars(s[1..]);
      }
      assert s == [s[0]] + s[1..];
    }
  }

  /** A configured root with a leading '~' replaced by the home directory,
      through `replace('~', home)`: the home directory is the replacement
      text, so its `$` patterns are expanded. */
  function ResolveRoot(root: string, home: string): (r: string)
    ensures !StartsWith(root, "~") ==> r == root
    ensures StartsWith(root, "~") ==> EndsWith(r, root[1..])
  {
    if StartsWith(root, "~") then Expand(home, "~", "", root[1..]) + root[1..] else root
  }

  /** A home directory without '$' is put in front of the rest as it is;
      a root without a leading '~' is kept. */
  lemma ResolveRootPlain(root: string, home: string)
    requires '$' !in home
    ensures StartsWith(root, "~") ==> ResolveRoot(root, home) == home + root[1..]
    ensures !StartsWith(root, "~") ==> ResolveRoot(root, home) == root
  {
  }

  /** With `HOME` set to `/h$$`, the root `~/x` resolves to `/h$/x`: the
      doubled '$' collapses, where `path.join` would keep both. */
  lemma ResolveRootDollar()
    ensures ResolveRoot("~/x", "/h$$") == "/h$/x"
  {
    var rest: string := "/x";
    assert "~/x"[..1] == "~" && "~/x"[1..] == rest;
    var tail := Expand("$$", "~", "", rest);
    assert "$$"[2..] == [];
    assert tail == "$";
    assert "h$$"[1..] == "$$" && "/h$$"[1..] == "h$$";
    assert Expand("/h$$", "~", "", rest) == "/h" + tail;
  }

  /** The per-root test: a plain character prefix of the file path or of its directory. */
  predicate UnderRoot(e: WorkspaceEntry, resolved: string) {
    StartsWith(e.filePath, resolved) || StartsWith(Directory(e), resolved)
  }

  /** The entries a root takes, in order. */
  function Placed(entries: seq<WorkspaceEntry>, resolved: string): (r: seq<WorkspaceEntry>)
    ensures forall e :: e in r <==> e in entries && UnderRoot(e, resolved)
  {
    if entries == [] then []
    else (if UnderRoot(entries[0], resolved) then [entries[0]] else []) + Placed(entries[1..], resolved)
  }

  /** Insert each entry under the root, in order. */
  function Fill(n: FolderNode, resolved: string, entries: seq<WorkspaceEntry>): (r: FolderNode)
    ensures r.name == n.name && r.fullPath == n.fullPath
    decreases |entries|
  {
    if entries == [] then n
    else
      var e := entries[0];
      var n' := if UnderRoot(e, resolved) then Insert(n, GetRelativeSegments(e, resolved), e) else n;
      Fill(n', resolved, entries[1..])
  }

  /** The root gains exactly the entries that pass its prefix test. */
  lemma {:induction false} FillEntries(n: FolderNode, resolved: string, entries: seq<WorkspaceEntry>)
    ensures Entries(Fill(n, resolved, entries)) == Entries(n) + multiset(Placed(entries, resolved))
    decreases |entries|
  {
    if entries != [] {
      var e := entries[0];
      if UnderRoot(e, resolved) {
        InsertEntries(n, GetRelativeSegments(e, resolved), e);
        FillEntries(Insert(n, GetRelativeSegments(e, resolved), e), resolved, entries[1..]);
      } else {
        FillEntries(n, resolved, entries[1..]);
      }
    }
  }

  lemma {:induction false} FillWellFormed(n: FolderNode, resolved: string, entries: seq<WorkspaceEntry>)
    requires WellFormed(n)
    ensures WellFormed(Fill(n, resolved, entries))
    decreases |entries|
  {
    if entries != [] {
      var e := entries[0];
      if UnderRoot(e, resolved) {
        InsertWellFormed(n, GetRelativeSegments(e, resolved), e);
        FillWellFormed(Insert(n, GetRelativeSegments(e, resolved), e), resolved, entries[1..]);
      } else {
        FillWellFormed(n, resolved, entries[1..]);
      }
    }
  }

  /** The node for one configured root. */
  function RootNode(resolved: string, entries: seq<WorkspaceEntry>): (r: FolderNode)
    ensures r.fullPath == resolved && r.name == Basename(resolved)
  {
    Fill(FolderNode(Basename(resolved), resolved, [], []), resolved, entries)
  }

  /** An entry is placed under a root exactly when the root is a character
      prefix of its path or directory; the tree built is well formed. */
  lemma RootNodeContents(resolved: string, entries: seq<WorkspaceEntry>)
    ensures forall e :: e in Entries(RootNode(resolved, entries)) <==> e in entries && UnderRoot(e, resolved)
    ensures Entries(RootNode(resolved, entries)) == multiset(Placed(entries, resolved))
    ensures WellFormed(RootNode(resolved, entries))
  {
    var root := FolderNode(Basename(resolved), resolved, [], []);
    EntriesSplit(root);
    FillEntries(root, resolved, entries);
    FillWellFormed(root, resolved, entries);
  }

  /** The resolved roots without repeats, in first-seen order: the keys of
      the `Map` that a repeated root overwrites in place. */
  function Distinct(xs: seq<string>): (r: seq<string>)
    ensures NoDuplicates(r)
    ensures forall x :: x in r <==> x in xs
    decreases |xs|
  {
    if xs == [] then []
    else
      var init := Distinct(xs[..|xs| - 1]);
      var last := xs[|xs| - 1];
      assert xs == xs[..|xs| - 1] + [last];
      if last in init then init else init + [last]
  }

  function ResolveAll(roots: seq<string>, home: string): (r: seq<string>)
    ensures |r| == |roots| && forall i :: 0 <= i < |roots| ==> r[i] == ResolveRoot(roots[i], home)
  {
    if roots == [] then [] else [ResolveRoot(roots[0], home)] + ResolveAll(roots[1..], home)
  }

  /** The roots that hold anything, in key order. */
  function ShownKeys(keys: seq<string>, entries: seq<WorkspaceEntry>): (r: seq<string>)
    ensures forall k :: k in r <==> k in keys && Shown(RootNode(k, entries))
    ensures Subsequence(r, keys)
    decreases |keys|
  {
    if keys == [] then []
    else
      var rest := ShownKeys(keys[1..], entries);
      assert keys == [keys[0]] + keys[1..];
      assert forall k :: k in keys <==> k == keys[0] || k in keys[1..];
      if Shown(RootNode(keys[0], entries)) then
        assert ([keys[0]] + rest)[1..] == rest;
        [keys[0]] + rest
      else rest
  }

  /** A subsequence of a list without repeats has no repeats. */
  lemma {:induction false} SubsequenceKeepsDistinct<T>(xs: seq<T>, ys: seq<T>)
    requires Subsequence(xs, ys) && NoDuplicates(ys)
    ensures NoDuplicates(xs) && forall x :: x in xs ==> x in ys
    decreases |ys|
  {
    if xs != [] {
      assert ys == [ys[0]] + ys[1..];
      assert NoDuplicates(ys[1..]) by {
        forall a, b | 0 <= a < b < |ys[1..]| ensures ys[1..][a] != ys[1..][b] {
          assert ys[1..][a] == ys[a + 1] && ys[1..][b] == ys[b + 1];
        }
      }
      if Subsequence(xs, ys[1..]) {
        SubsequenceKeepsDistinct(xs, ys[1..]);
      } else {
        SubsequenceKeepsDistinct(xs[1..], ys[1..]);
        assert xs == [xs[0]] + xs[1..];
        forall a, b | 0 <= a < b < |xs| ensures xs[a] != xs[b] {
          if a == 0 {
            assert xs[b] == xs[1..][b - 1];
            assert xs[b] in ys[1..];
            var m :| 0 <= m < |ys[1..]| && ys[1..][m] == xs[b];
            assert ys[m + 1] == xs[b];
          } else {
            assert xs[a] == xs[1..][a - 1] && xs[b] == xs[1..][b - 1];
          }
        }
      }
    }
  }

  /** The folder item of each of the roots `ks`, in order. */
  function FolderItemsOf(ks: seq<string>): (r: seq<TreeItem>)
    ensures |r| == |ks| && forall i :: 0 <= i < |r| ==> r[i] == FolderItem(Basename(ks[i]), ks[i])
  {
    seq(|ks|, i requires 0 <= i < |ks| => FolderItem(Basename(ks[i]), ks[i]))
  }

  lemma FolderItemsOfCons(ks: seq<string>)
    requires ks != []
    ensures FolderItemsOf(ks) == [FolderItem(Basename(ks[0]), ks[0])] + FolderItemsOf(ks[1..])
  {
    var r, tail := FolderItemsOf(ks), FolderItemsOf(ks[1..]);
    forall i | 1 <= i < |r| ensures r[i] == tail[i - 1] {
      assert ks[1..][i - 1] == ks[i];
    }
  }

  /** One folder item per root that holds anything, in key order. */
  function RootItems(keys: seq<string>, entries: seq<WorkspaceEntry>): (r: seq<TreeItem>)
    ensures r == FolderItemsOf(ShownKeys(keys, entries))
    decreases |keys|
  {
    if keys == [] then []
    else
      var node := RootNode(keys[0], entries);
      var rest := RootItems(keys[1..], entries);
      if Shown(node) then
        assert ShownKeys(keys, entries)[1..] == ShownKeys(keys[1..], entries);
        FolderItemsOfCons(ShownKeys(keys, entries));
        [FolderItem(node.name, node.fullPath)] + rest
      else rest
  }

  /** Every root that holds anything has its folder item listed ... */
  lemma ShownRootListed(keys: seq<string>, entries: seq<WorkspaceEntry>, k: string)
    requires k in keys && Shown(RootNode(k, entries))
    ensures FolderItem(Basename(k), k) in RootItems(keys, entries)
  {
    var sk := ShownKeys(keys, entries);
    var i :| 0 <= i < |sk| && sk[i] == k;
    assert RootItems(keys, entries)[i] == FolderItem(Basename(k), k);
  }

  /** ... and every listed item is the folder item of such a root. */
  lemma ListedRootShown(keys: seq<string>, entries: seq<WorkspaceEntry>, it: TreeItem)
    requires it in RootItems(keys, entries)
    ensures it.FolderItem? && it == FolderItem(Basename(it.folderPath), it.folderPath)
    ensures it.folderPath in keys && Shown(RootNode(it.folderPath, entries))
  {
    var r := RootItems(keys, entries);
    var sk := ShownKeys(keys, entries);
    var i :| 0 <= i < |r| && r[i] == it;
    assert sk[i] in sk;
  }

  /** With distinct keys, every root that holds anything appears as exactly
      one folder item. */
  lemma RootItemsOncePerKey(keys: seq<string>, entries: seq<WorkspaceEntry>)
    requires NoDuplicates(keys)
    ensures NoDuplicates(RootItems(keys, entries))
  {
    var sk := ShownKeys(keys, entries);
    SubsequenceKeepsDistinct(sk, keys);
  }

  /** `buildTreeView`: a single root shows its contents directly; otherwise
      each root with contents is shown as one folder, in the `Map`'s key
      order. */
  function BuildTreeView(roots: seq<string>, home: string, entries: seq<WorkspaceEntry>, condense: bool): (r: seq<TreeItem>)
    ensures var keys := Distinct(ResolveAll(roots, home));
            |keys| == 1 ==> r == FolderNodeToItems(RootNode(keys[0], entries), condense)
    ensures var keys := Distinct(ResolveAll(roots, home));
            var sk := ShownKeys(keys, entries);
            |keys| != 1 ==> |r| == |sk| && forall i :: 0 <= i < |r| ==> r[i] == FolderItem(Basename(sk[i]), sk[i])
    ensures var keys := Distinct(ResolveAll(roots, home));
            |keys| != 1 ==> forall k :: k in keys ==> (FolderItem(Basename(k), k) in r <==> Shown(RootNode(k, entries)))
    ensures var keys := Distinct(ResolveAll(roots, home));
            |keys| != 1 ==> forall it :: it in r ==> it.FolderItem? && it.folderPath in keys
    ensures |Distinct(ResolveAll(roots, home))| != 1 ==> NoDuplicates(r)
  {
    var keys := Distinct(ResolveAll(roots, home));
    if |keys| == 1 then FolderNodeToItems(RootNode(keys[0], entries), condense)
    else
      RootItemsOncePerKey(keys, entries);
      var r := RootItems(keys, entries);
      forall k | k in keys && Shown(RootNode(k, entries)) ensures FolderItem(Basename(k), k) in r {
        ShownRootListed(keys, entries, k);
      }
      forall it | it in r ensures it.FolderItem? && it.folderPath in keys && Shown(RootNode(it.folderPath, entries)) {
        ListedRootShown(keys, entries, it);
      }
      r
  }

  /** With a single root, the tree below the items shown holds exactly the
      entries under that root. */
  lemma SingleRootHoldsItsEntries(roots: seq<string>, home: string, entries: seq<WorkspaceEntry>, e: WorkspaceEntry)
    requires |Distinct(ResolveAll(roots, home))| == 1
    ensures var k := Distinct(ResolveAll(roots, home))[0];
            e in Entries(RootNode(k, entries)) <==> e in entries && UnderRoot(e, k)
  {
    RootNodeContents(Distinct(ResolveAll(roots, home))[0], entries);
  }

  // ---------------------------------------------------------------------
  // getRootChildren / getFolderChildren

  /** A node found by the search lies inside the tree searched: it holds no
      entry the tree does not hold. */
  lemma {:induction false} FindRawEntries(n: FolderNode, target: string)
    ensures FindRaw(n, target).Some? ==> Entries(FindRaw(n, target).value) <= Entries(n)
    decreases n, 1
  {
    if n.fullPath != target {
      FindRawFromEntries(n, 0, target);
    }
  }

  lemma {:induction false} FindRawFromEntries(n: FolderNode, i: nat, target: string)
    requires i <= |n.children|
    ensures FindRawFrom(n, i, target).Some? ==> Entries(FindRawFrom(n, i, target).value) <= EntriesFrom(n, i)
    decreases n, 0, |n.children| - i
  {
    if i < |n.children| {
      FindRawEntries(n.children[i].1, target);
      FindRawFromEntries(n, i + 1, target);
    }
  }

  /** The root whose search `findNode` returns. */
  lemma FindNodeAt(roots: seq<FolderNode>, target: string) returns (i: nat)
    requires FindNode(roots, target).Some?
    ensures i < |roots| && Find(roots[i], target) == FindNode(roots, target)
  {
    if Find(roots[0], target).Some? {
      i := 0;
    } else {
      var j := FindNodeAt(roots[1..], target);
      i := j + 1;
    }
  }

  /** The folder `findNode` returns lies inside one of the roots. */
  lemma FoundInsideARoot(tree: seq<FolderNode>, target: string)
    requires FindNode(tree, target).Some?
    ensures exists i :: 0 <= i < |tree| && Entries(FindNode(tree, target).value) <= Entries(tree[i])
  {
    var i := FindNodeAt(tree, target);
    FindIsRaw(tree[i], target);
    FindRawEntries(tree[i], target);
  }

  /** The workspace items of a folder are its own workspaces. */
  lemma ItemsListOwnWorkspaces(n: FolderNode, condense: bool)
    ensures var r := FolderNodeToItems(n, condense);
            forall k :: 0 <= k < |r| && r[k].WorkspaceItem? ==> r[k].entry in Entries(n)
  {
    var r := FolderNodeToItems(n, condense);
    var f := FolderItems(n, 0, condense);
    assert r[..|r| - |n.workspaces|] == f;
    forall k | 0 <= k < |r| && r[k].WorkspaceItem? ensures r[k].entry in Entries(n) {
      assert forall j :: 0 <= j < |f| ==> r[j] == f[j] && r[j].FolderItem?;
      var m := k - (|r| - |n.workspaces|);
      assert r[k] == WorkspaceItem(n.workspaces[m]);
      assert n.workspaces[m] in multiset(n.workspaces);
    }
  }

  /** `getFolderChildren`: the items of the folder with the path; nothing
      when no folder of the tree has it. Every workspace listed is one the
      tree holds. */
  function FolderChildren(tree: seq<FolderNode>, target: string, condense: bool): (r: seq<TreeItem>)
    ensures (forall i :: 0 <= i < |tree| ==> !HasPath(tree[i], target)) ==> r == []
    ensures FindNode(tree, target).Some? ==> r == FolderNodeToItems(FindNode(tree, target).value, condense)
    ensures forall k :: 0 <= k < |r| && r[k].WorkspaceItem? ==>
              exists i :: 0 <= i < |tree| && r[k].entry in Entries(tree[i])
  {
    match FindNode(tree, target)
    case None => []
    case Some(n) =>
      var r := FolderNodeToItems(n, condense);
      FoundInsideARoot(tree, target);
      ItemsListOwnWorkspaces(n, condense);
      r
  }

  /** When some root holds a folder with the path, `findNode` returns a
      folder with that path lying inside one of the roots, and the items
      are that folder's: one folder item per child with contents, then its
      own workspaces in stored order (`FolderNodeToItemsListsShown`). */
  lemma FolderChildrenOfFound(tree: seq<FolderNode>, target: string, condense: bool)
    requires exists i :: 0 <= i < |tree| && HasPath(tree[i], target)
    ensures FindNode(tree, target).Some?
    ensures var v := FindNode(tree, target).value;
            && v.fullPath == target
            && (exists i :: 0 <= i < |tree| && Entries(v) <= Entries(tree[i]))
            && FolderChildren(tree, target, condense) == FolderNodeToItems(v, condense)
  {
    FoundInsideARoot(tree, target);
  }

  /** `getRootChildren`: the entries sorted by the configured order; in list
      mode one item per entry, in tree mode the folder view built from the
      sorted entries. */
  function RootChildren(mode: ViewMode, order: Sorting.Order, entries: seq<WorkspaceEntry>,
                        roots: seq<string>, home: string, condense: bool): (r: seq<TreeItem>)
    ensures mode == List ==> |r| == |entries| && forall k :: 0 <= k < |r| ==> r[k].WorkspaceItem?
    ensures mode == List ==> Sorting.Sorted(order, seq(|r|, k requires 0 <= k < |r| => r[k].entry))
    ensures mode == List ==> multiset(seq(|r|, k requires 0 <= k < |r| => r[k].entry)) == multiset(entries)
    ensures mode == Tree ==> r == BuildTreeView(roots, home, Sorting.Sort(order, entries), condense)
  {
    var sorted := Sorting.Sort(order, entries);
    if mode == List then
      var r := WorkspaceItems(sorted);
      assert seq(|r|, k requires 0 <= k < |r| => r[k].entry) == sorted;
      r
    else BuildTreeView(roots, home, sorted, condense)
  }
}

=== FILE: util.dfy ===
/** Small shared vocabulary: optional values and the handful of sequence and
    string operations the JavaScript code gets from `Array.prototype` and
    `String.prototype` (`indexOf`, `includes`, `startsWith`, `endsWith`,
    `splice`, `filter`, `slice`). Each is defined once here and reused. */
module Util {

  /** `T | undefined` / `T | null` in the source. */
  datatype Option<+T> = None | Some(value: T) {
    function GetOr(default: T): T {
      match this
      case Some(v) => v
      case None => default
    }
  }

  /** `s.startsWith(p)` — a plain character prefix test. */
  predicate StartsWith<T(==)>(s: seq<T>, p: seq<T>) {
    |p| <= |s| && s[..|p|] == p
  }

  /** `s.endsWith(p)`. */
  predicate EndsWith<T(==)>(s: seq<T>, p: seq<T>) {
    |p| <= |s| && s[|s| - |p|..] == p
  }

  /** `xs.indexOf(x)`: the first position holding `x`, or -1. */
  function IndexOf<T(==)>(xs: seq<T>, x: T): (r: int)
    ensures -1 <= r < |xs|
    ensures r == -1 <==> x !in xs
    ensures 0 <= r ==> xs[r] == x && x !in xs[..r]
  {
    if xs == [] then -1
    else if xs[0] == x then 0
    else
      var k := IndexOf(xs[1..], x);
      assert xs[1..][..if k < 0 then 0 else k] == xs[1..1 + if k < 0 then 0 else k];
      if k < 0 then -1 else k + 1
  }

  /** The first occurrence, pinned down by its position. */
  lemma IndexOfAt<T>(xs: seq<T>, x: T, j: nat)
    requires j < |xs| && xs[j] == x && x !in xs[..j]
    ensures IndexOf(xs, x) == j
  {
  }

  /** `xs.splice(i, 1)`: drop the element at position `i`. */
  function RemoveAt<T>(xs: seq<T>, i: nat): (r: seq<T>)
    requires i < |xs|
    ensures |r| == |xs| - 1
    ensures r[..i] == xs[..i] && r[i..] == xs[i + 1..]
    ensures multiset(r) + multiset{xs[i]} == multiset(xs)
  {
    assert xs == xs[..i] + [xs[i]] + xs[i + 1..];
    xs[..i] + xs[i + 1..]
  }

  /** Drop the first occurrence of `x`, if any (`indexOf` then `splice`). */
  function RemoveFirst<T(==)>(xs: seq<T>, x: T): (r: seq<T>)
    ensures x !in xs ==> r == xs
    ensures x in xs ==> multiset(r) + multiset{x} == multiset(xs)
    ensures x in xs ==> exists i :: 0 <= i < |xs| && xs[i] == x && x !in xs[..i] && r == xs[..i] + xs[i + 1..]
  {
    var i := IndexOf(xs, x);
    if i < 0 then xs else RemoveAt(xs, i)
  }

  /** `xs` is `ys` with some elements left out, the rest in their order. */
  predicate Subsequence<T(==)>(xs: seq<T>, ys: seq<T>)
    decreases |ys|
  {
    xs == [] || (ys != [] && (Subsequence(xs, ys[1..]) || (xs[0] == ys[0] && Subsequence(xs[1..], ys[1..]))))
  }

  /** `xs.filter(y => y !== x)`: every occurrence of `x` removed, the other
      elements kept in their order and number. */
  function RemoveAll<T(==,!new)>(xs: seq<T>, x: T): (r: seq<T>)
    ensures x !in r
    ensures forall y :: y != x ==> (y in r <==> y in xs)
    ensures forall y :: y != x ==> multiset(r)[y] == multiset(xs)[y]
    ensures Subsequence(r, xs)
    ensures |r| <= |xs|
    ensures x !in xs ==> r == xs
  {
    if xs == [] then []
    else
      assert xs == [xs[0]] + xs[1..];
      var rest := RemoveAll(xs[1..], x);
      if xs[0] == x then rest
      else
        assert ([xs[0]] + rest)[1..] == rest;
        [xs[0]] + rest
  }

  /** `xs.slice(0, n)` with JavaScript's treatment of a negative end:
      `n < 0` counts back from the end of the array. */
  function SliceTo<T>(xs: seq<T>, n: int): (r: seq<T>)
    ensures 0 <= n ==> r == xs[..if n < |xs| then n else |xs|]
    ensures n < 0 ==> r == xs[..if |xs| + n < 0 then 0 else |xs| + n]
    ensures |r| <= |xs| && r == xs[..|r|]
  {
    var end := if n < 0 then |xs| + n else n;
    if end <= 0 then [] else if end >= |xs| then xs else xs[..end]
  }

  /** Elements with no repeats: the invariant of the source's `Set`s kept as arrays. */
  predicate NoDuplicates<T(==)>(xs: seq<T>) {
    forall i, j :: 0 <= i < j < |xs| ==> xs[i] != xs[j]
  }

  /** `String(n)` for a natural number, in decimal. */
  function NatToString(n: nat): (r: string)
    ensures |r| >= 1
    ensures forall i :: 0 <= i < |r| ==> '0' <= r[i] <= '9'
    ensures n >= 10 ==> |r| >= 2
  {
    if n < 10 then [DigitChar(n)] else NatToString(n / 10) + [DigitChar(n % 10)]
  }

  function DigitChar(d: nat): (c: char)
    requires d < 10
    ensures '0' <= c <= '9'
  {
    ('0' as int + d) as char
  }

  /** Distinct numbers print differently: decimal notation is injective. */
  lemma {:induction false} NatToStringInjective(a: nat, b: nat)
    requires NatToString(a) == NatToString(b)
    ensures a == b
  {
    if a < 10 && b < 10 {
      assert [DigitChar(a)] == [DigitChar(b)];
    } else if a >= 10 && b >= 10 {
      var sa, sb := NatToString(a / 10), NatToString(b / 10);
      assert (sa + [DigitChar(a % 10)])[..|sa|] == sa;
      assert (sb + [DigitChar(b % 10)])[..|sb|] == sb;
      NatToStringInjective(a / 10, b / 10);
      assert DigitChar(a % 10) == DigitChar(b % 10);
    } else {
      assert false;
    }
  }
}

=== FILE: workspace_entry.dfy ===
/** A discovered workspace: either a `.code-workspace` descriptor file or a
    folder holding a `.git` directory. Entries are immutable records; the
    derived views (`directory`, relative segments) are functions of the path. */
module WorkspaceEntries {
  import opened Util
  import opened NodePath
  import PathUtils

  /** The plain record the entry is built from; `folders` may be absent. */
  datatype WorkspaceData = WorkspaceData(
    filePath: string,
    name: string,
    isWorkspaceFile: bool,
    lastModified: int,
    folders: Option<seq<string>>)

  /** A discovered workspace. `lastModified` is the file's mtime in
      milliseconds, kept as an opaque integer. */
  datatype WorkspaceEntry = WorkspaceEntry(
    filePath: string,
    name: string,
    isWorkspaceFile: bool,
    lastModified: int,
    folders: seq<string>)

  /** The constructor: every field is copied, a missing folder list becomes []. */
  function FromData(d: WorkspaceData): (e: WorkspaceEntry)
    ensures e.filePath == d.filePath && e.name == d.name
    ensures e.isWorkspaceFile == d.isWorkspaceFile && e.lastModified == d.lastModified
    ensures e.folders == d.folders.GetOr([])
  {
    WorkspaceEntry(d.filePath, d.name, d.isWorkspaceFile, d.lastModified, d.folders.GetOr([]))
  }

  /** The record an entry exposes as `WorkspaceData`. */
  function ToData(e: WorkspaceEntry): WorkspaceData {
    WorkspaceData(e.filePath, e.name, e.isWorkspaceFile, e.lastModified, Some(e.folders))
  }

  /** Rebuilding an entry from its own record gives the same entry, and a
      record whose folder list is present survives the trip unchanged. */
  lemma DataRoundTrip(e: WorkspaceEntry, d: WorkspaceData)
    ensures FromData(ToData(e)) == e
    ensures d.folders.Some? ==> ToData(FromData(d)) == d
  {
  }

  /** The folder the entry lives in: `path.dirname(filePath)`. */
  function Directory(e: WorkspaceEntry): string {
    Dirname(e.filePath)
  }

  /** `fileName`: the last path component. */
  function FileName(e: WorkspaceEntry): string {
    Basename(e.filePath)
  }

  /** `extension`: `path.extname` of the path. */
  function Extension(e: WorkspaceEntry): string {
    Extname(e.filePath)
  }

  /** `getRelativeSegments(root)`: `path.relative(root, directory)` split on
      '/', with "" and "." read as "no segments". */
  function GetRelativeSegments(e: WorkspaceEntry, root: string): seq<string> {
    var rel := Relative(root, Directory(e));
    if rel == "" || rel == "." then [] else SplitOn(rel, Sep)
  }

  /** Splitting the joined relative path recovers the component list
      `path.relative` computed, except that a lone "." is read as none. */
  lemma RelativeSegmentsAgree(e: WorkspaceEntry, root: string)
    ensures var segs := RelativeSegments(root, Directory(e));
            GetRelativeSegments(e, root) == if segs == ["."] then [] else segs
  {
    var segs := RelativeSegments(root, Directory(e));
    var rel := JoinWith(segs, Sep);
    RelativeNames(root, Directory(e));
    JoinWithEmpty(segs, Sep);
    if segs == [] {
    } else if |segs| == 1 {
      SplitJoin(segs, Sep);
    } else {
      assert rel == segs[0] + [Sep] + JoinWith(segs[1..], Sep);
      assert |rel| >= 2;
      SplitJoin(segs, Sep);
    }
  }

  /** A directory strictly below the root yields exactly the components
      between the two. */
  lemma SegmentsBelowRoot(e: WorkspaceEntry, root: string, tail: seq<string>)
    requires Segments(Directory(e)) == Segments(root) + tail
    requires tail != ["."]
    ensures GetRelativeSegments(e, root) == tail
  {
    RelativeBelow(root, Directory(e), tail);
    RelativeSegmentsAgree(e, root);
  }

  /** A directory that is the root itself yields no segments. */
  lemma SegmentsAtRoot(e: WorkspaceEntry, root: string)
    requires Segments(Directory(e)) == Segments(root)
    ensures GetRelativeSegments(e, root) == []
  {
    assert Segments(Directory(e)) == Segments(root) + [];
    SegmentsBelowRoot(e, root, []);
  }

  /** `WorkspaceEntry.fromWorkspaceFile`: named after the file with the
      descriptor extension cut off, marked as a descriptor, folders kept. */
  function FromWorkspaceFile(filePath: string, lastModified: int, folders: Option<seq<string>>): (e: WorkspaceEntry)
    ensures e.filePath == filePath && e.isWorkspaceFile && e.lastModified == lastModified
    ensures e.folders == folders.GetOr([])
    ensures EndsWith(Basename(filePath), PathUtils.WorkspaceExt)
            && |Basename(filePath)| > |PathUtils.WorkspaceExt| ==>
              e.name + PathUtils.WorkspaceExt == Basename(filePath)
    ensures filePath != PathUtils.WorkspaceExt
            && !(EndsWith(Basename(filePath), PathUtils.WorkspaceExt)
                 && |Basename(filePath)| > |PathUtils.WorkspaceExt|) ==>
              e.name == Basename(filePath)
  {
    FromData(WorkspaceData(filePath, BasenameWithout(filePath, PathUtils.WorkspaceExt), true, lastModified, folders))
  }

  /** `WorkspaceEntry.fromGitFolder`: the folder itself is the path, its base
      name the name, and there are no folders. */
  function FromGitFolder(folderPath: string, lastModified: int): (e: WorkspaceEntry)
    ensures e.filePath == folderPath && e.name == Basename(folderPath)
    ensures !e.isWorkspaceFile && e.lastModified == lastModified && e.folders == []
  {
    FromData(WorkspaceData(folderPath, Basename(folderPath), false, lastModified, None))
  }

  /** The entry's name agrees with the display-name helper for every path
      other than the bare extension itself. */
  lemma NameAgreesWithHelper(filePath: string, lastModified: int, folders: Option<seq<string>>)
    requires filePath != PathUtils.WorkspaceExt
    ensures FromWorkspaceFile(filePath, lastModified, folders).name == PathUtils.WorkspaceNameFromPath(filePath)
  {
    var b := Basename(filePath);
    var x := PathUtils.WorkspaceExt;
    if EndsWith(b, x) && |b| > |x| {
      var n := FromWorkspaceFile(filePath, lastModified, folders).name;
      var m := PathUtils.WorkspaceNameFromPath(filePath);
      assert n == (n + x)[..|n|];
      assert m == (m + x)[..|m|];
    }
  }

  /** A descriptor written as `dir/NAME.code-workspace` is listed under the
      name NAME, in the folder `dir`. */
  lemma DescriptorInFolder(dir: string, n: string, lastModified: int, folders: Option<seq<string>>)
    requires JoinableDir(dir) && IsName(n)
    ensures var e := FromWorkspaceFile(Join(dir, n + PathUtils.WorkspaceExt), lastModified, folders);
            e.name == n && Directory(e) == dir
  {
    var x := PathUtils.WorkspaceExt;
    var p := Join(dir, n + x);
    assert Sep !in x;
    assert IsName(n + x) by {
      forall i | 0 <= i < |n + x| ensures (n + x)[i] != Sep {
        if i < |n| { assert (n + x)[i] == n[i]; assert n[i] in n; }
        else { assert (n + x)[i] == x[i - |n|]; }
      }
    }
    BasenameOfJoin(dir, n + x);
    DirnameOfJoin(dir, n + x);
    assert EndsWith(n + x, x) by { assert (n + x)[|n + x| - |x|..] == x; }
    JoinName(dir, n + x);
    var e := FromWorkspaceFile(p, lastModified, folders);
    assert e.name + x == n + x;
    assert e.name == (e.name + x)[..|e.name|];
    assert n == (n + x)[..|n|];
  }

  /** A git-folder entry built from `dir/NAME` is named NAME and lives in `dir`. */
  lemma GitFolderInFolder(dir: string, n: string, lastModified: int)
    requires JoinableDir(dir) && IsName(n)
    ensures var e := FromGitFolder(Join(dir, n), lastModified);
            e.name == n && Directory(e) == dir
  {
    BasenameOfJoin(dir, n);
    DirnameOfJoin(dir, n);
  }

  /** The file name and extension getters of a descriptor written as
      `dir/NAME.code-workspace`. */
  lemma DescriptorFileParts(dir: string, n: string, lastModified: int, folders: Option<seq<string>>)
    requires JoinableDir(dir) && IsName(n)
    ensures var e := FromWorkspaceFile(Join(dir, n + PathUtils.WorkspaceExt), lastModified, folders);
            FileName(e) == n + PathUtils.WorkspaceExt && Extension(e) == PathUtils.WorkspaceExt
  {
    var x := PathUtils.WorkspaceExt;
    var p := Join(dir, n + x);
    assert IsName(n + x) by {
      forall i | 0 <= i < |n + x| ensures (n + x)[i] != Sep {
        if i < |n| { assert (n + x)[i] == n[i]; assert n[i] in n; }
        else { assert (n + x)[i] == x[i - |n|]; }
      }
    }
    BasenameOfJoin(dir, n + x);
    assert EndsWith(n + x, x) by { assert (n + x)[|n + x| - |x|..] == x; }
    PathUtils.ExtnameIsWorkspaceExt(p);
  }
}
